=== FILE: README.md ===
# stream-sim simulation core in Dafny

This project models the engine of stream-sim, a cellular-automaton
simulator for pedestrian streams. The modelled parts are:

- **The world.** A rectangular grid `State`. Each cell is empty, holds a
  solid object (obstacle, source, target or person), or holds a walkable light
  barrier that a person may stand on. A per-type index of the occupied
  cells is kept alongside the grid.
- **The event-driven scheduler.** It drives everything else.
- **Sources.** They spawn people with a generated speed and patience, and
  schedule their next spawn.
- **Movement strategies.** A person moves to the neighbouring cell with the
  greatest descent of a potential. The potential is Euclidean, Dijkstra
  over the walkable cells, or the Fast Marching Method. It is corrected for
  diagonals and repelled by nearby people through a mollifier.
- **Targets.** They consume a person: remove them, or revive them at a
  random source.
- **The simulator life cycle.** Play, pause, reset, the processing of the
  next event, and the statistics: density, mean speed and flow through
  light barriers.

Modules follow the Java packages:

| module | file | Java code |
|---|---|---|
| `Locations` | `location.dfy` | `Location` |
| `ObjectTypes` | `objecttype.dfy` | `SimObjectType` |
| `SimObjects` | `objects.dfy` | the simulation objects and their configurations, `CellDescriptor` |
| `States` | `state.dfy` | `State`, `StateCell` |
| `Scheduling` | `scheduler.dfy` | `EventDrivenScheduler` |
| `JavaHeap` | `javaheap.dfy` | the `java.util.PriorityQueue` that the scheduler uses |
| `Persons` | `person.dfy` | `Person` |
| `Generators` | `generators.dfy` | the speed and patience generators, the spawn-rate strategies |
| `Spawning` | `spawn.dfy` | `DefaultSpawnStrategy` |
| `Neighbourhoods` | `neighbourhood.dfy` | the `forEachNeighbour` loops |
| `Potentials` | `potential.dfy` | `EuclideanMoveStrategy` |
| `DijkstraGraph` | `dijkstra.dfy` | `Graph`, `Node`, `DijkstraMoveStrategy` |
| `FastMarching` | `fmm.dfy` | `FastMarchingMethod`, `FastMarchingMethodMovementStrategy` |
| `Movement` | `movement.dfy` | `DefaultMovementStrategy` |
| `Stepping` | `step.dfy` | `DefaultMovementStrategy.move` |
| `Consuming` | `consume.dfy` | `RemoveConsumeStrategy`, `ReviveConsumeStrategy` |
| `Simulation` | `simulator.dfy` | `StreamSimulator` |

Four modules stand in for Java library behaviour:

- `JavaText`: 32-bit wrap-around, `Math.round`, `Integer.toString`,
  `Integer.parseInt` and `String.split`.
- `Randomness`: a seeded `Random`, as a stream of draws. Only the
  simulation's own draws are taken from it; see `Spawning.Spawn` under Left out.
- `RealMath`: doubles as `XReal`: exact reals plus the infinities and
  NaN. Overflow and rounding are not modelled (see Left out). Square root and exponential come from an `Oracle` parameter that states
  only their defining properties.
- `Wrappers`: `Option` and `Result`.

Java mutates objects in place. Every operation here is instead a pure
function from the old world to the new one. The exceptions the modelled
code throws become `Err` values; the few it does not reach are named
under Left out. A failed start of a run carries in its `Err` what Java has
already done before the throw (the simulator started and running, the
start announced, the spawns queued so far); the handlers' failures do not
(see Left out). The handlers the Java code schedules as closures become the
`Actions.Handler` tags `SpawnFrom(source)` and `MoveOf(person, mover)`.

**Code as written and code as intended.** Where the code departs from its
evident intent, both are modelled (see Findings): a member for the code as
written, with a lemma that shows the difference, and a corrected member.
The rest of the model builds on the corrected members:

- `Scheduling.ProcessNext` runs events with equal times in the order they
  were scheduled; the Java heap does not (`JavaHeap`).
- `States.SetCellOccupantChecked` refuses a cell holding a solid object;
  the code overwrites it (`States.SetCellOccupant`). `Spawning.Spawn` uses
  the checked form.
- `States.ObjectsOfType` and `Movement.CalculatePotential` list the person
  on a light barrier; the code lists the barrier and fails on the cast
  (`States.ObjectsForType`, `Movement.CalculatePotentialAsWritten`).
- `Simulation.TimeChange` measures the first statistics window from time
  0; the code measures it from -1 (`Simulation.TimeChangeAsWritten`).
- `Simulation.Reset` and `Simulation.Create` bring back the start state
  and start the statistics over. As written, `reset()` keeps the time of
  the last update, and its copy of the start state shares the grid with
  the running one (`State.clone()` copies no cells,
  `State.java:373-376`), so the grid is not restored
  (`Simulation.ResetAsWritten`).
- `Simulation.Terminate` builds on both; `Simulation.TerminateAsWritten`
  is the code.

## Model

| member | source | states |
|---|---|---|
| Locations.Equals | sim/src/main/java/edu/hm/cs/bess/streamsim/sim/model/misc/Location.java:52-61 | two locations are equal exactly when row and column agree |
| Locations.HashCode | sim/src/main/java/edu/hm/cs/bess/streamsim/sim/model/misc/Location.java:63-68 | the hash is a 32-bit int congruent to 31·row + column modulo 2^32 |
| Locations.HashConsistent | sim/src/main/java/edu/hm/cs/bess/streamsim/sim/model/misc/Location.java:63-68 | equal locations have equal hash codes |
| Locations.ToString | sim/src/main/java/edu/hm/cs/bess/streamsim/sim/model/misc/Location.java:70-73 | a key starts with `R` and contains the `C` separator |
| Locations.DeserializeKey | sim/src/main/java/edu/hm/cs/bess/streamsim/sim/model/misc/Location.java:78-90 | a key without `C` is rejected; every accepted key gives 32-bit coordinates; a first character above U+FFFF, two UTF-16 units of which only one is dropped, makes the key fail |
| Locations.KeyRoundTrip | sim/src/main/java/edu/hm/cs/bess/streamsim/sim/model/misc/Location.java:70-90 | deserialising the key of a location gives back that location |
| Locations.KeyIgnoresFirstCharacter | sim/src/main/java/edu/hm/cs/bess/streamsim/sim/model/misc/Location.java:82-83 | the first character of a key is dropped unread: any leading character up to U+FFFF other than `C` gives the same location, and one above U+FFFF leaves half a surrogate pair in front of the row, which fails to parse |
| Locations.DistanceCompare | sim/src/main/java/edu/hm/cs/bess/streamsim/sim/logic/move/DefaultMovementStrategy.java:257-270 | comparing the Euclidean distance with a radius agrees with comparing the squared distance with the squared radius |
| Locations.NeighbourDistance | sim/src/main/java/edu/hm/cs/bess/streamsim/sim/logic/move/DefaultMovementStrategy.java:279-281 | straight neighbours are 1 apart and diagonal ones √2 apart, both strictly between 0.95 and 1.5; cells two or more steps apart are at least 2 apart |
| ObjectTypes.Id | sim/src/main/java/edu/hm/cs/bess/streamsim/sim/model/object/SimObjectType.java:13-17 | type ids lie in 1..5 |
| ObjectTypes.IdsAndNamesDistinct | sim/src/main/java/edu/hm/cs/bess/streamsim/sim/model/object/SimObjectType.java:13-17 | both the id and the name identify the type |
| ObjectTypes.Lookup | sim/src/main/java/edu/hm/cs/bess/streamsim/sim/model/object/SimObjectType.java:52-58 | the lookup table has exactly the five ids as keys and maps each id back to its type |
| ObjectTypes.ForTypeId | sim/src/main/java/edu/hm/cs/bess/streamsim/sim/model/object/SimObjectType.java:52-61 | a type is found exactly for ids 1..5, and it carries the id asked for |
| ObjectTypes.ForTypeIdRoundTrip | sim/src/main/java/edu/hm/cs/bess/streamsim/sim/model/object/SimObjectType.java:52-61 | looking up the id of a type gives back that type |
| ObjectTypes.ForTypeIdCached | sim/src/main/java/edu/hm/cs/bess/streamsim/sim/model/object/SimObjectType.java:52-61 | the lazily filled table answers like the full lookup, whether or not it was already filled, and is full afterwards |
| SimObjects.LimitedIffNotUnlimited | sim/src/main/java/edu/hm/cs/bess/streamsim/sim/config/SourceConfiguration.java:82-93 | spawns are limited exactly when they are not unlimited |
| SimObjects.TypeOf | sim/src/main/java/edu/hm/cs/bess/streamsim/sim/model/object/SimObject.java:17 | only light barriers report the light-barrier type and only persons the person type |
| SimObjects.SetLocation | sim/src/main/java/edu/hm/cs/bess/streamsim/sim/model/object/source/Source.java:46-48 | only a person accepts a new location, and only its location changes; every other object refuses |
| SimObjects.IncreaseSpawnCounter | sim/src/main/java/edu/hm/cs/bess/streamsim/sim/model/object/source/Source.java:62-64 | the spawn counter grows by one with 32-bit wrap-around, and nothing else changes |
| SimObjects.CreateSimObject | sim/src/main/java/edu/hm/cs/bess/streamsim/sim/config/CellDescriptor.java:72-96 | an unknown type id is rejected; the object has the described type and location; a missing configuration gives the default one; a new source has counted no spawns; only a person takes the next person id |
| SimObjects.CreateWithoutConfiguration | sim/src/main/java/edu/hm/cs/bess/streamsim/sim/config/CellDescriptor.java:72-96 | every type can be created without a configuration and gets that type |
| SimObjects.WrongConfigurationIff | sim/src/main/java/edu/hm/cs/bess/streamsim/sim/config/CellDescriptor.java:80-92 | creation fails on the configuration exactly when a source is given a target configuration or a target a source configuration |
| JavaText.Wrap32 | sim/src/main/java/edu/hm/cs/bess/streamsim/sim/model/object/person/Person.java:69 | the result is a 32-bit int congruent to the input modulo 2^32, and an input already in range is unchanged |
| JavaText.Round | sim/src/main/java/edu/hm/cs/bess/streamsim/sim/logic/spawn/patience/NormPatienceGenerator.java:61 | the result is the nearest integer, with halves rounded up |
| JavaText.DigitsRoundTrip | sim/src/main/java/edu/hm/cs/bess/streamsim/sim/model/misc/Location.java:70-73 | the decimal digits written for a number read back as that number |
| JavaText.IntToString | sim/src/main/java/edu/hm/cs/bess/streamsim/sim/model/misc/Location.java:70-73 | the text is non-empty digits, with a leading minus exactly for negative numbers |
| JavaText.ParseInt | sim/src/main/java/edu/hm/cs/bess/streamsim/sim/model/misc/Location.java:86-87 | empty text is rejected and every accepted value is a 32-bit int |
| JavaText.ParseIntRoundTrip | sim/src/main/java/edu/hm/cs/bess/streamsim/sim/model/misc/Location.java:86-87 | parsing the text of a 32-bit int gives back the int |
| JavaText.SplitAll | sim/src/main/java/edu/hm/cs/bess/streamsim/sim/model/misc/Location.java:82 | splitting gives at least one part and no part contains the separator |
| JavaText.JoinSplitAll | sim/src/main/java/edu/hm/cs/bess/streamsim/sim/model/misc/Location.java:82 | joining the parts with the separator restores the text |
| JavaText.SplitAllJoin | sim/src/main/java/edu/hm/cs/bess/streamsim/sim/model/misc/Location.java:82 | splitting a join of separator-free parts gives back the parts |
| JavaText.StripTrailingEmpty | sim/src/main/java/edu/hm/cs/bess/streamsim/sim/model/misc/Location.java:82 | trailing empty parts are dropped: the result is a prefix whose last part is non-empty, and every dropped part is empty |
| JavaText.Split | sim/src/main/java/edu/hm/cs/bess/streamsim/sim/model/misc/Location.java:82 | text without the separator is one part, and no part contains the separator |
| Randomness.NextDouble | sim/src/main/java/edu/hm/cs/bess/streamsim/sim/logic/spawn/DefaultSpawnStrategy.java:56 | a draw lies in [0, 1) and consumes exactly one position of the stream |
| Randomness.NextInt | sim/src/main/java/edu/hm/cs/bess/streamsim/sim/logic/spawn/DefaultSpawnStrategy.java:60 | a non-positive bound is an error; otherwise the draw lies in [0, bound) and consumes one position |
| Persons.NewPerson | sim/src/main/java/edu/hm/cs/bess/streamsim/sim/model/object/person/Person.java:64-72 | the person has the given fields and the next id, the id counter advances with wrap-around, and the person starts with no failed moves and no records |
| Persons.AddMovementRecord | sim/src/main/java/edu/hm/cs/bess/streamsim/sim/model/object/person/Person.java:143-150 | exactly one record is appended, whose speed times the elapsed time is the distance; the move time advances and nothing else changes |
| Persons.CouldNotMove | sim/src/main/java/edu/hm/cs/bess/streamsim/sim/model/object/person/Person.java:184-186 | the failed-move counter grows by one with wrap-around, and nothing else changes |
| Persons.CouldMove | sim/src/main/java/edu/hm/cs/bess/streamsim/sim/model/object/person/Person.java:191-193 | the failed-move counter is reset to 0, and nothing else changes |
| Persons.SetTarget | sim/src/main/java/edu/hm/cs/bess/streamsim/sim/model/object/person/Person.java:120-122 | only the target changes |
| Persons.OperationsKeepIdentity | sim/src/main/java/edu/hm/cs/bess/streamsim/sim/model/object/person/Person.java:120-193 | no operation changes a person's id, source, speed or patience, and restoring the old target undoes a retarget |
| Persons.MeanSpeed | sim/src/main/java/edu/hm/cs/bess/streamsim/sim/model/object/person/Person.java:167-179 | the mean over the last window of records, or the nominal speed when the window is empty |
| Persons.FullMeanSpeed | sim/src/main/java/edu/hm/cs/bess/streamsim/sim/model/object/person/Person.java:157-159 | the mean times the number of records is their sum, or the nominal speed without records |
| Persons.MeanSpeedBounds | sim/src/main/java/edu/hm/cs/bess/streamsim/sim/model/object/person/Person.java:167-179 | a windowed mean lies between the lowest and highest recorded speeds |
| Persons.LastRecordIsWindowOfOne | sim/src/main/java/edu/hm/cs/bess/streamsim/sim/model/object/person/Person.java:143-179 | after a move, a window of one gives that move's speed: distance over elapsed time |
| Generators.ClampIsNearest | sim/src/main/java/edu/hm/cs/bess/streamsim/sim/logic/spawn/speed/NormSpeedGenerator.java:58-63 | clamping gives the point of the interval nearest to the value, keeps inside values, and is idempotent |
| Generators.InitPatience | sim/src/main/java/edu/hm/cs/bess/streamsim/sim/logic/spawn/patience/NormPatienceGenerator.java:66-72 | a distribution is created only for a positive maximum deviation, with a third of it as the standard deviation |
| Generators.PatienceFloor | sim/src/main/java/edu/hm/cs/bess/streamsim/sim/logic/spawn/patience/NormPatienceGenerator.java:54-63 | the lower patience bound is never negative |
| Generators.PatienceWithoutDistribution | sim/src/main/java/edu/hm/cs/bess/streamsim/sim/logic/spawn/patience/NormPatienceGenerator.java:54-63 | without a distribution or deviation, every patience is the mean, whatever the sample |
| Generators.PatienceIsNearestInRange | sim/src/main/java/edu/hm/cs/bess/streamsim/sim/logic/spawn/patience/NormPatienceGenerator.java:54-63 | a generated patience is never negative, and for a non-empty range it is the integer of the range nearest to the sample |
| Generators.InitialisedPatienceRange | sim/src/main/java/edu/hm/cs/bess/streamsim/sim/logic/spawn/patience/NormPatienceGenerator.java:54-72 | after `init`, a non-negative mean with positive deviation has a distribution and a non-empty range |
| Generators.GenerateSpeed | sim/src/main/java/edu/hm/cs/bess/streamsim/sim/logic/spawn/speed/FixedSpeedGenerator.java:39-41 | a fixed generator always yields its configured speed |
| Generators.NormSpeedIsNearestInBand | sim/src/main/java/edu/hm/cs/bess/streamsim/sim/logic/spawn/speed/NormSpeedGenerator.java:58-63 | a normal speed lies within one deviation of the mean and is the point of that band nearest to the sample |
| Generators.SpeedGeneratorName | sim/src/main/java/edu/hm/cs/bess/streamsim/sim/logic/spawn/speed/FixedSpeedGenerator.java:18 | generator names are non-empty |
| Generators.SpawnStrategyName | sim/src/main/java/edu/hm/cs/bess/streamsim/sim/logic/spawn/FixedRateSpawnStrategy.java:18 | strategy names are non-empty |
| Generators.NamesIdentifyKinds | sim/src/main/java/edu/hm/cs/bess/streamsim/sim/logic/spawn/speed/NormSpeedGenerator.java:20 | two generators, or two spawn strategies, share a name exactly when they are of the same kind |
| Generators.NextSpawnTime | sim/src/main/java/edu/hm/cs/bess/streamsim/sim/logic/spawn/PoissonSpawnStrategy.java:55-57 | a Poisson delay is a whole, non-negative number |
| Generators.FixedRateIsConstant | sim/src/main/java/edu/hm/cs/bess/streamsim/sim/logic/spawn/FixedRateSpawnStrategy.java:41-47 | a fixed rate is the same on every call and is what `getFixedRate` reports |
| Scheduling.NewScheduler | sim/src/main/java/edu/hm/cs/bess/streamsim/sim/scheduler/EventDrivenScheduler.java:27-33 | a new scheduler starts at the given time with nothing pending |
| Scheduling.CurrentTime | sim/src/main/java/edu/hm/cs/bess/streamsim/sim/scheduler/EventDrivenScheduler.java:63-65 | the current time never passes a pending event |
| Scheduling.Insert | sim/src/main/java/edu/hm/cs/bess/streamsim/sim/scheduler/EventDrivenScheduler.java:48 | adding an event keeps the queue ordered and adds exactly that event |
| Scheduling.ScheduleIn | sim/src/main/java/edu/hm/cs/bess/streamsim/sim/scheduler/EventDrivenScheduler.java:36-49 | a negative delay is an error; otherwise exactly one event is added at now + delay, or, when that sum rounded to the nearest double is `Double.MAX_VALUE` (the exact sum lies within 2^970 of it), the clock is first reset to 0 |
| Scheduling.OverflowResetsClock | sim/src/test/java/edu/hm/cs/bess/streamsim/sim/scheduler/EventDrivenSchedulerTest.java:16-30 | from a clock of `Double.MAX_VALUE - 5`, scheduling in 3 resets the clock to 0 and queues at 3, and a handler scheduled next in 10 is queued after it |
| Scheduling.ResetTime | sim/src/main/java/edu/hm/cs/bess/streamsim/sim/scheduler/EventDrivenScheduler.java:54-60 | the clock goes to 0 and every pending event moves back by the old time, in the same order |
| Scheduling.Clear | sim/src/main/java/edu/hm/cs/bess/streamsim/sim/scheduler/EventDrivenScheduler.java:68-71 | nothing stays pending and the clock is 0 |
| Scheduling.ProcessNext | sim/src/main/java/edu/hm/cs/bess/streamsim/sim/scheduler/EventDrivenScheduler.java:74-85 | nothing happens exactly when nothing is pending; otherwise an earliest event, the first scheduled among equal times, is removed, the clock moves to its time and its handler runs |
| Scheduling.PeekNextTimestamp | sim/src/main/java/edu/hm/cs/bess/streamsim/sim/scheduler/EventDrivenScheduler.java:88-90 | absent exactly when nothing is pending; otherwise the smallest pending time, not before now |
| Scheduling.PeekAgreesWithProcessNext | sim/src/main/java/edu/hm/cs/bess/streamsim/sim/scheduler/EventDrivenScheduler.java:74-90 | the peeked time is the time that processing the next event moves the clock to |
| Scheduling.ScheduledEvent | sim/src/main/java/edu/hm/cs/bess/streamsim/sim/scheduler/EventDrivenScheduler.java:36-49 | scheduling without hitting the bound keeps the clock and adds exactly the event at now + delay |
| Scheduling.FifoOnEqualTimestamps | sim/src/main/java/edu/hm/cs/bess/streamsim/sim/scheduler/event/Event.java:53-55 | two events scheduled for the same time stay in the order they were scheduled |
| Scheduling.ProcessNextTwice | sim/src/main/java/edu/hm/cs/bess/streamsim/sim/scheduler/EventDrivenScheduler.java:74-85 | two steps run the first two events in queue order, and the clock never goes back |
| Scheduling.ProcessNextTakesHandler | sim/src/main/java/edu/hm/cs/bess/streamsim/sim/scheduler/EventDrivenScheduler.java:74-85 | the handler run was pending, and it is removed exactly once |
| JavaHeap.SiftUp | sim/src/main/java/edu/hm/cs/bess/streamsim/sim/scheduler/EventDrivenScheduler.java:20 | sifting up replaces one slot's element by the new one and permutes the rest |
| JavaHeap.SiftDown | sim/src/main/java/edu/hm/cs/bess/streamsim/sim/scheduler/EventDrivenScheduler.java:20 | sifting down replaces one slot's element by the new one and permutes the rest |
| JavaHeap.Offer | sim/src/main/java/edu/hm/cs/bess/streamsim/sim/scheduler/EventDrivenScheduler.java:20 | offering adds exactly the element |
| JavaHeap.Poll | sim/src/main/java/edu/hm/cs/bess/streamsim/sim/scheduler/EventDrivenScheduler.java:20 | polling returns the root and removes exactly it |
| JavaHeap.FourOffers | sim/src/main/java/edu/hm/cs/bess/streamsim/sim/scheduler/EventDrivenScheduler.java:48 | the heap layout after three events at one time and a fourth earlier one |
| JavaHeap.EqualTimestampsNotFifo | sim/src/main/java/edu/hm/cs/bess/streamsim/sim/scheduler/event/Event.java:53-55 | with A, B, C scheduled at one time and D earlier, the second poll yields B although A was scheduled first |
| States.Columns | sim/src/main/java/edu/hm/cs/bess/streamsim/sim/model/state/State.java:60-62 | a grid without rows has no columns |
| States.NewState | sim/src/main/java/edu/hm/cs/bess/streamsim/sim/model/state/State.java:45-53 | a new world has every cell empty and an empty index, and satisfies the index invariant |
| States.CellOccupant | sim/src/main/java/edu/hm/cs/bess/streamsim/sim/model/state/State.java:235-237 | absent exactly for an empty cell |
| States.OccupantType | sim/src/main/java/edu/hm/cs/bess/streamsim/sim/model/object/WalkableSimObject.java:36-37 | an empty cell has no type; a ridden light barrier reports its rider's type |
| States.UpperCellOccupant | sim/src/main/java/edu/hm/cs/bess/streamsim/sim/model/state/State.java:245-259 | absent exactly for an empty cell; a ridden barrier yields its rider |
| States.ObjectTypeCount | sim/src/main/java/edu/hm/cs/bess/streamsim/sim/model/state/State.java:267-279 | the number of indexed cells, 0 for a type with no index entry |
| States.ObjectTypeCountIsCellCount | sim/src/main/java/edu/hm/cs/bess/streamsim/sim/model/state/State.java:267-279 | under the index invariant, the count is the number of cells holding the type |
| States.SetCellOccupant | sim/src/main/java/edu/hm/cs/bess/streamsim/sim/model/state/State.java:79-112 | null is refused, and a ridden barrier is refused; otherwise the object is installed (as a rider on a free barrier), its cell joins its type's index, other types are untouched, and the event is Added or Changed |
| States.SetCellOccupantKeepsInv | sim/src/main/java/edu/hm/cs/bess/streamsim/sim/model/state/State.java:79-112 | placing on a cell that can be occupied succeeds and keeps the index invariant |
| States.OverwriteLeavesStaleIndex | sim/src/main/java/edu/hm/cs/bess/streamsim/sim/model/state/State.java:100-106 | overwriting a solid occupant of another type succeeds but leaves the old type indexed at the cell, so the index no longer mirrors the grid |
| States.SetCellOccupantChecked | sim/src/main/java/edu/hm/cs/bess/streamsim/sim/model/state/State.java:89-93 | succeeds exactly on a cell that can be occupied, and then agrees with `SetCellOccupant`; a solid occupant is refused |
| States.SetCellOccupantCheckedKeepsInv | sim/src/main/java/edu/hm/cs/bess/streamsim/sim/model/state/State.java:79-112 | the checked placement always keeps the index invariant |
| States.MoveOccupant | sim/src/main/java/edu/hm/cs/bess/streamsim/sim/model/state/State.java:121-175 | a move to the same cell or a blocked cell changes nothing; an empty origin is an error; a non-person is taken off and then refused; a person moves with its location updated, the index follows, entering a barrier triggers it, and two update events are sent |
| States.MoveKeepsInv | sim/src/main/java/edu/hm/cs/bess/streamsim/sim/model/state/State.java:121-175 | a successful move keeps the index invariant and every type's count |
| States.RemoveOccupant | sim/src/main/java/edu/hm/cs/bess/streamsim/sim/model/state/State.java:183-227 | an empty cell is left alone; otherwise the upper object is removed (a rider leaves its barrier), its type's index loses the cell and one event is sent |
| States.RemoveKeepsInv | sim/src/main/java/edu/hm/cs/bess/streamsim/sim/model/state/State.java:183-227 | removal keeps the invariant, frees the cell, and lowers the removed type's count by one |
| States.CanBeOccupiedIff | sim/src/main/java/edu/hm/cs/bess/streamsim/sim/model/state/State.java:321-333 | a cell can be occupied exactly when nothing on it can move; a non-walkable occupant blocks it; a free cell can be occupied |
| States.ObjectsForType | sim/src/main/java/edu/hm/cs/bess/streamsim/sim/model/state/State.java:287-299 | a listed location off the grid or an empty listed cell throws (out of bounds first, else `NoSuchElementException`); otherwise one object per indexed cell, namely the object the cell stores, and no more objects than cells |
| States.StaleIndexBreaksListing | sim/src/main/java/edu/hm/cs/bess/streamsim/sim/model/state/State.java:100-106 | storing an object over a solid occupant of another type and then removing it leaves the old type listing an empty cell, and listing that type throws `NoSuchElementException` |
| States.RiderListedAsWalkable | sim/src/main/java/edu/hm/cs/bess/streamsim/sim/model/state/State.java:294 | with a person on a light barrier, the persons listed include an object that is not a person |
| States.ObjectsOfType | sim/src/main/java/edu/hm/cs/bess/streamsim/sim/model/state/State.java:287-299 | every listed object has the asked type, and every indexed cell contributes its object of that type |
| States.ObjectsOfTypeArePeople | sim/src/main/java/edu/hm/cs/bess/streamsim/sim/model/state/State.java:287-299 | every standing person, ridden barriers included, is listed, and only persons are |
| Neighbourhoods.Neighbours | sim/src/main/java/edu/hm/cs/bess/streamsim/sim/logic/move/DefaultMovementStrategy.java:385-423 | exactly the cells of the box clipped to the grid, except the centre, each once, in row-major order, with the count given by the clipped box |
| Neighbourhoods.GridCells | sim/src/main/java/edu/hm/cs/bess/streamsim/sim/logic/spawn/DefaultSpawnStrategy.java:130-144 | every grid cell, in row-major order |
| Neighbourhoods.NeighboursInGrid | sim/src/main/java/edu/hm/cs/bess/streamsim/sim/logic/move/DefaultMovementStrategy.java:385-423 | every neighbour lies on the grid |
| Neighbourhoods.UnitNeighbours | sim/src/main/java/edu/hm/cs/bess/streamsim/sim/logic/move/util/fmm/FastMarchingMethod.java:175-183 | the neighbours at offset 1 are exactly the grid cells one king's move away |
| Neighbourhoods.InteriorHasEight | sim/src/main/java/edu/hm/cs/bess/streamsim/sim/logic/move/DefaultMovementStrategy.java:385-423 | an interior cell has eight neighbours |
| Neighbourhoods.CornerHasThree | sim/src/main/java/edu/hm/cs/bess/streamsim/sim/logic/move/DefaultMovementStrategy.java:385-423 | the corner cell has three neighbours |
| Neighbourhoods.ClippedBoxHasEleven | sim/src/main/java/edu/hm/cs/bess/streamsim/sim/logic/move/DefaultMovementStrategy.java:385-423 | a 5×3 box whose top row is clipped off holds eleven neighbours |
| Potentials.EuclideanPotential | sim/src/main/java/edu/hm/cs/bess/streamsim/sim/logic/move/EuclideanMoveStrategy.java:37-50 | the field covers the grid with non-negative values, is 0 without a target, and otherwise each value squared is the squared distance to the target |
| Potentials.EuclideanZeroOnlyAtTarget | sim/src/main/java/edu/hm/cs/bess/streamsim/sim/logic/move/EuclideanMoveStrategy.java:37-50 | the potential is 0 exactly at the target |
| Potentials.EuclideanMonotone | sim/src/main/java/edu/hm/cs/bess/streamsim/sim/logic/move/EuclideanMoveStrategy.java:37-50 | one cell has a lower potential than another exactly when it is nearer to the target |
| DijkstraGraph.IsAdjacentIffTouching | sim/src/main/java/edu/hm/cs/bess/streamsim/sim/logic/move/util/dijkstra/Node.java:65-69 | two nodes are adjacent exactly when their cells are one king's move apart |
| DijkstraGraph.AddAdjacent | sim/src/main/java/edu/hm/cs/bess/streamsim/sim/logic/move/util/dijkstra/Node.java:76-85 | an adjacent node is linked in both directions; nothing else is linked |
| DijkstraGraph.NodeCells | sim/src/main/java/edu/hm/cs/bess/streamsim/sim/logic/move/util/dijkstra/Graph.java:47-59 | nodes are the cells that can be occupied, plus the target cell when a target stands on it |
| DijkstraGraph.Adjacency | sim/src/main/java/edu/hm/cs/bess/streamsim/sim/logic/move/util/dijkstra/Graph.java:61-78 | each node's candidates are exactly the nodes one king's move away |
| DijkstraGraph.AdjacencyOk | sim/src/main/java/edu/hm/cs/bess/streamsim/sim/logic/move/util/dijkstra/Graph.java:61-78 | adjacency is symmetric and irreflexive |
| DijkstraGraph.MakeGraph | sim/src/main/java/edu/hm/cs/bess/streamsim/sim/logic/move/util/dijkstra/Graph.java:18-25 | the graph is well formed, has the node cells, and is attached exactly when a target stands on the target cell |
| DijkstraGraph.MakeGraphShape | sim/src/main/java/edu/hm/cs/bess/streamsim/sim/logic/move/util/dijkstra/Graph.java:33-45 | nodes lie on the grid, an attached target is a node, and edges join exactly the nodes one king's move apart |
| DijkstraGraph.GraphWeight | sim/src/main/java/edu/hm/cs/bess/streamsim/sim/logic/move/util/dijkstra/Node.java:80-81 | an edge weighs the Euclidean distance between its cells |
| DijkstraGraph.LinkAll | sim/src/main/java/edu/hm/cs/bess/streamsim/sim/logic/move/util/dijkstra/Graph.java:38-41 | links only grow, and every adjacent candidate is linked |
| DijkstraGraph.Connect | sim/src/main/java/edu/hm/cs/bess/streamsim/sim/logic/move/util/dijkstra/Graph.java:33-45 | links only grow, and every visited node is linked to every node one king's move away |
| DijkstraGraph.BuildLinks | sim/src/main/java/edu/hm/cs/bess/streamsim/sim/logic/move/util/dijkstra/Graph.java:33-45 | the links built node by node are exactly the graph's adjacency |
| DijkstraGraph.SetDistance | sim/src/main/java/edu/hm/cs/bess/streamsim/sim/logic/move/util/dijkstra/Node.java:33-49 | distances only fall; a larger offer changes nothing; an accepted offer sets the node at most to the offer |
| DijkstraGraph.RelaxEdges | sim/src/main/java/edu/hm/cs/bess/streamsim/sim/logic/move/util/dijkstra/Node.java:38-48 | distances only fall, and each listed neighbour ends at most the offer plus the edge weight |
| DijkstraGraph.SetDistanceRelaxes | sim/src/main/java/edu/hm/cs/bess/streamsim/sim/logic/move/util/dijkstra/Node.java:33-49 | every node that was relaxed, was lowered, or took the offer is relaxed afterwards: no edge leaves it shortening a neighbour |
| DijkstraGraph.SetDistanceNonNegative | sim/src/main/java/edu/hm/cs/bess/streamsim/sim/logic/move/util/dijkstra/Node.java:33-49 | non-negative offers keep all distances non-negative |
| DijkstraGraph.SetDistanceSupported | sim/src/main/java/edu/hm/cs/bess/streamsim/sim/logic/move/util/dijkstra/Node.java:33-49 | every finite distance stays backed by a neighbour, or by the target at 0 |
| DijkstraGraph.Unreached | sim/src/main/java/edu/hm/cs/bess/streamsim/sim/logic/move/util/dijkstra/Node.java:18 | every node starts at `Double.MAX_VALUE` |
| DijkstraGraph.Distances | sim/src/main/java/edu/hm/cs/bess/streamsim/sim/logic/move/util/dijkstra/Graph.java:80-82 | without a target every node stays at `Double.MAX_VALUE`; otherwise the target is 0 and the distances are non-negative, at most `MAX_VALUE`, relaxed along every edge, and backed by a neighbour |
| DijkstraGraph.WriteDistances | sim/src/main/java/edu/hm/cs/bess/streamsim/sim/logic/move/util/dijkstra/Graph.java:84-93 | the matrix covers the grid with a node's distance on node cells and `MAX_VALUE` elsewhere |
| DijkstraGraph.PotentialOf | sim/src/main/java/edu/hm/cs/bess/streamsim/sim/logic/move/DijkstraMoveStrategy.java:75-87 | the field covers the grid with values in [0, MAX_VALUE], non-nodes at `MAX_VALUE`, the target at 0, and everything at `MAX_VALUE` without a target |
| DijkstraGraph.DijkstraPotential | sim/src/main/java/edu/hm/cs/bess/streamsim/sim/logic/move/DijkstraMoveStrategy.java:75-87 | the field covers the grid with values in [0, MAX_VALUE]; blocked cells are `MAX_VALUE`; the target cell is 0 when a target stands on it, and otherwise every value is `MAX_VALUE` |
| DijkstraGraph.DijkstraPotentialRelaxed | sim/src/main/java/edu/hm/cs/bess/streamsim/sim/logic/move/DijkstraMoveStrategy.java:75-87 | for neighbouring nodes, one's potential never exceeds the other's plus their distance |
| DijkstraGraph.DijkstraPotentialReached | sim/src/main/java/edu/hm/cs/bess/streamsim/sim/logic/move/DijkstraMoveStrategy.java:75-87 | a node other than the target is unreached, or a neighbour's potential plus their distance is at most its own |
| DijkstraGraph.DistancesReached | sim/src/main/java/edu/hm/cs/bess/streamsim/sim/logic/move/util/dijkstra/Node.java:33-49 | a node other than the target is unreached, or some neighbour's distance plus the edge bounds it |
| FastMarching.Inverse | sim/src/main/java/edu/hm/cs/bess/streamsim/sim/logic/move/util/fmm/FastMarchingMethod.java:131-132 | the inverse speed is positive and times the speed gives 1 |
| FastMarching.Initialize | sim/src/main/java/edu/hm/cs/bess/streamsim/sim/logic/move/util/fmm/FastMarchingMethod.java:153-167 | the matrix covers the grid, finite exactly where an initial value is given and equal to it, +∞ elsewhere |
| FastMarching.Upwind | sim/src/main/java/edu/hm/cs/bess/streamsim/sim/logic/move/util/fmm/FastMarchingMethod.java:123-129 | the smallest axial neighbour value is never NaN or −∞ |
| FastMarching.UpwindBelow | sim/src/main/java/edu/hm/cs/bess/streamsim/sim/logic/move/util/fmm/FastMarchingMethod.java:123-129 | the upwind value is at most every axial neighbour's value |
| FastMarching.UpwindAttained | sim/src/main/java/edu/hm/cs/bess/streamsim/sim/logic/move/util/fmm/FastMarchingMethod.java:123-129 | a finite upwind value is some axial neighbour's value |
| FastMarching.TakesTwoSided | sim/src/main/java/edu/hm/cs/bess/streamsim/sim/logic/move/util/fmm/FastMarchingMethod.java:134 | the two-sided formula is taken exactly when both sides are finite and differ by at most the inverse speed |
| FastMarching.Combine | sim/src/main/java/edu/hm/cs/bess/streamsim/sim/logic/move/util/fmm/FastMarchingMethod.java:134-138 | the update value is never NaN or −∞ |
| FastMarching.Discriminant | sim/src/main/java/edu/hm/cs/bess/streamsim/sim/logic/move/util/fmm/FastMarchingMethod.java:135 | when the two-sided formula is taken, the square root's argument is non-negative |
| FastMarching.CombineBounds | sim/src/main/java/edu/hm/cs/bess/streamsim/sim/logic/move/util/fmm/FastMarchingMethod.java:134-138 | the update is infinite exactly when both sides are; otherwise it lies between the smaller side plus half the inverse speed and that side plus the inverse speed, and the two-sided value is at least both sides |
| FastMarching.OneSided | sim/src/main/java/edu/hm/cs/bess/streamsim/sim/logic/move/util/fmm/FastMarchingMethod.java:136-137 | otherwise the update is the smaller side plus the inverse speed |
| FastMarching.Solve | sim/src/main/java/edu/hm/cs/bess/streamsim/sim/logic/move/util/fmm/FastMarchingMethod.java:122-139 | the value computed from the four axial neighbours is never NaN or −∞ |
| FastMarching.SolveBounds | sim/src/main/java/edu/hm/cs/bess/streamsim/sim/logic/move/util/fmm/FastMarchingMethod.java:122-139 | the bounds of `CombineBounds`, stated on the four axial neighbours |
| FastMarching.Value | sim/src/main/java/edu/hm/cs/bess/streamsim/sim/logic/move/util/fmm/FastMarchingMethod.java:122-139 | a cell's update is infinite exactly when its upwind value is, and otherwise lies between upwind + inverse/2 and upwind + inverse |
| FastMarching.Consider | sim/src/main/java/edu/hm/cs/bess/streamsim/sim/logic/move/util/fmm/FastMarchingMethod.java:84-103 | considering a neighbour keeps the front well formed and only grows it |
| FastMarching.ConsiderAll | sim/src/main/java/edu/hm/cs/bess/streamsim/sim/logic/move/util/fmm/FastMarchingMethod.java:83-104 | considering all neighbours keeps the front well formed and only grows it |
| FastMarching.ConsiderQueues | sim/src/main/java/edu/hm/cs/bess/streamsim/sim/logic/move/util/fmm/FastMarchingMethod.java:84-103 | an unfixed neighbour with a finite upwind value ends up queued |
| FastMarching.ConsiderAllQueues | sim/src/main/java/edu/hm/cs/bess/streamsim/sim/logic/move/util/fmm/FastMarchingMethod.java:83-104 | every unfixed neighbour with a finite upwind value ends up queued |
| FastMarching.UpwindLowers | sim/src/main/java/edu/hm/cs/bess/streamsim/sim/logic/move/util/fmm/FastMarchingMethod.java:108 | fixing an infinite cell never raises any upwind value |
| FastMarching.Poll | sim/src/main/java/edu/hm/cs/bess/streamsim/sim/logic/move/util/fmm/FastMarchingMethod.java:106-112 | the polled cell was still infinite, gets its considered value, and leaves the queue |
| FastMarching.PollKeepsQueued | sim/src/main/java/edu/hm/cs/bess/streamsim/sim/logic/move/util/fmm/FastMarchingMethod.java:106-112 | polling keeps the matrix and front well formed and removes exactly the polled cell |
| FastMarching.UnseenShrinks | sim/src/main/java/edu/hm/cs/bess/streamsim/sim/logic/move/util/fmm/FastMarchingMethod.java:99-102 | the cells never considered only become fewer, strictly when a new cell is considered |
| FastMarching.InitialSupported | sim/src/main/java/edu/hm/cs/bess/streamsim/sim/logic/move/util/fmm/FastMarchingMethod.java:77-79 | at the start every finite cell is the start or given initially |
| FastMarching.PollKeepsSupported | sim/src/main/java/edu/hm/cs/bess/streamsim/sim/logic/move/util/fmm/FastMarchingMethod.java:106-112 | a fixed value always rests on a finite axial neighbour |
| FastMarching.NeighboursQueued | sim/src/main/java/edu/hm/cs/bess/streamsim/sim/logic/move/util/fmm/FastMarchingMethod.java:83-104 | after considering a fixed cell's neighbours, each axial neighbour is fixed or queued |
| FastMarching.PollKeepsCovered | sim/src/main/java/edu/hm/cs/bess/streamsim/sim/logic/move/util/fmm/FastMarchingMethod.java:106-112 | polling keeps the neighbours of finished cells fixed or queued |
| FastMarching.PollFinalises | sim/src/main/java/edu/hm/cs/bess/streamsim/sim/logic/move/util/fmm/FastMarchingMethod.java:106-112 | a poll finalises only the polled cell |
| FastMarching.RoundShrinks | sim/src/main/java/edu/hm/cs/bess/streamsim/sim/logic/move/util/fmm/FastMarchingMethod.java:82-113 | each round of the loop makes progress: fewer unseen cells or a shorter queue |
| FastMarching.MarchingStarts | sim/src/main/java/edu/hm/cs/bess/streamsim/sim/logic/move/util/fmm/FastMarchingMethod.java:76-81 | the loop invariant holds at the start |
| FastMarching.MarchingEnds | sim/src/main/java/edu/hm/cs/bess/streamsim/sim/logic/move/util/fmm/FastMarchingMethod.java:110-111 | the loop invariant holds when the queue runs dry |
| FastMarching.MarchingPolls | sim/src/main/java/edu/hm/cs/bess/streamsim/sim/logic/move/util/fmm/FastMarchingMethod.java:106-109 | the loop invariant survives a poll |
| FastMarching.Calculate | sim/src/main/java/edu/hm/cs/bess/streamsim/sim/logic/move/util/fmm/FastMarchingMethod.java:76-114 | the start is 0; initial values are kept; every other finite value is at least its upwind value plus half the inverse speed; every axial neighbour of a finished cell is finite |
| FastMarching.PathReached | sim/src/main/java/edu/hm/cs/bess/streamsim/sim/logic/move/util/fmm/FastMarchingMethod.java:76-114 | every cell reachable from the start by axial steps through cells without initial values gets a finite value |
| FastMarching.OneStep | sim/src/main/java/edu/hm/cs/bess/streamsim/sim/logic/move/util/fmm/FastMarchingMethod.java:136-137 | one side 0 and the other far gives 1 at unit speed |
| FastMarching.OneStepFromZero | sim/src/main/java/edu/hm/cs/bess/streamsim/sim/logic/move/util/fmm/FastMarchingMethod.java:122-139 | a cell next to a 0 with only far cells otherwise gets 1 at unit speed |
| FastMarching.FirstWaveIsOne | sim/src/main/java/edu/hm/cs/bess/streamsim/sim/logic/move/util/fmm/FastMarchingMethod.java:122-139 | in the first round every axial neighbour of the start gets exactly 1 |
| FastMarching.ObstacleCells | sim/src/main/java/edu/hm/cs/bess/streamsim/sim/logic/move/FastMarchingMethodMovementStrategy.java:57-64 | the cells seeded as obstacles are exactly the grid cells whose own object is an obstacle |
| FastMarching.StrategySolver | sim/src/main/java/edu/hm/cs/bess/streamsim/sim/logic/move/FastMarchingMethodMovementStrategy.java:54-66 | obstacles are seeded with `MAX_VALUE`, every other cell with nothing, and the speed is 1 everywhere |
| FastMarching.FastMarchingPotential | sim/src/main/java/edu/hm/cs/bess/streamsim/sim/logic/move/FastMarchingMethodMovementStrategy.java:53-71 | the field covers the grid; the target is 0; obstacles are `MAX_VALUE`; every other finite value is at least its upwind value + 0.5; every axial neighbour of the target or of a finite non-obstacle is finite |
| Movement.NormalizeDiagonal | sim/src/main/java/edu/hm/cs/bess/streamsim/sim/logic/move/DefaultMovementStrategy.java:245-255 | with source and target equal the descent becomes NaN; otherwise a finite descent keeps its sign and shrinks by a factor between 1 and 2 |
| Movement.NormalizeDiagonalExtremes | sim/src/main/java/edu/hm/cs/bess/streamsim/sim/logic/move/DefaultMovementStrategy.java:245-255 | a straight source–target line leaves the descent unchanged; an exact diagonal halves it |
| Movement.NormalizeDiagonalDijkstra | sim/src/main/java/edu/hm/cs/bess/streamsim/sim/logic/move/DijkstraMoveStrategy.java:44-72 | a descent outside (1.4, 1.5) becomes −1 without a draw; inside it becomes 1.01 or 0.99, by one draw weighted by the diagonal and straight shares of the route |
| Movement.Mollifier | sim/src/main/java/edu/hm/cs/bess/streamsim/sim/logic/move/DefaultMovementStrategy.java:350-358 | the value is 0 out of range; for a positive strength it is negative within range and above −strength |
| Movement.OthersInRadius | sim/src/main/java/edu/hm/cs/bess/streamsim/sim/logic/move/DefaultMovementStrategy.java:257-270 | no radius, no one; otherwise exactly the other grid cells holding a person within the radius |
| Movement.WithinDistanceInBox | sim/src/main/java/edu/hm/cs/bess/streamsim/sim/logic/move/DefaultMovementStrategy.java:261 | every person within the radius lies in the box searched |
| Movement.MollifierSum | sim/src/main/java/edu/hm/cs/bess/streamsim/sim/logic/move/DefaultMovementStrategy.java:216-221 | the summed mollifier is never positive for a non-negative strength, and 0 when everyone is out of range |
| Movement.DescentTo | sim/src/main/java/edu/hm/cs/bess/streamsim/sim/logic/move/DefaultMovementStrategy.java:206-221 | a straight step without radius is the plain potential difference; at most one draw is used |
| Movement.Candidates | sim/src/main/java/edu/hm/cs/bess/streamsim/sim/logic/move/DefaultMovementStrategy.java:205-233 | one candidate per neighbour, in order, each marked eligible exactly when it can be entered or holds a target |
| Movement.Winners | sim/src/main/java/edu/hm/cs/bess/streamsim/sim/logic/move/DefaultMovementStrategy.java:225-231 | exactly the eligible candidates whose descent equals the best one |
| Movement.SelectIsArgMax | sim/src/main/java/edu/hm/cs/bess/streamsim/sim/logic/move/DefaultMovementStrategy.java:204-233 | the best descent is at least −MAX_VALUE and every eligible descent, is attained unless it is −MAX_VALUE, and the locations kept are exactly its winners |
| Movement.ChooseNextLocations | sim/src/main/java/edu/hm/cs/bess/streamsim/sim/logic/move/DefaultMovementStrategy.java:196-243 | a patient person facing only negative descents stays; otherwise the winners are returned, each an eligible grid neighbour |
| Movement.WinnersAreEligibleNeighbours | sim/src/main/java/edu/hm/cs/bess/streamsim/sim/logic/move/DefaultMovementStrategy.java:224-231 | every winner is one of the neighbours and is eligible |
| Movement.DiagonalIffDistanceAboveOne | sim/src/main/java/edu/hm/cs/bess/streamsim/sim/logic/move/DefaultMovementStrategy.java:210 | a neighbour is more than 1 away exactly when it is diagonal |
| Movement.CalculatePotential | sim/src/main/java/edu/hm/cs/bess/streamsim/sim/logic/move/DefaultMovementStrategy.java:313-341 | as intended: fails exactly when the targets are not exactly one; without radius it is the cached field; with radius, the field repelled by every person, riders on light barriers included |
| Movement.CalculatePotentialAsWritten | sim/src/main/java/edu/hm/cs/bess/streamsim/sim/logic/move/DefaultMovementStrategy.java:313-341 | as written: the target count is checked first; with radius, a failed listing of the people is passed on and a listed object that is not a person fails the cast; whenever it succeeds it equals the intended potential |
| Movement.RiderBreaksPotential | sim/src/main/java/edu/hm/cs/bess/streamsim/sim/logic/move/DefaultMovementStrategy.java:329-330 | on a world keeping its invariant, the potential as written fails exactly when the targets are not one, or the radius is positive and a person stands on a light barrier; the listing itself never fails there |
| Movement.Repelled | sim/src/main/java/edu/hm/cs/bess/streamsim/sim/logic/move/DefaultMovementStrategy.java:321-337 | the copy covers the grid, keeps non-finite values, only raises finite ones for a non-negative strength, and leaves cells out of everyone's range unchanged |
| Movement.Repulsion | sim/src/main/java/edu/hm/cs/bess/streamsim/sim/logic/move/DefaultMovementStrategy.java:329-335 | the total mollifier at a cell is never positive for a non-negative strength, and 0 out of everyone's range |
| Actions.RetryDelay | sim/src/main/java/edu/hm/cs/bess/streamsim/sim/logic/move/DefaultMovementStrategy.java:140-145 | with pending events the retry delay is non-negative; with none it is the draw minus the current time |
| Stepping.Blocked | sim/src/main/java/edu/hm/cs/bess/streamsim/sim/logic/move/DefaultMovementStrategy.java:135-146 | a person who cannot move counts a failed move, stays put and is retried once; this fails exactly when the retry delay is negative |
| Stepping.Stride | sim/src/main/java/edu/hm/cs/bess/streamsim/sim/logic/move/DefaultMovementStrategy.java:171-181 | the person moves if the cell can be occupied and otherwise stays, and the step is recorded either way; the index follows and counts are kept |
| Stepping.Walk | sim/src/main/java/edu/hm/cs/bess/streamsim/sim/logic/move/DefaultMovementStrategy.java:171-185 | a step that takes no time fails; otherwise the stride is taken, no draw is used and exactly one move is scheduled |
| Stepping.WalkRecordsNominalSpeed | sim/src/main/java/edu/hm/cs/bess/streamsim/sim/logic/move/DefaultMovementStrategy.java:177-181 | when the last move was now, a walk records exactly the person's nominal speed |
| Stepping.RecordAtNominalSpeed | sim/src/main/java/edu/hm/cs/bess/streamsim/sim/model/object/person/Person.java:143-150 | a step that takes distance/speed records the nominal speed |
| Stepping.WalkTime | sim/src/main/java/edu/hm/cs/bess/streamsim/sim/logic/move/DefaultMovementStrategy.java:177 | the walk time is positive and times the speed gives the distance |
| Stepping.Step | sim/src/main/java/edu/hm/cs/bess/streamsim/sim/logic/move/DefaultMovementStrategy.java:105-112 | a person without a cached potential fails; no choice means blocked; otherwise the move is committed with the failed-move counter reset |
| Stepping.Commit | sim/src/main/java/edu/hm/cs/bess/streamsim/sim/logic/move/DefaultMovementStrategy.java:156-187 | a chosen cached target is consumed (a non-target there is an error); any other choice is walked to; either way the invariant holds, a removed person is counted off with nothing scheduled, and a kept one gets one move |
| Stepping.Choice | sim/src/main/java/edu/hm/cs/bess/streamsim/sim/logic/move/DefaultMovementStrategy.java:157-159 | the choice is in range, with no draw for a single option and one draw otherwise |
| Stepping.Consume | sim/src/main/java/edu/hm/cs/bess/streamsim/sim/logic/move/DefaultMovementStrategy.java:163-169 | the target's consume strategy decides; a removed person is counted off with nothing scheduled, and a kept one gets one move |
| Stepping.StepAccountsForPerson | sim/src/main/java/edu/hm/cs/bess/streamsim/sim/logic/move/DefaultMovementStrategy.java:105-112 | a successful step keeps the invariant and either removes the person or schedules exactly one move for them; blocked people count a failed move and movers reset the counter |
| Consuming.FindObjects | sim/src/main/java/edu/hm/cs/bess/streamsim/sim/logic/consume/ReviveConsumeStrategy.java:103-118 | exactly the grid cells whose occupant has the type |
| Consuming.ReviveInit | sim/src/main/java/edu/hm/cs/bess/streamsim/sim/logic/consume/ReviveConsumeStrategy.java:121-125 | the strategy records the source and target cells of the world |
| Consuming.ReviveInitFindsIndexed | sim/src/main/java/edu/hm/cs/bess/streamsim/sim/logic/consume/ReviveConsumeStrategy.java:121-125 | under the invariant those are the indexed source and target cells |
| Consuming.RemoveReached | sim/src/main/java/edu/hm/cs/bess/streamsim/sim/logic/consume/RemoveConsumeStrategy.java:23-25 | the person's cell is vacated and leaves the person index |
| Consuming.RemoveTakesOnePerson | sim/src/main/java/edu/hm/cs/bess/streamsim/sim/logic/consume/RemoveConsumeStrategy.java:23-25 | removal keeps the invariant, frees the cell and lowers only the person count, by one |
| Consuming.Relocate | sim/src/main/java/edu/hm/cs/bess/streamsim/sim/logic/consume/ReviveConsumeStrategy.java:61-67 | the person moves to the spawn cell with the new target; the index follows and the counts are kept |
| Consuming.Postpone | sim/src/main/java/edu/hm/cs/bess/streamsim/sim/logic/consume/ReviveConsumeStrategy.java:49-57 | exactly one retry is scheduled after one draw, failing exactly when its delay is negative |
| Consuming.Resettle | sim/src/main/java/edu/hm/cs/bess/streamsim/sim/logic/consume/ReviveConsumeStrategy.java:58-72 | the person reappears next to the source with a target drawn from the targets, or (0, 0) without targets; only location and target change; one move is scheduled |
| Consuming.ReviveReached | sim/src/main/java/edu/hm/cs/bess/streamsim/sim/logic/consume/ReviveConsumeStrategy.java:44-73 | no sources is an error; a drawn cell without a source is an error; a source without room postpones; otherwise the person is resettled |
| Consuming.ResettleMovesThePerson | sim/src/main/java/edu/hm/cs/bess/streamsim/sim/logic/consume/ReviveConsumeStrategy.java:58-72 | the person leaves their cell for a free cell next to the source and stands there |
| Consuming.ReachedTarget | sim/src/main/java/edu/hm/cs/bess/streamsim/sim/logic/consume/ConsumeStrategy.java:37 | removal takes the person off with nothing scheduled; revival keeps them with their id and one move scheduled; the person count drops only on removal |
| Neighbourhoods.Keep | sim/src/main/java/edu/hm/cs/bess/streamsim/sim/logic/spawn/DefaultSpawnStrategy.java:115 | filtering keeps exactly the allowed cells, in order |
| Spawning.SpawnCandidates | sim/src/main/java/edu/hm/cs/bess/streamsim/sim/logic/spawn/DefaultSpawnStrategy.java:105-122 | exactly the grid cells one king's move from the source that can be occupied, in row-major order |
| Spawning.FindTargets | sim/src/main/java/edu/hm/cs/bess/streamsim/sim/logic/spawn/DefaultSpawnStrategy.java:130-144 | exactly the grid cells holding a target, in row-major order |
| Spawning.TargetsAreIndexed | sim/src/main/java/edu/hm/cs/bess/streamsim/sim/logic/spawn/DefaultSpawnStrategy.java:130-144 | under the invariant those are the indexed target cells |
| Spawning.CountSpawn | sim/src/main/java/edu/hm/cs/bess/streamsim/sim/logic/spawn/DefaultSpawnStrategy.java:81 | only the source's counter changes |
| Spawning.PickTarget | sim/src/main/java/edu/hm/cs/bess/streamsim/sim/logic/spawn/DefaultSpawnStrategy.java:65-67 | a target is drawn from the list with one draw, or (0, 0) without a draw when there is none |
| Spawning.Spawn | sim/src/main/java/edu/hm/cs/bess/streamsim/sim/logic/spawn/DefaultSpawnStrategy.java:46-96 | without room the spawn is retried once, after a draw; otherwise a person with the next id, the given speed and patience and a drawn target appears next to the source, one record at its nominal speed, the counter rises, a move is scheduled, and the next spawn is scheduled only while spawns remain |
| Spawning.Newcomer | sim/src/main/java/edu/hm/cs/bess/streamsim/sim/logic/spawn/DefaultSpawnStrategy.java:69-85 | the new person's first move is due after the walk from the source at nominal speed, and that walk is its only record |
| Spawning.Settle | sim/src/main/java/edu/hm/cs/bess/streamsim/sim/logic/spawn/DefaultSpawnStrategy.java:77-81 | the person is placed, the person index gains the cell, and the source counts one spawn |
| Spawning.Reschedule | sim/src/main/java/edu/hm/cs/bess/streamsim/sim/logic/spawn/DefaultSpawnStrategy.java:88-94 | the person's move is scheduled, and the next spawn only while spawns remain; fails exactly when that spawn's delay is negative |
| Spawning.SpawnAddsOnePerson | sim/src/main/java/edu/hm/cs/bess/streamsim/sim/logic/spawn/DefaultSpawnStrategy.java:69-81 | a spawn keeps the invariant and raises only the person count, by one |
| Spawning.SpawnKeepsBudget | sim/src/main/java/edu/hm/cs/bess/streamsim/sim/logic/spawn/DefaultSpawnStrategy.java:81-94 | a limited source never counts past its maximum, and a further spawn is pending only while the count is below it |
| Spawning.FirstRecordIsNominalSpeed | sim/src/main/java/edu/hm/cs/bess/streamsim/sim/logic/spawn/DefaultSpawnStrategy.java:83-85 | the first record of a new person is its nominal speed |
| Simulation.WalkableCellsCountsOpenCells | sim/src/main/java/edu/hm/cs/bess/streamsim/sim/StreamSimulator.java:367-372 | the counter counts exactly the empty cells and the light-barrier cells, so there are never more barriers than counted cells |
| Simulation.ScheduleSpawns | sim/src/main/java/edu/hm/cs/bess/streamsim/sim/StreamSimulator.java:348-352 | fails exactly when some source's first spawn delay is negative, that is when a first late source is listed; a failure still carries the scheduler with the spawns queued before it |
| Simulation.ScheduleSpawnsStopsAtFirstLate | sim/src/main/java/edu/hm/cs/bess/streamsim/sim/StreamSimulator.java:348-352 | on a failure, exactly the first spawns of the sources listed before the first late one are pending, one each |
| Simulation.ScheduleSpawnsAddsOnePerSource | sim/src/main/java/edu/hm/cs/bess/streamsim/sim/StreamSimulator.java:348-352 | exactly one first spawn is scheduled per source and nothing else |
| Simulation.Initialise | sim/src/main/java/edu/hm/cs/bess/streamsim/sim/StreamSimulator.java:319-377 | one first spawn per source, the walkable cells counted, failing exactly when a first delay is negative; a failure keeps the spawns of the sources visited, in row-major order, before the first late one |
| Simulation.Play | sim/src/main/java/edu/hm/cs/bess/streamsim/sim/StreamSimulator.java:298-314 | the simulator runs; a started one continues with its queue untouched; a new one starts with one spawn per source and its cells counted; a failed start leaves it running and started, the start announced, the walkable count unchanged, and the spawns queued before the first late source pending |
| Simulation.FailedStartContinues | sim/src/main/java/edu/hm/cs/bess/streamsim/sim/StreamSimulator.java:298-314 | after a failed start the simulator is started and running, and playing it again continues with what was queued |
| Simulation.Pause | sim/src/main/java/edu/hm/cs/bess/streamsim/sim/StreamSimulator.java:432-441 | the simulator stops, and the pause is announced exactly when it was running |
| Simulation.PauseIsIdempotent | sim/src/main/java/edu/hm/cs/bess/streamsim/sim/StreamSimulator.java:432-441 | pausing twice changes nothing and announces nothing the second time |
| Simulation.ResetAsWritten | sim/src/main/java/edu/hm/cs/bess/streamsim/sim/StreamSimulator.java:446-462 | stops and clears the queue, keeps the shared grid, and keeps the statistics timestamp |
| Simulation.Reset | sim/src/main/java/edu/hm/cs/bess/streamsim/sim/StreamSimulator.java:446-462 | as intended: stops and clears the queue, brings back the start state, and starts the statistics window over |
| Simulation.ResetKeepsRunGrid | sim/src/main/java/edu/hm/cs/bess/streamsim/sim/model/state/State.java:373-376 | after a run changed the grid, the reset as written keeps the changed grid, and the intended reset brings back the start state |
| Simulation.Create | sim/src/main/java/edu/hm/cs/bess/streamsim/sim/StreamSimulator.java:182-197 | a new simulator holds the given world as start and current state and is reset: not started, nothing pending, clock 0, no triggers counted |
| Simulation.PlayAfterResetStartsOver | sim/src/main/java/edu/hm/cs/bess/streamsim/sim/StreamSimulator.java:446-462 | playing after a reset starts anew from the start state, with exactly one spawn per source of it pending |
| Simulation.PlayPausePlay | sim/src/main/java/edu/hm/cs/bess/streamsim/sim/StreamSimulator.java:298-314 | play, pause and play again continues with the same queue |
| Simulation.Advance | sim/src/main/java/edu/hm/cs/bess/streamsim/sim/StreamSimulator.java:392-427 | a stopped simulator does nothing; a running one with nothing pending ends; otherwise one pending handler is taken, the clock does not go back, and a time change is announced |
| Simulation.EndsOnlyWhenDrained | sim/src/main/java/edu/hm/cs/bess/streamsim/sim/StreamSimulator.java:421-426 | the simulation ends exactly when it runs with nothing pending |
| Simulation.CountTrigger | sim/src/main/java/edu/hm/cs/bess/streamsim/sim/model/object/lightbarrier/LightBarrier.java:27-29 | entering a barrier adds one trigger, and nothing else changes |
| Simulation.Density | sim/src/main/java/edu/hm/cs/bess/streamsim/sim/StreamSimulator.java:629-633 | undefined without walkable cells; otherwise non-negative, with density times walkable cells equal to people times cells per metre squared |
| Simulation.DensityOfDefaultCells | sim/src/main/java/edu/hm/cs/bess/streamsim/sim/StreamSimulator.java:150 | with 2.5 cells per metre, 10 people on 50 cells make 1.25 people per m² |
| Simulation.DensityGrowsWithPeople | sim/src/main/java/edu/hm/cs/bess/streamsim/sim/StreamSimulator.java:629-633 | more people on the same cells means a higher density |
| Simulation.MeanSpeedOf | sim/src/main/java/edu/hm/cs/bess/streamsim/sim/StreamSimulator.java:643-658 | 0 without people; undefined exactly for zero cells per metre |
| Simulation.MeanSpeedIsAverage | sim/src/main/java/edu/hm/cs/bess/streamsim/sim/StreamSimulator.java:643-658 | the mean times the number of people and the cells per metre is the sum of their mean speeds |
| Simulation.CalculateMeanSpeed | sim/src/main/java/edu/hm/cs/bess/streamsim/sim/StreamSimulator.java:643-658 | the loop computes that mean |
| Simulation.MeanSpeedInBand | sim/src/main/java/edu/hm/cs/bess/streamsim/sim/StreamSimulator.java:643-658 | when every person's mean lies in a band, the reported speed lies in that band divided by the cells per metre |
| Simulation.PersonMeanInBand | sim/src/main/java/edu/hm/cs/bess/streamsim/sim/StreamSimulator.java:651 | a person's mean, windowed or full, lies in any band holding their nominal and recorded speeds |
| Simulation.BarrierWidth | sim/src/main/java/edu/hm/cs/bess/streamsim/sim/StreamSimulator.java:527 | 1 without barriers; otherwise width times cells per metre is the number of barriers |
| Simulation.Flow | sim/src/main/java/edu/hm/cs/bess/streamsim/sim/StreamSimulator.java:527-528 | undefined for no elapsed time; otherwise flow times width times elapsed time is the trigger count |
| Simulation.PeopleAt | sim/src/main/java/edu/hm/cs/bess/streamsim/sim/StreamSimulator.java:517-522 | one person per listed cell: the upper occupant there |
| Simulation.Measure | sim/src/main/java/edu/hm/cs/bess/streamsim/sim/StreamSimulator.java:505-547 | the people count is the person index size, and density, mean speed and flow are computed from it, the counted cells and the triggers |
| Simulation.TimeChangeAsWritten | sim/src/main/java/edu/hm/cs/bess/streamsim/sim/StreamSimulator.java:487-492 | statistics are due on the first change or once the debounce delay has passed, measured over time minus the last update; the timestamp moves and the triggers reset |
| Simulation.TimeChange | sim/src/main/java/edu/hm/cs/bess/streamsim/sim/StreamSimulator.java:487-492 | as written, but the first window is measured from time 0 |
| Simulation.UpdatesAreDebounced | sim/src/main/java/edu/hm/cs/bess/streamsim/sim/StreamSimulator.java:487-492 | after an update, the next comes exactly once the debounce delay has passed, and measures the triggers since |
| Simulation.FirstWindowOneUnitTooLong | sim/src/main/java/edu/hm/cs/bess/streamsim/sim/StreamSimulator.java:488-490 | the first flow as written divides by time + 1: 5 triggers through one barrier by time 10 give 5/11, not 0.5 |
| Simulation.ResetKeepsStaleDebounce | sim/src/main/java/edu/hm/cs/bess/streamsim/sim/StreamSimulator.java:446-462 | after a reset as written, a run restarting below the old timestamp plus the delay logs no statistics; after the intended reset the first change does |
| Simulation.TerminateAsWritten | sim/src/main/java/edu/hm/cs/bess/streamsim/sim/StreamSimulator.java:565-570 | as written: the final statistics cover now minus the last update time (-1 before any), then a reset as written that keeps the grid and the last update time, with no triggers counted |
| Simulation.Terminate | sim/src/main/java/edu/hm/cs/bess/streamsim/sim/StreamSimulator.java:565-570 | as intended: the final statistics cover the time since the last update or since 0, then the intended reset brings back the start state with no triggers counted |
| Simulation.TerminateInheritsSlips | sim/src/main/java/edu/hm/cs/bess/streamsim/sim/StreamSimulator.java:565-570 | terminating before any update measures the flow as written over now + 1 and as intended over now; a last update at 100 survives the terminate as written and not the intended one |

## Left out

- Floating point: doubles are reals, with `XReal` adding the infinities, and NaN where the code makes it from them. Overflow and rounding are not modelled. A statistic that Java would make infinite or NaN is `None`.
- `FastMarching.Combine`: exact reals, so no overflow. At a free cell with an obstacle (`Double.MAX_VALUE`) as the smaller value on both axes, such as a corner cell next to two obstacles, Java's `h + v` and the squares overflow to +∞ and the two-sided formula gives NaN (FastMarchingMethod.java:135). The model gives a finite value there, and its "never NaN" does not hold for the code.
- `FastMarching.Solve`: inherits the overflow gap of `FastMarching.Combine`; for such a cell Java's value is NaN.
- `FastMarching.Value`: inherits the overflow gap; for such a cell Java's value is NaN, not a number between the upwind value plus half and plus one crossing time.
- `FastMarching.FastMarchingPotential`: inherits the overflow gap. Java can fix NaN into the field next to obstacles (`Double.compare` polls it last), and a cell computed from a NaN neighbour gets NaN too, since `Math.min` passes NaN on; the contract is about the exact-real field. Likewise `MAX_VALUE + 1` stays `MAX_VALUE` in Java and not here.
- `Math.sqrt`, `Math.hypot` and `Math.exp` come from the `RealMath.Oracle` parameter, which states only their defining properties.
- Normal and Poisson samples from commons-math are parameters. Only what the generators do with a sample is modelled.
- The distributions' own argument checks are left out.
- Not modelled:
  - the UI, JSON (de)serialisation, logging, and the listener lists;
  - the executor, threads, locks and wall-clock pacing of `StreamSimulator`, and `Thread` interruption.
- Nothing runs a handler: `Simulation.Advance` returns the handler, and `Stepping` and `Spawning` model what it does.
- `Object.clone` is not modelled as such. What it shares is modelled: the reset as written keeps the running grid.
- `DijkstraGraph.Distances`: the recursion of `setDistanceToTarget` carries a depth `fuel`. Running out is `None`, standing for the stack overflow the source warns about. No claim is made for any particular fuel. Each node's neighbours are relaxed in row-major order, where Java iterates a `HashMap` (Node.java:16) in bucket order; the relaxed and supported result is the same, but the recursion depth, and with it where the stack would overflow, differs.
- `FastMarching.Calculate`: the order in which the priority queue yields considered cells is a `pick` parameter. A value updated in place is not re-sorted in the Java heap. So the contract makes no claim that cells are finalised in increasing order. It also inherits the overflow gap of `FastMarching.Combine`.
- Java's `HashSet` iteration order, which `ReviveConsumeStrategy` draws from, is modelled as sequences of sources and targets given as parameters.
- `Randomness.NextInt`: modelled as `floor(u·n)` of a uniform draw. This is not Java's rejection sampling. Only the range and the consumption of one draw are stated.
- `Movement.DescentTo`: its contract states the plain case only (a straight step without radius). The diagonal correction and the mollifier term are stated by `Movement.NormalizeDiagonal` and `Movement.MollifierSum`.
- Non-positive speeds are excluded by precondition. The Java code would divide by zero.
- `Persons.AddMovementRecord`: requires a walk that takes time. A zero elapsed time is the case `Stepping.Walk` reports as `Err(InstantWalk)`, below.
- `Stepping.Walk`: a walk that ends at the time of the person's last move fails with `Err(InstantWalk)`. Java divides the distance by zero in `addMovementRecord` (Person.java:143-150), records a speed of +∞ and carries on. The speed history is kept as reals, so the model stops there.
- Exceptions are `Err` values where the modelled code throws: for example `ClassCastException` (`Movement.CalculatePotentialAsWritten`, `SimObjects.CreateSimObject`), `NoSuchElementException` (`States.ObjectsForType`) and `UnsupportedOperationException` (`SimObjects.SetLocation`, `States.MoveOccupant`). Apart from `States.ObjectsForType`, which reports it, a location off the grid is excluded by precondition from the `State` operations: there Java throws `ArrayIndexOutOfBoundsException`, and the model's callers never pass one.
- `JavaText.ParseInt`: accepts the ASCII digits 0-9 only. Java's `Integer.parseInt` also accepts every other Unicode decimal digit (`Character.digit`), so a key such as `R٣C4` reads as row 3 in Java and is an error here. `Locations.DeserializeKey` inherits this.
- `int` overflow is modelled only where counters grow: person ids, spawn counters and failed moves.
- A handler that fails on a negative delay (`Stepping.Blocked`, `Consuming.Postpone`, and `Spawning.Spawn` through `Spawning.Reschedule`) returns `Err` without the effects Java has already made before its `scheduleIn` throws. Examples are `Stepping.Blocked`'s count of the failed move, the draws taken, and, in a spawn, the placed person and their queued first move. What follows such an exception in Java (the event loop stops) is not modelled.
- `Simulation.Play`: does not compose the strategies' `init` calls. `Consuming.ReviveInit`, `Generators.InitPatience` and the spawn strategy's target cache are separate members.
- The static `LightBarrier` trigger counter is a field of the simulator.
- `PoissonSpawnStrategy`'s sampling is a parameter.
- `Spawning.Spawn`: the stream of draws it returns counts only the draws the spawn itself makes (one without room, two with room). In Java the Normal speed and patience samplers and the Poisson sampler draw from the same `Random` through `CommonsMathRandomAdapter` (NormSpeedGenerator.java:67, NormPatienceGenerator.java:70, PoissonSpawnStrategy.java:46). With those configurations Java's `Random` is further along between spawns, so its later cell and target picks differ from the model's. The samples are parameters, and the draws they take are not modelled.
- `Scheduling.ScheduleIn`: only the comparison with `Double.MAX_VALUE` rounds the sum. The queued timestamp is the exact sum, where Java stores the rounded one.
- Strings are sequences of Unicode characters, not of UTF-16 units. The one place where the units matter, a surrogate pair at the head of a location key, is modelled in `Locations.DeserializeKey`.
- `SimObject.equals`, `hashCode` and `toString`, other than `Location`'s, are left out.

## Findings

| source | as written | input that shows it | evidently intended | confidence | as-written member | corrected member |
|---|---|---|---|---|---|---|
| sim/src/main/java/edu/hm/cs/bess/streamsim/sim/scheduler/event/Event.java:53-55 | events are ordered by timestamp only, in a binary heap | schedule A, B, C at time 1, then D at time 0; polling twice gives D, then B | events at equal times run in the order they were scheduled | not executed | JavaHeap.EqualTimestampsNotFifo | Scheduling.FifoOnEqualTimestamps |
| sim/src/main/java/edu/hm/cs/bess/streamsim/sim/model/state/State.java:100-106 | a solid occupant is overwritten, and its type's index keeps the cell | a target on a cell that a source is then set on: the cell stays listed as a target | occupied cells are refused, as the documentation says | not executed | States.OverwriteLeavesStaleIndex | States.SetCellOccupantChecked |
| sim/src/main/java/edu/hm/cs/bess/streamsim/sim/model/state/State.java:294 | the objects listed for a type are the cells' stored objects, so a person on a light barrier is listed as the barrier | a person standing on a light barrier while the potential is computed with a radius: the cast to `Person` at DefaultMovementStrategy.java:330 fails | list the person riding the barrier | not executed | States.RiderListedAsWalkable | States.ObjectsOfType |
| sim/src/main/java/edu/hm/cs/bess/streamsim/sim/StreamSimulator.java:488-490 | the first window is measured as time minus −1 | 5 triggers through 1 barrier at 1 cell per metre by time 10: flow 5/11 instead of 0.5 | measure the first window from time 0 | not executed | Simulation.FirstWindowOneUnitTooLong | Simulation.TimeChange |
| sim/src/main/java/edu/hm/cs/bess/streamsim/sim/StreamSimulator.java:446-462 | reset keeps the last statistics timestamp | last update at 100, reset, replay: nothing is logged before time 110 | a reset starts the statistics over | not executed | Simulation.ResetKeepsStaleDebounce | Simulation.Reset |
| sim/src/main/java/edu/hm/cs/bess/streamsim/sim/logic/move/DefaultMovementStrategy.java:329-330 | every object listed for the person type is cast to `Person` when the potential is computed with a radius | a person standing on a light barrier, radius 1: the barrier is listed and the cast throws `ClassCastException` | repel from every person, riders on light barriers included | not executed | Movement.RiderBreaksPotential | Movement.CalculatePotential |
| sim/src/main/java/edu/hm/cs/bess/streamsim/sim/model/state/State.java:287-299 | listing a type maps every indexed cell to its occupant with `orElseThrow` | a target cell overwritten by a source, and the source then removed: the target index keeps the now empty cell and listing targets throws `NoSuchElementException` | occupied cells are refused, so every indexed cell holds an object of its type | not executed | States.StaleIndexBreaksListing | States.SetCellOccupantChecked |
| sim/src/main/java/edu/hm/cs/bess/streamsim/sim/model/state/State.java:373-376 | the state is cloned shallowly, so the reset state shares the grid the run changed | a run that moved a person one cell, then reset: the person stays on the new cell | a reset brings back the start state | not executed | Simulation.ResetKeepsRunGrid | Simulation.Reset |
| sim/src/main/java/edu/hm/cs/bess/streamsim/sim/StreamSimulator.java:565-570 | terminate measures the last window as now minus the last update and then resets as written | terminate at time 10 before any update: the window is 11 long; with a last update at 100 the timestamp survives | measure from 0 and start the statistics and the grid over | not executed | Simulation.TerminateInheritsSlips | Simulation.Terminate |

=== FILE: actions.dfy ===
/** The pending actions of the simulation and the retry delay the strategies
    compute when they cannot act. The handlers the code queues are closures
    over a source or a person; here a handler names the source's cell, or
    the person's id together with the cell of the source whose configured
    move strategy makes the move. */
module Actions {
  import Scheduling
  import opened Locations

  /** A source's next spawn attempt, or a person's next move. */
  datatype Handler = SpawnFrom(source: Location) | MoveOf(person: int, mover: Location)

  /** The delay of a retry: a random share `u` of `span` after the next
      pending event (or after time zero when nothing is pending), measured
      from the current time. It is negative when nothing is pending and the
      clock is already past the share, and `scheduleIn` then refuses it. */
  function RetryDelay(s: Scheduling.Scheduler<Handler>, u: real, span: real): (d: real)
    requires Scheduling.Inv(s)
    ensures 0.0 <= u && 0.0 <= span && s.queue != [] ==> 0.0 <= d
    ensures s.queue == [] ==> d == u * span - s.now
  {
    var next := Scheduling.PeekNextTimestamp(s);
    var base := if next.Some? then next.value else 0.0;
    assert 0.0 <= u && 0.0 <= span ==> 0.0 <= u * span;
    base + u * span - s.now
  }

  /** The queue `after` holds the handlers of `before` and one move more of
      the person `id`, by whichever source's move strategy. */
  ghost predicate AddsOneMove(before: seq<Scheduling.Event<Handler>>, after: seq<Scheduling.Event<Handler>>, id: int) {
    exists mover :: Scheduling.Handlers(after) == Scheduling.Handlers(before) + multiset{MoveOf(id, mover)}
  }
}

=== FILE: consume.dfy ===
/** What a target does with a person who reaches it (`ConsumeStrategy`):
    `RemoveConsumeStrategy` takes the person out of the world, and
    `ReviveConsumeStrategy` puts them back next to a random source, heading
    for a random target, with their next move scheduled. */
module Consuming {
  import opened Wrappers
  import RealMath
  import opened Locations
  import opened ObjectTypes
  import opened SimObjects
  import opened Persons
  import opened States
  import opened Randomness
  import Scheduling
  import opened Actions
  import opened Spawning

  /** The cells, in any order, whose occupant reports type `t`
      (`findSimObjectInState`). */
  function FindObjects(s: State, t: SimObjectType): (r: set<Location>)
    requires WellFormed(s)
    ensures forall k :: k in r <==> InGrid(s, k) && OccupantType(s, k) == Some(t)
  {
    set k | k in s.cells && OccupantType(s, k) == Some(t)
  }

  /** What `init` of the revive strategy remembers: where the sources and
      the targets are. */
  datatype ReviveSites = ReviveSites(sources: set<Location>, targets: set<Location>)

  /** `init(state, rng)` of the revive strategy. */
  function ReviveInit(s: State): (r: ReviveSites)
    requires WellFormed(s)
    ensures r.sources == FindObjects(s, SourceType) && r.targets == FindObjects(s, TargetType)
  {
    ReviveSites(FindObjects(s, SourceType), FindObjects(s, TargetType))
  }

  /** The scans of `init` find exactly the cells the type index lists under
      the source and target types. */
  lemma ReviveInitFindsIndexed(s: State)
    requires Inv(s)
    ensures ReviveInit(s).sources == Locs(s, SourceType)
    ensures ReviveInit(s).targets == Locs(s, TargetType)
  {
    forall t, k | t == SourceType || t == TargetType
      ensures k in FindObjects(s, t) <==> k in Locs(s, t)
    {
      if InGrid(s, k) {
        HoldsTypeIff(s.cells[k], t);
      }
    }
  }

  /** Whether a person stands where they believe they are: the object a
      move would carry away from their cell is this very person. */
  predicate StandsAt(s: State, p: Person)
    requires WellFormed(s)
  {
    InGrid(s, p.location) && Mover(s.cells[p.location]) == Some(PersonObject(p))
  }

  /** `RemoveConsumeStrategy.reachedTarget`: the person's cell loses its
      occupant, and nothing is scheduled. */
  function RemoveReached(s: State, p: Person): (s': State)
    requires WellFormed(s) && StandsAt(s, p)
    ensures WellFormed(s')
    ensures s'.cells == s.cells[p.location := Vacated(s.cells[p.location])]
    ensures Locs(s', PersonType) == Locs(s, PersonType) - {p.location}
    ensures forall t :: t != PersonType ==> Locs(s', t) == Locs(s, t)
  {
    RemoveOccupant(s, p.location).0
  }

  /** Removal keeps the invariant, takes exactly one person out of the
      count, and frees the person's cell. */
  lemma RemoveTakesOnePerson(s: State, p: Person)
    requires Inv(s) && StandsAt(s, p)
    ensures Inv(RemoveReached(s, p))
    ensures ObjectTypeCount(RemoveReached(s, p), PersonType) == ObjectTypeCount(s, PersonType) - 1
    ensures forall t :: t != PersonType ==> ObjectTypeCount(RemoveReached(s, p), t) == ObjectTypeCount(s, t)
    ensures CanBeOccupied(RemoveReached(s, p), p.location)
  {
    assert Upper(s.cells[p.location]) == Some(PersonObject(p));
    RemoveKeepsInv(s, p.location);
  }

  /** The state once the person on a cell is updated to `q`: the code
      changes the person object the cell holds in place. */
  function ReplacePerson(s: State, at: Location, q: Person): (s': State)
    requires WellFormed(s) && InGrid(s, at)
    requires Mover(s.cells[at]).Some? && Mover(s.cells[at]).value.PersonObject?
    ensures WellFormed(s') && s'.index == s.index
    ensures at in s'.cells && Mover(s'.cells[at]) == Some(PersonObject(q))
    ensures s'.cells == s.cells[at := Installed(Vacated(s.cells[at]), PersonObject(q))]
    ensures Inv(s) ==> Inv(s')
  {
    var s' := s.(cells := s.cells[at := Installed(Vacated(s.cells[at]), PersonObject(q))]);
    assert Inv(s) ==> Inv(s') by {
      if Inv(s) {
        assert CellShape(s'.cells[at]);
        forall t, k
          ensures k in Locs(s', t) <==> k in s'.cells && Holds(s'.cells[k], t)
        {
          assert Locs(s', t) == Locs(s, t);
          assert k in Locs(s, t) <==> k in s.cells && Holds(s.cells[k], t);
          if k == at {
            if s.cells[at].Solid? {
              assert s'.cells[at] == Solid(PersonObject(q));
            } else {
              assert s'.cells[at] == Walkable(s.cells[at].base, Some(PersonObject(q)));
            }
          }
        }
      }
    }
    s'
  }

  /** A revived person carried from their cell to `at`, heading for
      `target`: the state and whether a light barrier counted the step. */
  function Relocate(s: State, p: Person, at: Location, target: Location): (r: (State, bool))
    requires WellFormed(s) && StandsAt(s, p) && InGrid(s, at) && CanBeOccupied(s, at)
    ensures WellFormed(r.0)
    ensures r.0.cells == s.cells[p.location := Vacated(s.cells[p.location])]
                                [at := Installed(s.cells[at], PersonObject(p.(location := at, target := target)))]
    ensures Locs(r.0, PersonType) == Locs(s, PersonType) - {p.location} + {at}
    ensures forall t :: t != PersonType ==> Locs(r.0, t) == Locs(s, t)
    ensures r.1 == s.cells[at].Walkable?
    ensures Inv(s) ==> Inv(r.0) && forall t :: ObjectTypeCount(r.0, t) == ObjectTypeCount(s, t)
  {
    assert p.location != at;
    var moved := MoveOccupant(s, p.location, at);
    assert Inv(s) ==> Inv(moved.state) && forall t :: ObjectTypeCount(moved.state, t) == ObjectTypeCount(s, t) by {
      if Inv(s) {
        MoveKeepsInv(s, p.location, at);
      }
    }
    (ReplacePerson(moved.state, at, SetTarget(p.(location := at), target)), moved.triggered)
  }

  /** Why the revive strategy throws: there are no sources to draw from
      (`nextInt(0)`), the drawn cell holds no source (`orElseThrow` or the
      cast), or the retry delay is negative (`scheduleIn`). */
  datatype ReviveError = NoSources | NotASource | NegativeDelay

  /** What a revival leaves: the state, the scheduler, the generator, the
      person as they are now, and whether a light barrier counted the step. */
  datatype Revived = Revived(state: State, scheduler: Scheduling.Scheduler<Handler>, rng: Random,
                             person: Person, triggered: bool)

  /** The retry when a person cannot act now: the move of the person by
      `mover`'s move strategy is scheduled a random share of the time one
      cell takes the person after the next pending event; `scheduleIn`
      refuses a negative delay. */
  function Postpone(sched: Scheduling.Scheduler<Handler>, g: Random, p: Person, mover: Location)
    : (r: Result<(Scheduling.Scheduler<Handler>, Random), ()>)
    requires Scheduling.Inv(sched) && 0.0 < p.speed
    ensures r.Err? <==> RetryDelay(sched, NextDouble(g).0, 1.0 / p.speed) < 0.0
    ensures sched.queue != [] ==> r.Ok?
    ensures r.Ok? ==> Scheduling.Inv(r.value.0) && r.value.1 == NextDouble(g).1
    ensures r.Ok? ==> Scheduling.Handlers(r.value.0.queue) == Scheduling.Handlers(sched.queue) + multiset{MoveOf(p.id, mover)}
  {
    var (u, g1) := NextDouble(g);
    match Scheduling.ScheduleIn(sched, MoveOf(p.id, mover), RetryDelay(sched, u, 1.0 / p.speed))
    case Err(_) => Err(())
    case Ok(sc) => Ok((sc, g1))
  }

  /** The revival proper, once a source `src` with a free cell around it is
      drawn: the person is carried to a random such cell, heads for a random
      target (or (0, 0) when there is none), and is moved again by the
      source's move strategy once the walk from the source would be over. */
  function Resettle(m: RealMath.Oracle, s: State, sched: Scheduling.Scheduler<Handler>, g: Random, p: Person,
                    src: Location, targets: seq<Location>): (r: Revived)
    requires RealMath.Valid(m) && WellFormed(s) && Scheduling.Inv(sched) && StandsAt(s, p)
    requires 0.0 < p.speed && SpawnCandidates(s, src) != []
    ensures WellFormed(r.state) && Scheduling.Inv(r.scheduler)
    ensures Inv(s) ==> Inv(r.state) && forall t :: ObjectTypeCount(r.state, t) == ObjectTypeCount(s, t)
    ensures r.person.location in SpawnCandidates(s, src)
    ensures r.person == p.(location := r.person.location, target := r.person.target)
    ensures targets != [] ==> r.person.target in targets
    ensures targets == [] ==> r.person.target == Location(0, 0)
    ensures r.state.cells == s.cells[p.location := Vacated(s.cells[p.location])]
                                    [r.person.location := Installed(s.cells[r.person.location], PersonObject(r.person))]
    ensures Locs(r.state, PersonType) == Locs(s, PersonType) - {p.location} + {r.person.location}
    ensures r.triggered == s.cells[r.person.location].Walkable?
    ensures Scheduling.Handlers(r.scheduler.queue) == Scheduling.Handlers(sched.queue) + multiset{MoveOf(p.id, src)}
  {
    var cands := SpawnCandidates(s, src);
    var (i, g1) := NextInt(g, |cands|).value;
    var at := cands[i];
    var (target, g2) := PickTarget(targets, g1);
    var (s1, triggered) := Relocate(s, p, at, target);
    Revived(s1, MoveAfterWalk(m, sched, p, src, at), g2, p.(location := at, target := target), triggered)
  }

  /** The move of a person standing at `at` by `src`'s move strategy,
      scheduled for when a walk from the source to `at` would be over. */
  function MoveAfterWalk(m: RealMath.Oracle, sched: Scheduling.Scheduler<Handler>, p: Person, src: Location, at: Location)
    : (r: Scheduling.Scheduler<Handler>)
    requires RealMath.Valid(m) && Scheduling.Inv(sched) && 0.0 < p.speed && Chebyshev(src, at) == 1
    ensures Scheduling.Inv(r)
    ensures Scheduling.Handlers(r.queue) == Scheduling.Handlers(sched.queue) + multiset{MoveOf(p.id, src)}
  {
    var d := Distance(m, at, src);
    NeighbourDistance(m, at, src);
    assert 0.0 <= 1.0 / p.speed * d;
    Scheduling.ScheduleIn(sched, MoveOf(p.id, src), 1.0 / p.speed * d).value
  }

  /** `ReviveConsumeStrategy.reachedTarget`. `sources` and `targets` list
      the cells `init` found, in the order the sets hand them out. A source
      is drawn; without a free cell around it the person stays where they
      are and is postponed through the drawn source's move strategy;
      otherwise they are resettled around it. */
  function ReviveReached(m: RealMath.Oracle, s: State, sched: Scheduling.Scheduler<Handler>, g: Random, p: Person,
                         sources: seq<Location>, targets: seq<Location>): (r: Result<Revived, ReviveError>)
    requires RealMath.Valid(m) && WellFormed(s) && Scheduling.Inv(sched) && StandsAt(s, p)
    requires 0.0 < p.speed
    ensures sources == [] <==> r == Err(NoSources)
    ensures r.Ok? ==> WellFormed(r.value.state) && Scheduling.Inv(r.value.scheduler)
    ensures r.Ok? && Inv(s) ==> Inv(r.value.state) && forall t :: ObjectTypeCount(r.value.state, t) == ObjectTypeCount(s, t)
    ensures sources != [] ==>
      var (j, g1) := NextInt(g, |sources|).value;
      var src := sources[j];
      && (r == Err(NotASource) <==> !IsSourceAt(s, src))
      && (IsSourceAt(s, src) && SpawnCandidates(s, src) == [] ==>
            && (r.Err? <==> Postpone(sched, g1, p, src).Err?)
            && (r.Ok? ==>
                  && r.value.state == s && r.value.person == p && !r.value.triggered
                  && (r.value.scheduler, r.value.rng) == Postpone(sched, g1, p, src).value))
      && (IsSourceAt(s, src) && SpawnCandidates(s, src) != [] ==> r == Ok(Resettle(m, s, sched, g1, p, src, targets)))
  {
    match NextInt(g, |sources|)
    case Err(_) => Err(NoSources)
    case Ok((j, g1)) =>
      var src := sources[j];
      if !IsSourceAt(s, src) then Err(NotASource)
      else if SpawnCandidates(s, src) == [] then
        match Postpone(sched, g1, p, src)
        case Err(_) => Err(NegativeDelay)
        case Ok((sc, g2)) => Ok(Revived(s, sc, g2, p, false))
      else Ok(Resettle(m, s, sched, g1, p, src, targets))
  }

  /** Resettling frees the cell the person stood on, puts them on a cell
      that was free, one step from the drawn source, where they stand as
      they believe they do, and keeps the invariant. */
  lemma ResettleMovesThePerson(m: RealMath.Oracle, s: State, sched: Scheduling.Scheduler<Handler>, g: Random, p: Person,
                               src: Location, targets: seq<Location>)
    requires RealMath.Valid(m) && Inv(s) && Scheduling.Inv(sched) && StandsAt(s, p)
    requires 0.0 < p.speed && SpawnCandidates(s, src) != []
    ensures var r := Resettle(m, s, sched, g, p, src, targets);
      && Inv(r.state)
      && r.person.location != p.location
      && CanBeOccupied(r.state, p.location)
      && CanBeOccupied(s, r.person.location)
      && Chebyshev(src, r.person.location) == 1
      && StandsAt(r.state, r.person)
  {
    var r := Resettle(m, s, sched, g, p, src, targets);
    assert r.state.cells[r.person.location] == Installed(s.cells[r.person.location], PersonObject(r.person));
  }

  /** What a target's consume strategy leaves: the state, the scheduler,
      the generator, and the person, unless they were removed. */
  datatype Consumed = Consumed(state: State, scheduler: Scheduling.Scheduler<Handler>, rng: Random,
                               person: Option<Person>, triggered: bool)

  /** `target.getConfiguration().getConsumeStrategy().reachedTarget(...)`:
      the target's strategy decides. */
  function ReachedTarget(strategy: ConsumeStrategy, m: RealMath.Oracle, s: State, sched: Scheduling.Scheduler<Handler>,
                         g: Random, p: Person, sources: seq<Location>, targets: seq<Location>): (r: Result<Consumed, ReviveError>)
    requires RealMath.Valid(m) && WellFormed(s) && Scheduling.Inv(sched) && StandsAt(s, p)
    requires 0.0 < p.speed
    ensures strategy.Remove? ==> r.Ok? && r.value.person.None? && r.value.scheduler == sched && r.value.rng == g
    ensures strategy.Revive? && r.Ok? ==>
      && r.value.person.Some? && r.value.person.value.id == p.id
      && r.value.person.value.couldNotMoveCounter == p.couldNotMoveCounter
      && AddsOneMove(sched.queue, r.value.scheduler.queue, p.id)
    ensures r.Ok? ==> WellFormed(r.value.state) && Scheduling.Inv(r.value.scheduler)
    ensures r.Ok? && Inv(s) ==> Inv(r.value.state)
    ensures r.Ok? && Inv(s) ==>
      ObjectTypeCount(r.value.state, PersonType) == ObjectTypeCount(s, PersonType) - (if strategy.Remove? then 1 else 0)
  {
    match strategy
    case Remove =>
      assert Inv(s) ==>
        Inv(RemoveReached(s, p)) && ObjectTypeCount(RemoveReached(s, p), PersonType) == ObjectTypeCount(s, PersonType) - 1 by {
        if Inv(s) {
          RemoveTakesOnePerson(s, p);
        }
      }
      Ok(Consumed(RemoveReached(s, p), sched, g, None, false))
    case Revive =>
      match ReviveReached(m, s, sched, g, p, sources, targets)
      case Err(e) => Err(e)
      case Ok(v) =>
        assert AddsOneMove(sched.queue, v.scheduler.queue, p.id) by {
          var (j, g1) := NextInt(g, |sources|).value;
          var src := sources[j];
          assert Scheduling.Handlers(v.scheduler.queue) == Scheduling.Handlers(sched.queue) + multiset{MoveOf(p.id, src)};
        }
        Ok(Consumed(v.state, v.scheduler, v.rng, Some(v.person), v.triggered))
  }
}

=== FILE: dijkstra.dfy ===
/** The Dijkstra strategy's potential (`Graph`, `Node`,
    `DijkstraMoveStrategy.calculateBasePotential`): a graph with a node per
    cell a person may enter and one for the target, edges between cells
    that touch along a side or a corner weighted by their distance (1 or the
    square root of two), and a recursive relaxation that pushes distances
    out from the target. */
module DijkstraGraph {
  import opened Wrappers
  import opened RealMath
  import opened Locations
  import opened ObjectTypes
  import opened States
  import opened Neighbourhoods
  import opened Potentials

  /** The node cells, the target, whether the target's own node is the one
      in the grid (the target cell holds a TARGET object), and each node's
      adjacent nodes, in the row-major order the relaxation here visits them
      (Java iterates a `HashMap` of them), and the edge weight
      `distance(a, b)`. */
  datatype Graph = Graph(nodes: set<Location>, target: Location, attached: bool,
                         adj: map<Location, seq<Location>>, weight: (Location, Location) -> real)

  /** Every node has an adjacency list; adjacency is between distinct nodes
      and symmetric; no weight is negative. */
  ghost predicate GraphOk(g: Graph) {
    && g.adj.Keys == g.nodes
    && (forall z, u | z in g.adj && u in g.adj[z] :: u in g.adj && z in g.adj[u] && u != z)
    && (forall a, b :: 0.0 <= g.weight(a, b))
  }

  /** The node distances, `totalDistanceToTarget` per node cell. */
  type Dist = map<Location, real>

  /** `isAdjacent(testNode)`: false for no node, otherwise whether the
      distance lies strictly between 0.95 and 1.5. */
  function IsAdjacent(m: Oracle, a: Location, b: Option<Location>): bool
    requires RealMath.Valid(m)
  {
    b.Some? && 0.95 < Distance(m, b.value, a) < 1.5
  }

  /** The distance test picks out exactly the eight cells around a cell. */
  lemma IsAdjacentIffTouching(m: Oracle, a: Location, b: Location)
    requires RealMath.Valid(m)
    ensures IsAdjacent(m, a, Some(b)) <==> Chebyshev(a, b) == 1
  {
    NeighbourDistance(m, b, a);
    if Chebyshev(b, a) == 0 {
      assert Distance(m, b, a) == 0.0;
    }
    assert Chebyshev(a, b) == Chebyshev(b, a);
  }

  /** The adjacency lists, one set of adjacent node cells per node cell
      (the weights are the distances, so they are not stored). */
  type Links = map<Location, set<Location>>

  /** Adjacency is between node cells that touch, and it is symmetric. */
  ghost predicate LinksOk(nodes: set<Location>, links: Links) {
    && links.Keys == nodes
    && (forall x, y | x in links && y in links[x] :: y in links && Chebyshev(x, y) == 1 && x in links[y])
  }

  /** `a.addAdjacent(b)`: nothing for no node or a node that is not
      adjacent; otherwise `b` joins `a`'s list and, by the call back
      `b.addAdjacent(a)`, `a` joins `b`'s. */
  function AddAdjacent(m: Oracle, nodes: set<Location>, links: Links, a: Location, b: Option<Location>): (r: Links)
    requires RealMath.Valid(m) && LinksOk(nodes, links) && a in links
    requires b.Some? ==> b.value in links
    ensures LinksOk(nodes, r)
    ensures IsAdjacent(m, a, b) ==> b.value in r[a] && a in r[b.value]
    ensures forall x | x in links :: r[x] == links[x] + (if IsAdjacent(m, a, b) && x == a then {b.value} else {})
                                                     + (if IsAdjacent(m, a, b) && x == b.value then {a} else {})
  {
    if b.None? || !IsAdjacent(m, a, b) then links
    else
      var c := b.value;
      IsAdjacentIffTouching(m, a, c);
      assert Chebyshev(c, a) == 1;
      if c in links[a] then links
      else
        var one := links[a := links[a] + {c}];
        if a in one[c] then one else one[c := one[c] + {a}]
  }

  /** The cells of the graph: every cell that can be occupied, and the
      target cell when it holds a TARGET object. */
  function NodeCells(s: State, target: Location): (r: set<Location>)
    requires WellFormed(s) && InGrid(s, target)
    ensures forall l :: l in r <==> InGrid(s, l) && (CanBeOccupied(s, l) || (l == target && OccupantType(s, l) == Some(TargetType)))
  {
    set l | l in s.cells && (CanBeOccupied(s, l) || (l == target && OccupantType(s, l) == Some(TargetType)))
  }

  /** The node cells touching `z`, row by row (the model's order; Java
      keeps them in a `HashMap`). */
  function Touching(s: State, nodes: set<Location>, z: Location): (r: seq<Location>)
    requires WellFormed(s)
    ensures forall u :: u in r <==> u in nodes && InGrid(s, u) && Chebyshev(z, u) == 1
  {
    var ks := Neighbours(z, s.rows, Columns(s), 1, 1);
    assert forall u :: u in ks <==> InGrid(s, u) && Chebyshev(z, u) == 1 by {
      forall u
        ensures u in ks <==> InGrid(s, u) && Chebyshev(z, u) == 1
      {
        UnitNeighbours(z, s.rows, Columns(s), u);
      }
    }
    Keep(ks, nodes)
  }

  /** Each node's adjacency list: the node cells touching it. */
  function Adjacency(s: State, nodes: set<Location>): (adj: map<Location, seq<Location>>)
    requires WellFormed(s)
    ensures adj.Keys == nodes
    ensures forall z, u | z in adj :: u in adj[z] <==> u in nodes && InGrid(s, u) && Chebyshev(z, u) == 1
  {
    map z | z in nodes :: Touching(s, nodes, z)
  }

  /** Touching is symmetric, so adjacency is. */
  lemma AdjacencySymmetric(s: State, nodes: set<Location>, z: Location, u: Location)
    requires WellFormed(s) && z in nodes && InGrid(s, z) && u in Adjacency(s, nodes)[z]
    ensures u in Adjacency(s, nodes) && z in Adjacency(s, nodes)[u] && u != z
  {
    assert Chebyshev(u, z) == Chebyshev(z, u);
  }

  /** The length of a step between touching cells: one along a side, the
      square root of two across a corner. */
  function StepLength(m: Oracle, a: Location, b: Location): real {
    if a.row == b.row || a.column == b.column then 1.0 else m.sqrt(2.0)
  }

  /** Adjacency lists over cells of the grid are symmetric and never link a
      cell to itself. */
  lemma AdjacencyOk(s: State, nodes: set<Location>)
    requires WellFormed(s) && forall z | z in nodes :: InGrid(s, z)
    ensures var adj := Adjacency(s, nodes);
      forall z, u | z in adj && u in adj[z] :: u in adj && z in adj[u] && u != z
  {
    var adj := Adjacency(s, nodes);
    forall z, u | z in adj && u in adj[z]
      ensures u in adj && z in adj[u] && u != z
    {
      AdjacencySymmetric(s, nodes, z, u);
    }
  }

  /** `new Graph(state, target)`: the node cells, each adjacent to the node
      cells touching it. */
  function MakeGraph(m: Oracle, s: State, target: Location): (g: Graph)
    requires RealMath.Valid(m) && WellFormed(s) && InGrid(s, target)
    ensures GraphOk(g)
    ensures g.nodes == NodeCells(s, target) && g.target == target
    ensures g.attached <==> OccupantType(s, target) == Some(TargetType)
  {
    var nodes := NodeCells(s, target);
    AdjacencyOk(s, nodes);
    assert 0.0 <= m.sqrt(2.0);
    Graph(nodes, target, OccupantType(s, target) == Some(TargetType), Adjacency(s, nodes), (a, b) => StepLength(m, a, b))
  }

  /** The graph's nodes are cells of the grid, the target's node is one of
      them when it is attached, and each node is adjacent to exactly the
      nodes touching it. */
  lemma MakeGraphShape(m: Oracle, s: State, target: Location)
    requires RealMath.Valid(m) && WellFormed(s) && InGrid(s, target)
    ensures var g := MakeGraph(m, s, target);
      && (forall z | z in g.nodes :: InRect(s.rows, Columns(s), z))
      && (g.attached ==> target in g.nodes)
      && (forall z, u | z in g.adj :: u in g.adj[z] <==> u in g.nodes && Chebyshev(z, u) == 1)
  {
  }

  /** The weight of an edge, `distance(a, b)`, is the step length. */
  lemma GraphWeight(m: Oracle, s: State, target: Location, a: Location, b: Location)
    requires RealMath.Valid(m) && WellFormed(s) && InGrid(s, target) && Chebyshev(a, b) == 1
    ensures MakeGraph(m, s, target).weight(a, b) == Distance(m, a, b)
  {
    NeighbourDistance(m, a, b);
  }

  /** `getAllAdjacentNodes(node)`: the cells around `z` that can be occupied
      or hold a TARGET, each as its node, or as no node for a target other
      than the graph's own. */
  function Candidates(s: State, nodes: set<Location>, ks: seq<Location>): (r: seq<Option<Location>>)
    requires WellFormed(s) && forall k | k in ks :: InGrid(s, k)
    ensures forall k | k in ks && k in nodes && (CanBeOccupied(s, k) || OccupantType(s, k) == Some(TargetType)) :: Some(k) in r
    ensures forall c | c in r && c.Some? :: c.value in nodes
  {
    if ks == [] then []
    else
      var k := ks[0];
      var here := if CanBeOccupied(s, k) || OccupantType(s, k) == Some(TargetType) then
                    [if k in nodes then Some(k) else None]
                  else [];
      assert forall k' :: k' in ks <==> k' == k || k' in ks[1..];
      here + Candidates(s, nodes, ks[1..])
  }

  /** `addAdjacent` called for each candidate in turn. */
  function LinkAll(m: Oracle, nodes: set<Location>, links: Links, z: Location, cs: seq<Option<Location>>): (r: Links)
    requires RealMath.Valid(m) && LinksOk(nodes, links) && z in links
    requires forall c | c in cs && c.Some? :: c.value in links
    ensures LinksOk(nodes, r)
    ensures forall x | x in links :: links[x] <= r[x]
    ensures forall c | c in cs && IsAdjacent(m, z, c) :: c.value in r[z]
  {
    if cs == [] then links
    else
      var one := AddAdjacent(m, nodes, links, z, cs[0]);
      var r := LinkAll(m, nodes, one, z, cs[1..]);
      assert forall c | c in cs :: c == cs[0] || c in cs[1..];
      r
  }

  /** `connectAdjacentNodes`: every node cell, row by row, links itself to
      its candidates. */
  function Connect(m: Oracle, s: State, target: Location, links: Links, zs: seq<Location>): (r: Links)
    requires RealMath.Valid(m) && WellFormed(s) && InGrid(s, target)
    requires LinksOk(NodeCells(s, target), links)
    requires forall z | z in zs :: InGrid(s, z)
    ensures LinksOk(NodeCells(s, target), r)
    ensures forall x | x in links :: links[x] <= r[x]
    ensures forall z, u | z in zs && z in links && u in links && Chebyshev(z, u) == 1 :: u in r[z]
  {
    if zs == [] then links
    else
      var nodes := NodeCells(s, target);
      var z := zs[0];
      var ks := Neighbours(z, s.rows, Columns(s), 1, 1);
      var one := if z in nodes then LinkAll(m, nodes, links, z, Candidates(s, nodes, ks)) else links;
      assert z in nodes ==> forall u | u in nodes && Chebyshev(z, u) == 1 :: u in one[z] by {
        if z in nodes {
          forall u | u in nodes && Chebyshev(z, u) == 1
            ensures u in one[z]
          {
            UnitNeighbours(z, s.rows, Columns(s), u);
            IsAdjacentIffTouching(m, z, u);
            assert Some(u) in Candidates(s, nodes, ks);
          }
        }
      }
      var r := Connect(m, s, target, one, zs[1..]);
      assert forall z' | z' in zs :: z' == z || z' in zs[1..];
      r
  }

  /** The cells of the grid from row `r` on, row by row. */
  function CellsFrom(s: State, r: int): (cs: seq<Location>)
    requires WellFormed(s) && 0 <= r
    ensures forall l :: l in cs <==> InGrid(s, l) && r <= l.row
    decreases s.rows - r
  {
    if s.rows <= r then []
    else
      var rest := CellsFrom(s, r + 1);
      var row := RowCells(r, 0, s.columns - 1, Location(-1, -1));
      row + rest
  }

  /** The adjacency the graph ends up with after `connectAdjacentNodes`:
      each node is linked to exactly the nodes touching it, which are the
      nodes its relaxation visits. */
  function BuildLinks(m: Oracle, s: State, target: Location): (r: Links)
    requires RealMath.Valid(m) && WellFormed(s) && InGrid(s, target)
    ensures LinksOk(NodeCells(s, target), r)
    ensures var g := MakeGraph(m, s, target);
      forall z, u | z in r :: z in g.adj && (u in r[z] <==> u in g.adj[z])
  {
    var nodes := NodeCells(s, target);
    var empty: Links := map z | z in nodes :: {};
    var zs := CellsFrom(s, 0);
    var r := Connect(m, s, target, empty, zs);
    var g := MakeGraph(m, s, target);
    MakeGraphShape(m, s, target);
    forall z, u | z in r
      ensures z in g.adj && (u in r[z] <==> u in g.adj[z])
    {
      assert z in nodes && z in g.adj;
      if u in r[z] {
        assert u in nodes && Chebyshev(z, u) == 1;
      }
      if u in g.adj[z] {
        assert u in nodes && Chebyshev(z, u) == 1;
        assert InGrid(s, z);
        assert z in zs && z in empty && u in empty;
      }
    }
    r
  }

  /** No edge out of `z` can be relaxed: every adjacent node is at most the
      edge weight farther from the target. */
  ghost predicate Relaxed(g: Graph, d: Dist, z: Location)
  {
    z in d && z in g.adj ==> forall u | u in g.adj[z] && u in d :: d[u] <= d[z] + g.weight(z, u)
  }

  /** Every node below `Double.MAX_VALUE` is the target at zero or is
      reached through an adjacent node: its value is at least that node's
      value plus the edge weight. */
  ghost predicate Supported(g: Graph, d: Dist) {
    exists via :: SupportedVia(g, d, via)
  }

  /** `Supported`, with `via` naming for each reached node the adjacent
      node it is reached through. */
  ghost predicate SupportedVia(g: Graph, d: Dist, via: map<Location, Location>) {
    forall z {:trigger Via(g, d, via, z)} | z in d :: d[z] == MaxValue || (z == g.target && d[z] == 0.0) || Via(g, d, via, z)
  }

  /** `z` is reached through its adjacent node `via[z]`. */
  ghost predicate Via(g: Graph, d: Dist, via: map<Location, Location>, z: Location) {
    && z in d && z in via && z in g.adj
    && via[z] in g.adj[z] && via[z] in d
    && d[via[z]] + g.weight(via[z], z) <= d[z]
  }

  ghost predicate NonNegative(d: Dist) {
    forall k | k in d :: 0.0 <= d[k]
  }

  /** No value went up and no node was added or lost. */
  ghost predicate Lower(d': Dist, d: Dist) {
    d'.Keys == d.Keys && forall k | k in d :: d'[k] <= d[k]
  }

  /** `setDistanceToTarget(x)` on the node of `v`: nothing when `x` exceeds
      the stored distance; otherwise the node stores `x` and relaxes every
      adjacent node through it. The recursion runs out of stack on large
      fields: `fuel` bounds its depth and none is returned when it runs out. */
  function SetDistance(g: Graph, d: Dist, v: Location, x: real, fuel: nat): (r: Option<Dist>)
    requires d.Keys == g.nodes && v in d
    requires GraphOk(g)
    ensures r.Some? ==> Lower(r.value, d)
    ensures r.Some? && x > d[v] ==> r.value == d
    ensures r.Some? && x <= d[v] ==> r.value[v] <= x
    decreases fuel, 0, 0
  {
    if x > d[v] then Some(d)
    else if fuel == 0 then None
    else RelaxEdges(g, d[v := x], v, x, g.adj[v], fuel - 1)
  }

  /** The loop of `setDistanceToTarget` over the adjacent nodes still to
      visit, with the value `x` the node was given: each one farther than
      `x` plus the edge weight is given that sum. */
  function RelaxEdges(g: Graph, d: Dist, v: Location, x: real, es: seq<Location>, fuel: nat): (r: Option<Dist>)
    requires d.Keys == g.nodes && v in d
    requires GraphOk(g)
    requires forall u | u in es :: u in g.nodes
    ensures r.Some? ==> Lower(r.value, d)
    ensures r.Some? && d[v] <= x ==> r.value[v] <= x
    ensures r.Some? ==> forall u | u in es :: u in r.value && r.value[u] <= x + g.weight(v, u)
    decreases fuel, 1, |es|
  {
    if es == [] then Some(d)
    else
      var u := es[0];
      var nx := x + g.weight(v, u);
      if d[u] > nx then
        match SetDistance(g, d, u, nx, fuel)
        case None => None
        case Some(d1) => RelaxEdges(g, d1, v, x, es[1..], fuel)
      else RelaxEdges(g, d, v, x, es[1..], fuel)
  }

  /** Lowering one node's value leaves every other node as relaxed as it was. */
  lemma SetKeepsRelaxed(g: Graph, d: Dist, v: Location, x: real, z: Location)
    requires v in d && x <= d[v] && z != v && Relaxed(g, d, z)
    ensures Relaxed(g, d[v := x], z)
  {
  }

  /** Lowering values keeps relaxed a node whose own value stayed. */
  lemma LowerKeepsRelaxed(g: Graph, d: Dist, d': Dist, z: Location)
    requires Lower(d', d) && z in d && d'[z] == d[z] && Relaxed(g, d, z)
    ensures Relaxed(g, d', z)
  {
  }

  /** After `setDistanceToTarget`, no edge can be relaxed out of a node that
      was relaxed before, out of a node whose value it lowered, or out of
      the node itself. */
  lemma {:induction false} SetDistanceRelaxes(g: Graph, d: Dist, v: Location, x: real, fuel: nat)
    requires d.Keys == g.nodes && v in d
    requires GraphOk(g)
    requires SetDistance(g, d, v, x, fuel).Some?
    ensures var r := SetDistance(g, d, v, x, fuel).value;
      forall z | z in d && (Relaxed(g, d, z) || r[z] < d[z] || (z == v && x <= d[v])) :: Relaxed(g, r, z)
    decreases fuel, 0, 0
  {
    if x <= d[v] {
      var d1 := d[v := x];
      var r := SetDistance(g, d, v, x, fuel).value;
      RelaxEdgesRelaxes(g, d1, v, x, g.adj[v], fuel - 1);
      forall z | z in d && (Relaxed(g, d, z) || r[z] < d[z] || z == v)
        ensures Relaxed(g, r, z)
      {
        if z != v && Relaxed(g, d, z) {
          SetKeepsRelaxed(g, d, v, x, z);
        }
      }
    }
  }

  lemma {:induction false} RelaxEdgesRelaxes(g: Graph, d: Dist, v: Location, x: real, es: seq<Location>, fuel: nat)
    requires d.Keys == g.nodes && v in d
    requires GraphOk(g)
    requires forall u | u in es :: u in g.nodes && u in g.adj[v]
    requires RelaxEdges(g, d, v, x, es, fuel).Some?
    ensures var r := RelaxEdges(g, d, v, x, es, fuel).value;
      forall z | z in d && (Relaxed(g, d, z) || r[z] < d[z]) :: Relaxed(g, r, z)
    decreases fuel, 1, |es|
  {
    if es != [] {
      var u := es[0];
      var nx := x + g.weight(v, u);
      var r := RelaxEdges(g, d, v, x, es, fuel).value;
      assert forall u' | u' in es[1..] :: u' in es;
      if d[u] > nx {
        var d1 := SetDistance(g, d, u, nx, fuel).value;
        SetDistanceRelaxes(g, d, u, nx, fuel);
        RelaxEdgesRelaxes(g, d1, v, x, es[1..], fuel);
        forall z | z in d && (Relaxed(g, d, z) || r[z] < d[z])
          ensures Relaxed(g, r, z)
        {
          if !(Relaxed(g, d, z) || d1[z] < d[z]) {
            assert r[z] < d1[z];
          }
        }
      } else {
        RelaxEdgesRelaxes(g, d, v, x, es[1..], fuel);
      }
    }
  }

  /** Values stay non-negative when the value set is. */
  lemma {:induction false} SetDistanceNonNegative(g: Graph, d: Dist, v: Location, x: real, fuel: nat)
    requires d.Keys == g.nodes && v in d
    requires GraphOk(g)
    requires SetDistance(g, d, v, x, fuel).Some? && NonNegative(d) && 0.0 <= x
    ensures NonNegative(SetDistance(g, d, v, x, fuel).value)
    decreases fuel, 0, 0
  {
    if x <= d[v] {
      RelaxEdgesNonNegative(g, d[v := x], v, x, g.adj[v], fuel - 1);
    }
  }

  lemma {:induction false} RelaxEdgesNonNegative(g: Graph, d: Dist, v: Location, x: real, es: seq<Location>, fuel: nat)
    requires d.Keys == g.nodes && v in d
    requires GraphOk(g)
    requires forall u | u in es :: u in g.nodes && u in g.adj[v]
    requires RelaxEdges(g, d, v, x, es, fuel).Some? && NonNegative(d) && 0.0 <= x
    ensures NonNegative(RelaxEdges(g, d, v, x, es, fuel).value)
    decreases fuel, 1, |es|
  {
    if es != [] {
      var u := es[0];
      var nx := x + g.weight(v, u);
      assert forall u' | u' in es[1..] :: u' in es;
      if d[u] > nx {
        var d1 := SetDistance(g, d, u, nx, fuel).value;
        SetDistanceNonNegative(g, d, u, nx, fuel);
        RelaxEdgesNonNegative(g, d1, v, x, es[1..], fuel);
      } else {
        RelaxEdgesNonNegative(g, d, v, x, es[1..], fuel);
      }
    }
  }

  /** Every value set is justified by the target or by a touching node
      `p`; `via'` names the nodes the values are reached through. */
  lemma {:induction false} SetDistanceSupported(g: Graph, d: Dist, v: Location, x: real, fuel: nat,
                                                via: map<Location, Location>, p: Location)
    returns (via': map<Location, Location>)
    requires d.Keys == g.nodes && v in d
    requires GraphOk(g)
    requires SetDistance(g, d, v, x, fuel).Some?
    requires SupportedVia(g, d, via)
    requires (v == g.target && x == 0.0) || (p in g.adj[v] && p in d && d[p] + g.weight(p, v) <= x)
    ensures SupportedVia(g, SetDistance(g, d, v, x, fuel).value, via')
    decreases fuel, 0, 0
  {
    if x <= d[v] {
      var via1 := SetKeepsSupported(g, d, v, x, via, p);
      via' := RelaxEdgesSupported(g, d[v := x], v, x, g.adj[v], fuel - 1, via1);
    } else {
      via' := via;
    }
  }

  lemma {:induction false} RelaxEdgesSupported(g: Graph, d: Dist, v: Location, x: real, es: seq<Location>, fuel: nat,
                                               via: map<Location, Location>)
    returns (via': map<Location, Location>)
    requires d.Keys == g.nodes && v in d
    requires GraphOk(g)
    requires forall u | u in es :: u in g.nodes && u in g.adj[v]
    requires RelaxEdges(g, d, v, x, es, fuel).Some?
    requires SupportedVia(g, d, via) && d[v] <= x
    ensures SupportedVia(g, RelaxEdges(g, d, v, x, es, fuel).value, via')
    decreases fuel, 1, |es|
  {
    if es == [] {
      via' := via;
    } else {
      var u := es[0];
      var nx := x + g.weight(v, u);
      assert forall u' | u' in es[1..] :: u' in es;
      if d[u] > nx {
        assert v in g.adj[u];
        var d1 := SetDistance(g, d, u, nx, fuel).value;
        var via1 := SetDistanceSupported(g, d, u, nx, fuel, via, v);
        via' := RelaxEdgesSupported(g, d1, v, x, es[1..], fuel, via1);
      } else {
        via' := RelaxEdgesSupported(g, d, v, x, es[1..], fuel, via);
      }
    }
  }

  /** A justified value for one node keeps every value justified. */
  lemma SetKeepsSupported(g: Graph, d: Dist, v: Location, x: real, via: map<Location, Location>, p: Location)
    returns (via': map<Location, Location>)
    requires d.Keys == g.nodes && v in d && x <= d[v]
    requires GraphOk(g)
    requires SupportedVia(g, d, via)
    requires (v == g.target && x == 0.0) || (p in g.adj[v] && p in d && d[p] + g.weight(p, v) <= x)
    ensures SupportedVia(g, d[v := x], via')
  {
    var d1 := d[v := x];
    via' := if v == g.target && x == 0.0 then via else via[v := p];
    forall z | z in d1
      ensures d1[z] == MaxValue || (z == g.target && d1[z] == 0.0) || Via(g, d1, via', z)
    {
      if z == v {
        if !(v == g.target && x == 0.0) {
          assert p != v && d1[p] == d[p];
          assert Via(g, d1, via', v);
        }
      } else if d[z] != MaxValue && !(z == g.target && d[z] == 0.0) {
        assert Via(g, d, via, z);
        assert via'[z] == via[z] && d1[via[z]] <= d[via[z]];
        assert Via(g, d1, via', z);
      }
    }
  }

  /** A new node stores `Double.MAX_VALUE`. */
  function Unreached(g: Graph): (d: Dist)
    requires GraphOk(g)
    ensures d.Keys == g.nodes
    ensures forall k | k in d :: d[k] == MaxValue
  {
    map z | z in g.nodes :: MaxValue
  }

  /** `setDistanceToTargetForAllNodes`: the target's node is given zero. A
      target node that was replaced in the grid has no edges, so the grid's
      nodes keep `Double.MAX_VALUE`. When the recursion completes, no edge
      can be relaxed, the target is at zero, and every other finite
      distance is reached through a touching node: the distances are the
      shortest path lengths to the target. */
  function Distances(g: Graph, fuel: nat): (r: Option<Dist>)
    requires GraphOk(g)
    requires g.attached ==> g.target in g.nodes
    ensures !g.attached ==> r == Some(Unreached(g))
    ensures r.Some? ==> r.value.Keys == g.nodes
    ensures r.Some? ==> forall z | z in g.nodes :: Relaxed(g, r.value, z)
    ensures r.Some? ==> Supported(g, r.value) && NonNegative(r.value)
    ensures r.Some? ==> forall z | z in g.nodes :: r.value[z] <= MaxValue
    ensures r.Some? && g.attached ==> r.value[g.target] == 0.0
  {
    var d0 := Unreached(g);
    assert forall z | z in g.nodes :: Relaxed(g, d0, z);
    assert SupportedVia(g, d0, map[]);
    if g.attached then
      var r := SetDistance(g, d0, g.target, 0.0, fuel);
      if r.Some? then
        SetDistanceRelaxes(g, d0, g.target, 0.0, fuel);
        SetDistanceNonNegative(g, d0, g.target, 0.0, fuel);
        assert Supported(g, r.value) by {
          var via := SetDistanceSupported(g, d0, g.target, 0.0, fuel, map[], g.target);
        }
        r
      else r
    else Some(d0)
  }

  /** The matrix with each node's distance written in and `Double.MAX_VALUE`
      elsewhere. */
  function WriteDistances(s: State, d: Dist): (f: Field)
    ensures forall l :: l in f <==> InRect(s.rows, Columns(s), l)
    ensures forall l | l in f && l in d :: f[l] == Num(d[l])
    ensures forall l | l in f && l !in d :: f[l] == Num(MaxValue)
  {
    map l | l in Rect(s.rows, Columns(s)) :: if l in d then Num(d[l]) else Num(MaxValue)
  }

  /** The nodes of `g` are cells of the grid of `s`. */
  ghost predicate OnGrid(s: State, g: Graph) {
    forall z | z in g.nodes :: InRect(s.rows, Columns(s), z)
  }

  /** The potential matrix of a graph on the grid of `s`: each node's
      distance, `Double.MAX_VALUE` in cells without a node, zero at an
      attached target, and nothing but `Double.MAX_VALUE` when the target
      is detached. */
  function PotentialOf(s: State, g: Graph, fuel: nat): (r: Option<Field>)
    requires GraphOk(g) && (g.attached ==> g.target in g.nodes) && OnGrid(s, g)
    ensures r.Some? ==> forall l :: l in r.value <==> InRect(s.rows, Columns(s), l)
    ensures r.Some? ==> forall l | l in r.value :: r.value[l].Num? && 0.0 <= r.value[l].r <= MaxValue
    ensures r.Some? ==> forall l | l in r.value && l !in g.nodes :: r.value[l] == Num(MaxValue)
    ensures r.Some? && g.attached ==> r.value[g.target] == Num(0.0)
    ensures !g.attached ==> r.Some? && forall l | l in r.value :: r.value[l] == Num(MaxValue)
  {
    match Distances(g, fuel)
    case None => None
    case Some(d) => Some(WriteDistances(s, d))
  }

  /** A node cell's potential is its node's distance. */
  lemma PotentialOfAt(s: State, g: Graph, fuel: nat, l: Location)
    requires GraphOk(g) && (g.attached ==> g.target in g.nodes) && OnGrid(s, g)
    requires PotentialOf(s, g, fuel).Some? && l in g.nodes
    ensures Distances(g, fuel).Some?
    ensures l in PotentialOf(s, g, fuel).value && PotentialOf(s, g, fuel).value[l] == Num(Distances(g, fuel).value[l])
  {
  }

  /** Along an edge the potential rises by at most the edge weight. */
  lemma PotentialOfRelaxed(s: State, g: Graph, fuel: nat, a: Location, b: Location)
    requires GraphOk(g) && (g.attached ==> g.target in g.nodes) && OnGrid(s, g)
    requires PotentialOf(s, g, fuel).Some? && a in g.adj && b in g.adj[a]
    ensures var f := PotentialOf(s, g, fuel).value;
      a in f && b in f && f[b].r <= f[a].r + g.weight(a, b)
  {
    var d := Distances(g, fuel).value;
    assert Relaxed(g, d, a);
    PotentialOfAt(s, g, fuel, a);
    PotentialOfAt(s, g, fuel, b);
  }

  /** A node other than the target below `Double.MAX_VALUE` is reached
      along an edge from the adjacent node `b`. */
  lemma PotentialOfReached(s: State, g: Graph, fuel: nat, a: Location) returns (b: Location)
    requires GraphOk(g) && (g.attached ==> g.target in g.nodes) && OnGrid(s, g)
    requires PotentialOf(s, g, fuel).Some? && a in g.nodes && a != g.target
    ensures var f := PotentialOf(s, g, fuel).value;
      a in f && (f[a] == Num(MaxValue) || (b in g.adj[a] && b in f && f[b].r + g.weight(b, a) <= f[a].r))
  {
    var d := Distances(g, fuel).value;
    b := DistancesReached(g, fuel, a);
    PotentialOfAt(s, g, fuel, a);
    if d[a] != MaxValue {
      PotentialOfAt(s, g, fuel, b);
    }
  }

  /** `calculateBasePotential`: a matrix of `Double.MAX_VALUE` in which the
      graph writes each node's distance. Cells without a node, such as
      obstacles, keep `Double.MAX_VALUE`. */
  function DijkstraPotential(m: Oracle, s: State, target: Location, fuel: nat): (r: Option<Field>)
    requires RealMath.Valid(m) && WellFormed(s) && InGrid(s, target)
    ensures r.Some? ==> forall l :: l in r.value <==> InRect(s.rows, Columns(s), l)
    ensures r.Some? ==> forall l | l in r.value :: r.value[l].Num? && 0.0 <= r.value[l].r <= MaxValue
    ensures r.Some? ==> forall l | l in r.value && InGrid(s, l) && !CanBeOccupied(s, l) && l != target :: r.value[l] == Num(MaxValue)
    ensures r.Some? ==> target in r.value
    ensures r.Some? && OccupantType(s, target) == Some(TargetType) ==> r.value[target] == Num(0.0)
    ensures OccupantType(s, target) != Some(TargetType) ==> r.Some? && forall l | l in r.value :: r.value[l] == Num(MaxValue)
  {
    MakeGraphShape(m, s, target);
    PotentialOf(s, MakeGraph(m, s, target), fuel)
  }

  /** Between touching node cells the potential rises by at most their
      distance: no edge can be relaxed any further. */
  lemma DijkstraPotentialRelaxed(m: Oracle, s: State, target: Location, fuel: nat, a: Location, b: Location)
    requires RealMath.Valid(m) && WellFormed(s) && InGrid(s, target)
    requires DijkstraPotential(m, s, target, fuel).Some?
    requires a in NodeCells(s, target) && b in NodeCells(s, target) && Chebyshev(a, b) == 1
    ensures var f := DijkstraPotential(m, s, target, fuel).value;
      a in f && b in f && f[b].r <= f[a].r + Distance(m, a, b)
  {
    var g := MakeGraph(m, s, target);
    MakeGraphShape(m, s, target);
    GraphWeight(m, s, target, a, b);
    PotentialOfRelaxed(s, g, fuel, a, b);
  }

  /** Every node cell below `Double.MAX_VALUE` other than the target is
      reached from a touching node cell `b`: its potential is at least
      that cell's plus their distance. With `DijkstraPotentialRelaxed` this
      makes each value the length of a shortest path to the target. */
  lemma DijkstraPotentialReached(m: Oracle, s: State, target: Location, fuel: nat, a: Location) returns (b: Location)
    requires RealMath.Valid(m) && WellFormed(s) && InGrid(s, target)
    requires DijkstraPotential(m, s, target, fuel).Some?
    requires a in NodeCells(s, target) && a != target
    ensures var f := DijkstraPotential(m, s, target, fuel).value;
      a in f && (f[a] == Num(MaxValue) ||
                 (b in NodeCells(s, target) && Chebyshev(a, b) == 1 && b in f && f[b].r + Distance(m, b, a) <= f[a].r))
  {
    var g := MakeGraph(m, s, target);
    MakeGraphShape(m, s, target);
    b := PotentialOfReached(s, g, fuel, a);
    if PotentialOf(s, g, fuel).value[a] != Num(MaxValue) {
      GraphWeight(m, s, target, b, a);
    }
  }

  /** A node other than the target below `Double.MAX_VALUE` names the
      adjacent node `b` it is reached through. */
  lemma DistancesReached(g: Graph, fuel: nat, a: Location) returns (b: Location)
    requires GraphOk(g) && (g.attached ==> g.target in g.nodes)
    requires Distances(g, fuel).Some? && a in g.nodes && a != g.target
    ensures var d := Distances(g, fuel).value;
      d[a] == MaxValue || (b in g.adj[a] && b in d && d[b] + g.weight(b, a) <= d[a])
  {
    var d := Distances(g, fuel).value;
    var via :| SupportedVia(g, d, via);
    b := a;
    if d[a] != MaxValue {
      assert Via(g, d, via, a);
      b := via[a];
    }
  }
}

=== FILE: fmm.dfy ===
/** The fast marching method (`FastMarchingMethod`) and the potential of the
    fast marching movement strategy (`FastMarchingMethodMovementStrategy`).

    A matrix of known values starts from each cell's initial value, +∞
    where there is none, and zero at the start cell. The cell fixed last
    hands each of its eight neighbours still at +∞ to a consumer, which
    computes the neighbour's upwind value from its four axial neighbours and
    records it in a considered node, queued once. The queue then gives up a
    node, whose value is fixed in the matrix, and the loop repeats from it
    until the queue is empty.

    The queue is a `java.util.PriorityQueue` whose nodes change value while
    queued, without being re-sorted. The order in which it gives nodes up is
    therefore left open: `pick` chooses the node, and nothing here relies on
    it being the one with the smallest value. */
module FastMarching {
  import opened Wrappers
  import opened RealMath
  import opened Locations
  import opened ObjectTypes
  import opened SimObjects
  import opened States
  import opened Neighbourhoods
  import opened Potentials

  /** The calculator: the area, the initial value of each cell (none stands
      for the `null` that becomes +∞) and the surface speed. */
  datatype Solver = Solver(rows: int, columns: int, initial: Location -> Option<real>, speed: Location -> real)

  /** The surface speed is positive everywhere. */
  ghost predicate SolverOk(sv: Solver) {
    forall l :: 0.0 < sv.speed(l)
  }

  /** `1 / speed`: the time to cross a cell. */
  function Inverse(sv: Solver, l: Location): (inv: real)
    requires SolverOk(sv)
    ensures 0.0 < inv && inv * sv.speed(l) == 1.0
  {
    1.0 / sv.speed(l)
  }

  /** The known matrix: a value for each cell of the area, finite or +∞. */
  ghost predicate Matrix(sv: Solver, known: Field) {
    && (forall l :: l in known <==> InRect(sv.rows, sv.columns, l))
    && (forall l | l in known :: known[l].Num? || known[l].PosInf?)
  }

  /** Two cells share a side. */
  predicate Axial(a: Location, b: Location) {
    || (a.row == b.row && (a.column - b.column == 1 || b.column - a.column == 1))
    || (a.column == b.column && (a.row - b.row == 1 || b.row - a.row == 1))
  }

  /** `initialize()`: the initial value of each cell, +∞ where there is none. */
  function Initialize(sv: Solver): (known: Field)
    ensures Matrix(sv, known)
    ensures forall l | l in known :: known[l].Num? <==> sv.initial(l).Some?
    ensures forall l | l in known && sv.initial(l).Some? :: known[l].r == sv.initial(l).value
  {
    map l | l in Rect(sv.rows, sv.columns) :: if sv.initial(l).Some? then Num(sv.initial(l).value) else PosInf
  }

  /** The values above, below, left and right of a cell. */
  datatype Around = Around(up: XReal, down: XReal, left: XReal, right: XReal)

  /** A value the known matrix can hold: finite or +∞. */
  predicate Settled(x: XReal) {
    x.Num? || x.PosInf?
  }

  predicate AroundOk(a: Around) {
    Settled(a.up) && Settled(a.down) && Settled(a.left) && Settled(a.right)
  }

  /** The four axial neighbours' values as `calculateValue` reads them, +∞
      for a side off the grid. */
  function Axials(sv: Solver, known: Field, l: Location): (a: Around)
    requires Matrix(sv, known) && l in known
    ensures AroundOk(a)
  {
    Around(if l.row - 1 >= 0 then known[Location(l.row - 1, l.column)] else PosInf,
           if l.row + 1 < sv.rows then known[Location(l.row + 1, l.column)] else PosInf,
           if l.column - 1 >= 0 then known[Location(l.row, l.column - 1)] else PosInf,
           if l.column + 1 < sv.columns then known[Location(l.row, l.column + 1)] else PosInf)
  }

  /** `v`: the smaller value along the column. */
  function Vertical(a: Around): XReal {
    RealMath.Min(a.up, a.down)
  }

  /** `h`: the smaller value along the row. */
  function Horizontal(a: Around): XReal {
    RealMath.Min(a.left, a.right)
  }

  function Smallest(a: Around): XReal {
    RealMath.Min(Vertical(a), Horizontal(a))
  }

  /** The smallest value among the four axial neighbours of `l`. */
  function Upwind(sv: Solver, known: Field, l: Location): (u: XReal)
    requires Matrix(sv, known) && l in known
    ensures Settled(u)
  {
    Smallest(Axials(sv, known, l))
  }

  /** No axial neighbour lies below the smallest value around a cell. */
  lemma UpwindBelow(sv: Solver, known: Field, l: Location, n: Location)
    requires Matrix(sv, known) && l in known && n in known && Axial(l, n)
    ensures Le(Upwind(sv, known, l), known[n])
  {
    if n.column == l.column {
      assert n == Location(l.row - 1, l.column) || n == Location(l.row + 1, l.column);
    } else {
      assert n == Location(l.row, l.column - 1) || n == Location(l.row, l.column + 1);
    }
  }

  /** A finite smallest value is the value of an axial neighbour `n`. */
  lemma UpwindAttained(sv: Solver, known: Field, l: Location) returns (n: Location)
    requires Matrix(sv, known) && l in known && Upwind(sv, known, l).Num?
    ensures n in known && Axial(l, n) && known[n] == Upwind(sv, known, l)
  {
    var a := Axials(sv, known, l);
    var u := Upwind(sv, known, l);
    if u == a.up {
      n := Location(l.row - 1, l.column);
    } else if u == a.down {
      n := Location(l.row + 1, l.column);
    } else if u == a.left {
      n := Location(l.row, l.column - 1);
    } else {
      n := Location(l.row, l.column + 1);
    }
  }

  /** A non-negative root of `2 inv² - d²`, for `0 <= d <= inv`, lies
      between `inv` and `2 inv - d`. */
  lemma RootBounds(s: real, d: real, inv: real)
    requires 0.0 <= d <= inv && 0.0 <= s && s * s == 2.0 * inv * inv - d * d
    ensures inv <= s <= 2.0 * inv - d
  {
    assert d * d <= inv * inv by {
      assert d * d <= d * inv <= inv * inv;
    }
    SquareMonotone(inv, s);
    var w := 2.0 * inv - d;
    assert w * w - s * s == 2.0 * (inv - d) * (inv - d);
    SquareMonotone(s, w);
  }

  /** The two-sided upwind solution, with `s` the root of its discriminant,
      lies between the larger of the two values and the smaller one plus
      the crossing time, and at least half the crossing time above the
      smaller one. */
  lemma TwoSided(h: real, v: real, inv: real, s: real)
    requires 0.0 < inv && -inv <= v - h <= inv
    requires 0.0 <= s && s * s == (h + v) * (h + v) - 2.0 * (h * h + v * v - inv * inv)
    ensures var r := (h + v) / 2.0 + 0.5 * s;
      var lo := if h < v then h else v;
      && h <= r && v <= r
      && lo + inv / 2.0 <= r <= lo + inv
  {
    var d := if h < v then v - h else h - v;
    assert d * d == (h - v) * (h - v);
    assert s * s == 2.0 * inv * inv - d * d;
    RootBounds(s, d, inv);
  }

  /** Whether `calculateValue` takes the two-sided formula: `|v - h| <= inv`
      holds exactly when both are finite and at most `inv` apart. */
  lemma TakesTwoSided(v: XReal, h: XReal, inv: real)
    requires Settled(v) && Settled(h)
    ensures Le(Abs(Sub(v, h)), Num(inv)) <==> v.Num? && h.Num? && -inv <= v.r - h.r <= inv
  {
  }

  /** The arithmetic of `calculateValue` on the smaller vertical value `v`,
      the smaller horizontal value `h` and the crossing time `inv`: the
      two-sided upwind formula when `v` and `h` are at most `inv` apart,
      otherwise the smaller of them plus `inv`. */
  function Combine(m: Oracle, v: XReal, h: XReal, inv: real): (r: XReal)
    requires RealMath.Valid(m) && 0.0 < inv && Settled(v) && Settled(h)
    ensures Settled(r)
  {
    TakesTwoSided(v, h, inv);
    if Le(Abs(Sub(v, h)), Num(inv)) then
      Discriminant(h.r, v.r, inv);
      Num((h.r + v.r) / 2.0 + 0.5 * Sqrt(m, (h.r + v.r) * (h.r + v.r) - 2.0 * (h.r * h.r + v.r * v.r - inv * inv)))
    else
      AddNum(RealMath.Min(h, v), inv)
  }

  /** The discriminant of the two-sided formula is `2 inv² - (h - v)²`, not
      negative when `h` and `v` are at most `inv` apart. */
  lemma Discriminant(h: real, v: real, inv: real)
    requires 0.0 < inv && -inv <= v - h <= inv
    ensures 0.0 <= (h + v) * (h + v) - 2.0 * (h * h + v * v - inv * inv)
  {
    var d := if h < v then v - h else h - v;
    assert (h + v) * (h + v) - 2.0 * (h * h + v * v - inv * inv) == 2.0 * inv * inv - d * d;
    assert d * d <= d * inv <= inv * inv;
  }

  /** What `calculateValue` yields: +∞ exactly when both `v` and `h` are;
      otherwise a value between the smaller of them plus half the crossing
      time and the smaller plus the crossing time; the smaller plus the
      crossing time when only one side is finite or the two are more than a
      crossing time apart; and no smaller than either in the two-sided
      case. */
  lemma CombineBounds(m: Oracle, v: XReal, h: XReal, inv: real)
    requires RealMath.Valid(m) && 0.0 < inv && Settled(v) && Settled(h)
    ensures var r, lo := Combine(m, v, h, inv), RealMath.Min(v, h);
      && (r.PosInf? <==> lo.PosInf?)
      && (r.Num? ==> lo.r + inv / 2.0 <= r.r <= lo.r + inv)
      && (v.Num? && h.Num? && -inv <= v.r - h.r <= inv ==> v.r <= r.r && h.r <= r.r)
      && (r.Num? && !(v.Num? && h.Num? && -inv <= v.r - h.r <= inv) ==> r.r == lo.r + inv)
  {
    TakesTwoSided(v, h, inv);
    if v.Num? && h.Num? && -inv <= v.r - h.r <= inv {
      var q := (h.r + v.r) * (h.r + v.r) - 2.0 * (h.r * h.r + v.r * v.r - inv * inv);
      Discriminant(h.r, v.r, inv);
      TwoSided(h.r, v.r, inv, Sqrt(m, q));
    }
  }

  /** Off the two-sided case, `calculateValue` is the smaller value plus the
      crossing time. */
  lemma OneSided(m: Oracle, v: XReal, h: XReal, inv: real)
    requires RealMath.Valid(m) && 0.0 < inv && Settled(v) && Settled(h)
    requires !(v.Num? && h.Num? && -inv <= v.r - h.r <= inv)
    ensures Combine(m, v, h, inv) == AddNum(RealMath.Min(h, v), inv)
  {
    TakesTwoSided(v, h, inv);
  }

  /** Whether `calculateValue` takes the two-sided formula on the values
      around a cell. */
  predicate BothSides(a: Around, inv: real) {
    var v, h := Vertical(a), Horizontal(a);
    v.Num? && h.Num? && -inv <= v.r - h.r <= inv
  }

  /** `calculateValue` on the values around a cell. */
  function Solve(m: Oracle, a: Around, inv: real): (r: XReal)
    requires RealMath.Valid(m) && 0.0 < inv && AroundOk(a)
    ensures Settled(r)
  {
    Combine(m, Vertical(a), Horizontal(a), inv)
  }

  /** The result of `calculateValue` on the values around a cell is +∞
      exactly when all four are; otherwise it lies between the smallest
      plus half the crossing time and the smallest plus the crossing time;
      with one side it is the smallest plus the crossing time, with two it
      is no smaller than either side. */
  lemma SolveBounds(m: Oracle, a: Around, inv: real)
    requires RealMath.Valid(m) && 0.0 < inv && AroundOk(a)
    ensures var r, lo := Solve(m, a, inv), Smallest(a);
      && (r.PosInf? <==> lo.PosInf?)
      && (r.Num? ==> lo.r + inv / 2.0 <= r.r <= lo.r + inv)
      && (BothSides(a, inv) ==> Vertical(a).r <= r.r && Horizontal(a).r <= r.r)
      && (r.Num? && !BothSides(a, inv) ==> r.r == lo.r + inv)
  {
    CombineBounds(m, Vertical(a), Horizontal(a), inv);
  }

  /** Some axial neighbour of `k` is finite and at least half the crossing
      time of `k` below `x`. */
  ghost predicate Below(sv: Solver, known: Field, k: Location, x: real)
    requires SolverOk(sv)
  {
    exists n | n in known && Axial(k, n) :: known[n].Num? && known[n].r + Inverse(sv, k) / 2.0 <= x
  }

  /** `Below` is a statement about the smallest axial neighbour. */
  lemma BelowUpwind(sv: Solver, known: Field, k: Location, x: real)
    requires SolverOk(sv) && Matrix(sv, known) && k in known
    ensures Below(sv, known, k, x) <==> Upwind(sv, known, k).Num? && Upwind(sv, known, k).r + Inverse(sv, k) / 2.0 <= x
  {
    if Below(sv, known, k, x) {
      var n :| n in known && Axial(k, n) && known[n].Num? && known[n].r + Inverse(sv, k) / 2.0 <= x;
      UpwindBelow(sv, known, k, n);
    }
    if Upwind(sv, known, k).Num? {
      var n := UpwindAttained(sv, known, k);
      assert known[n].r == Upwind(sv, known, k).r;
    }
  }

  /** Fixing a value in a cell at +∞ keeps every finite neighbour finite. */
  lemma FixKeepsBelow(sv: Solver, known: Field, p: Location, v: real, k: Location, x: real)
    requires SolverOk(sv) && p in known && known[p].PosInf? && Below(sv, known, k, x)
    ensures Below(sv, known[p := Num(v)], k, x)
  {
    var n :| n in known && Axial(k, n) && known[n].Num? && known[n].r + Inverse(sv, k) / 2.0 <= x;
    assert known[p := Num(v)][n] == known[n];
  }

  /** `calculateValue(location)`: the arithmetic on the axial neighbours of
      `l` with the crossing time of `l`. */
  function Value(m: Oracle, sv: Solver, known: Field, l: Location): (r: XReal)
    requires RealMath.Valid(m) && SolverOk(sv) && Matrix(sv, known) && l in known
    ensures Settled(r)
    ensures r.PosInf? <==> Upwind(sv, known, l).PosInf?
    ensures r.Num? ==> Upwind(sv, known, l).r + Inverse(sv, l) / 2.0 <= r.r <= Upwind(sv, known, l).r + Inverse(sv, l)
  {
    SolveBounds(m, Axials(sv, known, l), Inverse(sv, l));
    Solve(m, Axials(sv, known, l), Inverse(sv, l))
  }

  /** The considered nodes: each one's value by location
      (`consideredNodeLookup`) and the nodes still queued
      (`consideredNodes`). */
  datatype Front = Front(lookup: map<Location, real>, queue: seq<Location>)

  /** The front agrees with the matrix: the nodes are cells of the area, each
      queued at most once; the queued nodes are exactly those whose cell is
      still at +∞; and each of those holds a value at least half its
      crossing time above its smallest axial neighbour. */
  ghost predicate Queued(sv: Solver, known: Field, fr: Front)
    requires SolverOk(sv) && Matrix(sv, known)
  {
    && (forall k | k in fr.lookup :: k in known)
    && Unique(fr.queue)
    && (forall q | q in fr.queue :: q in fr.lookup && known[q].PosInf?)
    && (forall k | k in fr.lookup && known[k].PosInf? :: k in fr.queue)
    && (forall k | k in fr.lookup && known[k].PosInf? :: Below(sv, known, k, fr.lookup[k]))
  }

  /** The front grew: no node was dropped, and the queue changed only if a
      new node was created. */
  ghost predicate Grew(fr: Front, r: Front) {
    && fr.lookup.Keys <= r.lookup.Keys
    && (r.lookup.Keys == fr.lookup.Keys ==> r.queue == fr.queue)
    && (forall q | q in fr.queue :: q in r.queue)
  }

  /** The consumer `calculate` hands each neighbour: a cell already below +∞
      is left alone; otherwise its value is computed and, when below +∞,
      updates the cell's considered node or creates and queues one. */
  function Consider(m: Oracle, sv: Solver, known: Field, fr: Front, n: Location): (r: Front)
    requires RealMath.Valid(m) && SolverOk(sv) && Matrix(sv, known) && Queued(sv, known, fr) && n in known
    ensures Queued(sv, known, r) && Grew(fr, r)
  {
    if Lt(known[n], PosInf) then fr
    else
      var nv := Value(m, sv, known, n);
      assert nv.Num? ==> Below(sv, known, n, nv.r) by {
        BelowUpwind(sv, known, n, if nv.Num? then nv.r else 0.0);
      }
      if Le(known[n], nv) then fr
      else if n in fr.lookup then Front(fr.lookup[n := nv.r], fr.queue)
      else Front(fr.lookup[n := nv.r], fr.queue + [n])
  }

  /** `forEachNeighbour(next, consumer)`: the consumer for each neighbour
      in turn. */
  function ConsiderAll(m: Oracle, sv: Solver, known: Field, fr: Front, ns: seq<Location>): (r: Front)
    requires RealMath.Valid(m) && SolverOk(sv) && Matrix(sv, known) && Queued(sv, known, fr)
    requires forall n | n in ns :: n in known
    ensures Queued(sv, known, r) && Grew(fr, r)
    decreases |ns|
  {
    if ns == [] then fr
    else ConsiderAll(m, sv, known, Consider(m, sv, known, fr, ns[0]), ns[1..])
  }

  /** A cell still at +∞ with a finite axial neighbour is queued once the
      consumer has seen it. */
  lemma ConsiderQueues(m: Oracle, sv: Solver, known: Field, fr: Front, n: Location)
    requires RealMath.Valid(m) && SolverOk(sv) && Matrix(sv, known) && Queued(sv, known, fr) && n in known
    requires known[n].PosInf? && Upwind(sv, known, n).Num?
    ensures n in Consider(m, sv, known, fr, n).queue
  {
    assert Value(m, sv, known, n).Num?;
  }

  /** Every cell of `ns` still at +∞ with a finite axial neighbour is queued
      once all of `ns` have been considered. */
  lemma {:induction false} ConsiderAllQueues(m: Oracle, sv: Solver, known: Field, fr: Front, ns: seq<Location>)
    requires RealMath.Valid(m) && SolverOk(sv) && Matrix(sv, known) && Queued(sv, known, fr)
    requires forall n | n in ns :: n in known
    ensures forall n | n in ns && known[n].PosInf? && Upwind(sv, known, n).Num? :: n in ConsiderAll(m, sv, known, fr, ns).queue
    decreases |ns|
  {
    if ns != [] {
      var one := Consider(m, sv, known, fr, ns[0]);
      ConsiderAllQueues(m, sv, known, one, ns[1..]);
      if known[ns[0]].PosInf? && Upwind(sv, known, ns[0]).Num? {
        ConsiderQueues(m, sv, known, fr, ns[0]);
      }
      assert forall n | n in ns :: n == ns[0] || n in ns[1..];
    }
  }

  /** Fixing a finite value in a cell of the matrix keeps a matrix. */
  lemma FixKeepsMatrix(sv: Solver, known: Field, p: Location, x: real)
    requires Matrix(sv, known) && p in known
    ensures Matrix(sv, known[p := Num(x)])
  {
  }

  /** Fixing a value can only lower the smallest axial neighbour. */
  lemma UpwindLowers(sv: Solver, known: Field, p: Location, x: real, l: Location)
    requires Matrix(sv, known) && p in known && known[p].PosInf? && l in known
    ensures Matrix(sv, known[p := Num(x)])
    ensures Le(Upwind(sv, known[p := Num(x)], l), Upwind(sv, known, l))
  {
    var k2 := known[p := Num(x)];
    FixKeepsMatrix(sv, known, p, x);
    var u := Upwind(sv, known, l);
    if u.Num? {
      var n := UpwindAttained(sv, known, l);
      assert k2[n] == u;
      UpwindBelow(sv, k2, l, n);
    }
  }

  /** No element occurs twice. */
  ghost predicate Unique<T>(s: seq<T>) {
    forall i, j | 0 <= i < j < |s| :: s[i] != s[j]
  }

  /** The sequence without its element at position `i`. */
  function RemoveAt<T>(s: seq<T>, i: nat): (r: seq<T>)
    requires i < |s|
    ensures |r| == |s| - 1
  {
    s[..i] + s[i + 1..]
  }

  /** Removing the element at `i` from a sequence without repetitions
      leaves exactly the other elements, still without repetitions. */
  lemma RemoveAtMembers<T>(s: seq<T>, i: nat)
    requires i < |s| && Unique(s)
    ensures forall x :: x in RemoveAt(s, i) <==> x in s && x != s[i]
    ensures Unique(RemoveAt(s, i))
  {
    var r := RemoveAt(s, i);
    assert forall j | 0 <= j < |r| :: r[j] == s[if j < i then j else j + 1];
    forall x | x in s && x != s[i]
      ensures x in r
    {
      var j :| 0 <= j < |s| && s[j] == x;
      assert r[if j < i then j else j - 1] == x;
    }
  }

  /** `poll()` gives up the queued node at position `i`, and its value is
      fixed in the matrix. */
  function Poll(sv: Solver, known: Field, fr: Front, i: nat): (r: (Field, Front))
    requires SolverOk(sv) && Matrix(sv, known) && Queued(sv, known, fr) && i < |fr.queue|
    ensures fr.queue[i] in known && known[fr.queue[i]].PosInf?
    ensures r.0 == known[fr.queue[i] := Num(fr.lookup[fr.queue[i]])]
    ensures r.1 == Front(fr.lookup, RemoveAt(fr.queue, i))
  {
    var p := fr.queue[i];
    (known[p := Num(fr.lookup[p])], Front(fr.lookup, RemoveAt(fr.queue, i)))
  }

  /** After a `poll()` only the polled cell has changed, from +∞ to its
      node's value; the queue has lost exactly that node; the front still
      agrees with the matrix; and no smallest axial neighbour has risen. */
  lemma PollKeepsQueued(sv: Solver, known: Field, fr: Front, i: nat)
    requires SolverOk(sv) && Matrix(sv, known) && Queued(sv, known, fr) && i < |fr.queue|
    ensures var r := Poll(sv, known, fr, i);
      && Matrix(sv, r.0) && Queued(sv, r.0, r.1)
      && |r.1.queue| == |fr.queue| - 1
      && (forall q :: q in r.1.queue <==> q in fr.queue && q != fr.queue[i])
  {
    var p := fr.queue[i];
    var k2 := known[p := Num(fr.lookup[p])];
    RemoveAtMembers(fr.queue, i);
    FixKeepsMatrix(sv, known, p, fr.lookup[p]);
    forall k | k in fr.lookup && k2[k].PosInf?
      ensures Below(sv, k2, k, fr.lookup[k])
    {
      FixKeepsBelow(sv, known, p, fr.lookup[p], k, fr.lookup[k]);
    }
  }

  /** A cell whose neighbours the loop has handled or will handle next: the
      start, and every cell without an initial value that became finite. */
  ghost predicate Finalised(sv: Solver, start: Location, known: Field, l: Location)
    requires l in known
  {
    l == start || (sv.initial(l).None? && known[l].Num?)
  }

  /** Cells of the area not yet holding a considered node. */
  function Unseen(sv: Solver, fr: Front): set<Location> {
    Rect(sv.rows, sv.columns) - fr.lookup.Keys
  }

  /** Taking more out of a set leaves no more; taking out one more of its
      elements leaves fewer. */
  lemma DifferenceShrinks<T>(u: set<T>, a: set<T>, b: set<T>)
    requires a <= b <= u
    ensures |u - b| <= |u - a|
    ensures a != b ==> |u - b| < |u - a|
  {
    SubsetSize(u - b, u - a);
    if a != b {
      assert !(b <= a);
      assert exists n :: n in b && n !in a;
      var n :| n in b && n !in a;
      SubsetSize(u - b, (u - a) - {n});
    }
  }

  /** A front that grew by a node has fewer unseen cells. */
  lemma UnseenShrinks(sv: Solver, fr: Front, r: Front)
    requires fr.lookup.Keys <= r.lookup.Keys
    requires forall k | k in r.lookup :: InRect(sv.rows, sv.columns, k)
    ensures |Unseen(sv, r)| <= |Unseen(sv, fr)|
    ensures r.lookup.Keys != fr.lookup.Keys ==> |Unseen(sv, r)| < |Unseen(sv, fr)|
  {
    DifferenceShrinks(Rect(sv.rows, sv.columns), fr.lookup.Keys, r.lookup.Keys);
  }

  /** What the known matrix keeps throughout `calculate(start)`: zero at the
      start, the initial value at every other seeded cell, and every other
      finite cell at least half its crossing time above its smallest axial
      neighbour. */
  ghost predicate Supported(sv: Solver, start: Location, known: Field)
    requires SolverOk(sv)
  {
    && Matrix(sv, known) && start in known && known[start] == Num(0.0)
    && (forall l | l in known && l != start && sv.initial(l).Some? :: known[l] == Num(sv.initial(l).value))
    && (forall l | l in known && l != start && sv.initial(l).None? && known[l].Num? :: Below(sv, known, l, known[l].r))
  }

  /** The cells in `done` are finite, and each of their axial neighbours is
      finite or queued. */
  ghost predicate Covered(known: Field, queue: seq<Location>, done: set<Location>) {
    && (forall x | x in done :: x in known && known[x].Num?)
    && (forall x, n | x in done && n in known && Axial(x, n) :: known[n].Num? || n in queue)
  }

  /** The starting matrix of `calculate(start)` is supported. */
  lemma InitialSupported(sv: Solver, start: Location)
    requires SolverOk(sv) && InRect(sv.rows, sv.columns, start)
    ensures Supported(sv, start, Initialize(sv)[start := Num(0.0)])
  {
    var known := Initialize(sv)[start := Num(0.0)];
    FixKeepsMatrix(sv, Initialize(sv), start, 0.0);
    assert forall l | l in known && l != start :: known[l].Num? <==> sv.initial(l).Some?;
  }

  /** Polling keeps the matrix supported: the polled cell was queued, so
      neither the start nor seeded, and its node's value is supported. */
  lemma PollKeepsSupported(sv: Solver, start: Location, known: Field, fr: Front, i: nat)
    requires SolverOk(sv) && Supported(sv, start, known) && Queued(sv, known, fr) && i < |fr.queue|
    ensures Supported(sv, start, Poll(sv, known, fr, i).0)
  {
    PollKeepsQueued(sv, known, fr, i);
    var k2 := Poll(sv, known, fr, i).0;
    var p := fr.queue[i];
    forall l | l in k2 && l != start && sv.initial(l).None? && k2[l].Num?
      ensures Below(sv, k2, l, k2[l].r)
    {
      FixKeepsBelow(sv, known, p, fr.lookup[p], l, k2[l].r);
    }
  }

  /** Once the neighbours of a finite `x` are considered, each axial
      neighbour of `x` is finite or queued. */
  lemma NeighboursQueued(m: Oracle, sv: Solver, known: Field, fr: Front, x: Location)
    requires RealMath.Valid(m) && SolverOk(sv) && Matrix(sv, known) && Queued(sv, known, fr)
    requires x in known && known[x].Num?
    ensures var ns := Neighbours(x, sv.rows, sv.columns, 1, 1);
      (forall n | n in ns :: n in known) &&
      forall n | n in known && Axial(x, n) :: known[n].Num? || n in ConsiderAll(m, sv, known, fr, ns).queue
  {
    var ns := Neighbours(x, sv.rows, sv.columns, 1, 1);
    assert forall n | n in ns :: n in known;
    ConsiderAllQueues(m, sv, known, fr, ns);
    forall n | n in known && Axial(x, n)
      ensures known[n].Num? || n in ConsiderAll(m, sv, known, fr, ns).queue
    {
      UnitNeighbours(x, sv.rows, sv.columns, n);
      assert Axial(n, x);
      UpwindBelow(sv, known, n, x);
    }
  }

  /** After the neighbours of `x` are considered, `x` joins the covered
      cells. */
  lemma ConsideredCovered(sv: Solver, known: Field, fr: Front, grown: Front, done: set<Location>, x: Location)
    requires Matrix(sv, known) && Covered(known, fr.queue, done) && Grew(fr, grown)
    requires x in known && known[x].Num?
    requires forall n | n in known && Axial(x, n) :: known[n].Num? || n in grown.queue
    ensures Covered(known, grown.queue, done + {x})
  {
  }

  /** Polling keeps the covered cells covered: the polled cell leaves the
      queue and becomes finite, and only it changes. */
  lemma PollKeepsCovered(sv: Solver, known: Field, fr: Front, i: nat, done: set<Location>)
    requires SolverOk(sv) && Matrix(sv, known) && Queued(sv, known, fr) && i < |fr.queue|
    requires Covered(known, fr.queue, done)
    ensures Covered(Poll(sv, known, fr, i).0, Poll(sv, known, fr, i).1.queue, done)
  {
    PollKeepsQueued(sv, known, fr, i);
  }

  /** Polling finalises only the polled cell. */
  lemma PollFinalises(sv: Solver, start: Location, known: Field, fr: Front, i: nat, done: set<Location>)
    requires SolverOk(sv) && Matrix(sv, known) && Queued(sv, known, fr) && i < |fr.queue|
    requires forall l | l in known && Finalised(sv, start, known, l) :: l in done
    ensures forall l | l in Poll(sv, known, fr, i).0 && Finalised(sv, start, Poll(sv, known, fr, i).0, l) ::
      l in done || l == fr.queue[i]
  {
    var k2 := Poll(sv, known, fr, i).0;
    forall l | l in k2 && Finalised(sv, start, k2, l)
      ensures l in done || l == fr.queue[i]
    {
      if l != fr.queue[i] {
        assert Finalised(sv, start, known, l);
      }
    }
  }

  /** The state of `calculate(start)` between rounds: `next` is the cell
      fixed last (none once the queue has run dry) and `done` the cells
      whose neighbours have been handed to the consumer. */
  ghost predicate Marching(sv: Solver, start: Location, known: Field, fr: Front, next: Option<Location>, done: set<Location>)
    requires SolverOk(sv)
  {
    && Supported(sv, start, known) && Queued(sv, known, fr)
    && (next.Some? ==> next.value in known && known[next.value].Num?)
    && (next.None? ==> fr.queue == [])
    && (forall l | l in known && Finalised(sv, start, known, l) :: l in done || next == Some(l))
    && Covered(known, fr.queue, done)
  }

  /** The neighbours of a cell of the matrix are cells of the matrix. */
  lemma NeighboursKnown(sv: Solver, known: Field, x: Location)
    requires Matrix(sv, known)
    ensures forall n | n in Neighbours(x, sv.rows, sv.columns, 1, 1) :: n in known
  {
  }

  /** A round leaves no more unseen cells, and fewer unless the queue it
      started from is what it polls from. */
  lemma RoundShrinks(sv: Solver, known: Field, fr: Front, grown: Front, after: Front)
    requires SolverOk(sv) && Matrix(sv, known) && Queued(sv, known, grown) && Grew(fr, grown)
    requires after.lookup == grown.lookup
    ensures |Unseen(sv, after)| <= |Unseen(sv, fr)|
    ensures |Unseen(sv, after)| == |Unseen(sv, fr)| ==> grown.queue == fr.queue
  {
    UnseenShrinks(sv, fr, grown);
  }

  /** The first round starts from the start cell. */
  lemma MarchingStarts(sv: Solver, start: Location)
    requires SolverOk(sv) && InRect(sv.rows, sv.columns, start)
    ensures Marching(sv, start, Initialize(sv)[start := Num(0.0)], Front(map[], []), Some(start), {})
  {
    InitialSupported(sv, start);
  }

  /** A round whose considered nodes have all been polled ends the loop. */
  lemma MarchingEnds(m: Oracle, sv: Solver, start: Location, known: Field, fr: Front, x: Location, done: set<Location>)
    requires RealMath.Valid(m) && SolverOk(sv) && Marching(sv, start, known, fr, Some(x), done)
    requires ConsiderAll(m, sv, known, fr, Neighbours(x, sv.rows, sv.columns, 1, 1)).queue == []
    ensures Marching(sv, start, known, ConsiderAll(m, sv, known, fr, Neighbours(x, sv.rows, sv.columns, 1, 1)), None, done + {x})
  {
    var grown := ConsiderAll(m, sv, known, fr, Neighbours(x, sv.rows, sv.columns, 1, 1));
    NeighboursQueued(m, sv, known, fr, x);
    ConsideredCovered(sv, known, fr, grown, done, x);
  }

  /** A round that polls the node at position `i` continues from it. */
  lemma MarchingPolls(m: Oracle, sv: Solver, start: Location, known: Field, fr: Front, x: Location, done: set<Location>, i: nat)
    requires RealMath.Valid(m) && SolverOk(sv) && Marching(sv, start, known, fr, Some(x), done)
    requires i < |ConsiderAll(m, sv, known, fr, Neighbours(x, sv.rows, sv.columns, 1, 1)).queue|
    ensures var grown := ConsiderAll(m, sv, known, fr, Neighbours(x, sv.rows, sv.columns, 1, 1));
      var polled := Poll(sv, known, grown, i);
      Marching(sv, start, polled.0, polled.1, Some(grown.queue[i]), done + {x})
  {
    var grown := ConsiderAll(m, sv, known, fr, Neighbours(x, sv.rows, sv.columns, 1, 1));
    NeighboursQueued(m, sv, known, fr, x);
    ConsideredCovered(sv, known, fr, grown, done, x);
    PollKeepsQueued(sv, known, grown, i);
    PollKeepsSupported(sv, start, known, grown, i);
    PollKeepsCovered(sv, known, grown, i, done + {x});
    PollFinalises(sv, start, known, grown, i, done + {x});
  }

  /** `calculate(start)`. The result holds zero at the start; every other
      cell with an initial value keeps it; every other cell that became
      finite lies at least half its crossing time above its smallest axial
      neighbour (so a cell that no front reached is still +∞); and every
      axial neighbour of the start, or of a cell that became finite, is
      finite. `pick` chooses the position of the node each `poll()` gives
      up. */
  method Calculate(m: Oracle, sv: Solver, pick: (seq<Location>, map<Location, real>) -> nat, start: Location)
    returns (known: Field)
    requires RealMath.Valid(m) && SolverOk(sv) && InRect(sv.rows, sv.columns, start)
    ensures Matrix(sv, known) && known[start] == Num(0.0)
    ensures forall l | l in known && l != start && sv.initial(l).Some? :: known[l] == Num(sv.initial(l).value)
    ensures forall l | l in known && l != start && sv.initial(l).None? && known[l].Num? ::
      Upwind(sv, known, l).Num? && Upwind(sv, known, l).r + Inverse(sv, l) / 2.0 <= known[l].r
    ensures forall x, n | x in known && Finalised(sv, start, known, x) && n in known && Axial(x, n) :: known[n].Num?
  {
    known := Initialize(sv)[start := Num(0.0)];
    var front := Front(map[], []);
    var next: Option<Location> := Some(start);
    ghost var done: set<Location> := {};
    MarchingStarts(sv, start);
    while next.Some?
      invariant Marching(sv, start, known, front, next, done)
      decreases |Unseen(sv, front)|, |front.queue|, if next.Some? then 1 else 0
    {
      var x := next.value;
      NeighboursKnown(sv, known, x);
      var grown := ConsiderAll(m, sv, known, front, Neighbours(x, sv.rows, sv.columns, 1, 1));
      if grown.queue == [] {
        RoundShrinks(sv, known, front, grown, grown);
        MarchingEnds(m, sv, start, known, front, x, done);
        front := grown;
        next := None;
      } else {
        var i := pick(grown.queue, grown.lookup) % |grown.queue|;
        MarchingPolls(m, sv, start, known, front, x, done, i);
        PollKeepsQueued(sv, known, grown, i);
        var polled := Poll(sv, known, grown, i);
        RoundShrinks(sv, known, front, grown, polled.1);
        known, front := polled.0, polled.1;
        next := Some(grown.queue[i]);
      }
      done := done + {x};
    }
    forall l | l in known && l != start && sv.initial(l).None? && known[l].Num?
      ensures Upwind(sv, known, l).Num? && Upwind(sv, known, l).r + Inverse(sv, l) / 2.0 <= known[l].r
    {
      BelowUpwind(sv, known, l, known[l].r);
    }
  }

  /** Every cell joined to the start by a path of side-sharing cells without
      initial values (the last one may have one) ends up finite: the front
      reaches everything it can walk to. */
  lemma {:induction false} PathReached(sv: Solver, start: Location, known: Field, path: seq<Location>)
    requires Matrix(sv, known) && InRect(sv.rows, sv.columns, start) && known[start] == Num(0.0)
    requires forall x, n | x in known && Finalised(sv, start, known, x) && n in known && Axial(x, n) :: known[n].Num?
    requires |path| > 0 && path[0] == start
    requires forall i | 0 <= i < |path| :: path[i] in known
    requires forall i | 0 < i < |path| :: Axial(path[i - 1], path[i])
    requires forall i | 0 < i < |path| - 1 :: sv.initial(path[i]).None?
    ensures known[path[|path| - 1]].Num?
  {
    if |path| > 1 {
      var front := path[..|path| - 1];
      PathReached(sv, start, known, front);
      var x := path[|path| - 2];
      assert known[x].Num? && Finalised(sv, start, known, x);
    }
  }

  /** More than a unit step away: above one, or +∞. */
  predicate Far(x: XReal) {
    x.PosInf? || (x.Num? && 1.0 < x.r)
  }

  /** At unit crossing time, zero on one axis and far on the other give
      one. */
  lemma OneStepFromZero(m: Oracle, a: Around)
    requires RealMath.Valid(m) && AroundOk(a)
    requires (Vertical(a) == Num(0.0) && Far(Horizontal(a))) || (Horizontal(a) == Num(0.0) && Far(Vertical(a)))
    ensures Solve(m, a, 1.0) == Num(1.0)
  {
    OneStep(m, Vertical(a), Horizontal(a));
  }

  lemma OneStep(m: Oracle, v: XReal, h: XReal)
    requires RealMath.Valid(m) && Settled(v) && Settled(h)
    requires (v == Num(0.0) && Far(h)) || (h == Num(0.0) && Far(v))
    ensures Combine(m, v, h, 1.0) == Num(1.0)
  {
    OneSided(m, v, h, 1.0);
  }

  /** In the first round, at unit speed, with the start at zero and every
      other cell more than a step away (an obstacle's `Double.MAX_VALUE` or
      +∞), each axial neighbour of the start is given the value one. */
  lemma FirstWaveIsOne(m: Oracle, sv: Solver, known: Field, start: Location, n: Location)
    requires RealMath.Valid(m) && SolverOk(sv) && Matrix(sv, known)
    requires sv.speed(n) == 1.0
    requires start in known && known[start] == Num(0.0)
    requires forall l | l in known && l != start :: Far(known[l])
    requires n in known && Axial(n, start)
    ensures Value(m, sv, known, n) == Num(1.0)
  {
    var a := Axials(sv, known, n);
    assert Inverse(sv, n) == 1.0;
    assert Value(m, sv, known, n) == Solve(m, a, 1.0);
    assert Far(a.up) || a.up == Num(0.0);
    assert Far(a.down) || a.down == Num(0.0);
    assert Far(a.left) || a.left == Num(0.0);
    assert Far(a.right) || a.right == Num(0.0);
    if n.row == start.row {
      assert Far(a.up) && Far(a.down);
      assert a.left == Num(0.0) || a.right == Num(0.0);
    } else {
      assert Far(a.left) && Far(a.right);
      assert a.up == Num(0.0) || a.down == Num(0.0);
    }
    OneStepFromZero(m, a);
  }

  /** The cell's own occupant (`getCellOccupant`) is an obstacle. */
  predicate IsObstacle(s: State, l: Location)
    requires WellFormed(s) && InGrid(s, l)
  {
    CellOccupant(s, l).Some? && TypeOf(CellOccupant(s, l).value) == ObstacleType
  }

  /** The cells holding an obstacle. */
  function ObstacleCells(s: State): (r: set<Location>)
    requires WellFormed(s)
    ensures forall l :: l in r <==> InGrid(s, l) && IsObstacle(s, l)
  {
    set l | l in s.cells && IsObstacle(s, l)
  }

  /** The calculator `calculateBasePotential` builds: the state's area, an
      obstacle starts at `Double.MAX_VALUE` and every other cell at +∞, and
      the speed is one everywhere. */
  function StrategySolver(s: State): (sv: Solver)
    requires WellFormed(s)
    ensures SolverOk(sv) && sv.rows == s.rows && sv.columns == s.columns
    ensures forall l | InGrid(s, l) :: sv.initial(l) == (if IsObstacle(s, l) then Some(MaxValue) else None)
    ensures forall l :: sv.speed(l) == 1.0
  {
    var obstacles := ObstacleCells(s);
    Solver(s.rows, s.columns, l => if l in obstacles then Some(MaxValue) else None, l => 1.0)
  }

  /** `FastMarchingMethodMovementStrategy.calculateBasePotential`: the
      target at zero, every other obstacle at `Double.MAX_VALUE`, every
      other cell that became finite at least half a step above its smallest
      axial neighbour, every axial neighbour of a finite cell that is not an
      obstacle finite, and cells no front reached at +∞. */
  method FastMarchingPotential(m: Oracle, s: State, target: Location, pick: (seq<Location>, map<Location, real>) -> nat)
    returns (f: Field)
    requires RealMath.Valid(m) && WellFormed(s) && InGrid(s, target)
    ensures Matrix(StrategySolver(s), f)
    ensures forall l :: l in f <==> InGrid(s, l)
    ensures f[target] == Num(0.0)
    ensures forall l | l in f && l != target && IsObstacle(s, l) :: f[l] == Num(MaxValue)
    ensures forall l | l in f && l != target && !IsObstacle(s, l) && f[l].Num? ::
      Upwind(StrategySolver(s), f, l).Num? && Upwind(StrategySolver(s), f, l).r + 0.5 <= f[l].r
    ensures forall x, n | x in f && n in f && Axial(x, n) && f[x].Num? && (x == target || !IsObstacle(s, x)) ::
      f[n].Num?
  {
    var sv := StrategySolver(s);
    f := Calculate(m, sv, pick, target);
    assert forall l | l in f :: InGrid(s, l) && Inverse(sv, l) == 1.0;
    assert forall l | l in f && l != target && !IsObstacle(s, l) && f[l].Num? :: Finalised(sv, target, f, l);
  }
}

=== FILE: generators.dfy ===
/** How a source draws what it needs for a new person and for its next
    spawn: the clamped normal patience (`NormPatienceGenerator`), the fixed
    or clamped normal speed (`FixedSpeedGenerator`, `NormSpeedGenerator`)
    and the delay to the next spawn (`FixedRateSpawnStrategy`,
    `PoissonSpawnStrategy`). A distribution sample is a parameter: which
    value the seeded distribution yields is not modelled, only what the
    generator makes of it. */
module Generators {
  import opened Wrappers
  import opened JavaText
  import opened SimObjects

  /** `Math.max(Math.min(x, hi), lo)`. */
  function Clamp(x: real, lo: real, hi: real): real {
    var below := if x < hi then x else hi;
    if below < lo then lo else below
  }

  /** Clamping yields the point of a non-empty interval nearest to the
      value, so a value already inside comes back unchanged and clamping
      twice is clamping once. */
  lemma ClampIsNearest(x: real, lo: real, hi: real)
    requires lo <= hi
    ensures lo <= Clamp(x, lo, hi) <= hi
    ensures lo <= x <= hi ==> Clamp(x, lo, hi) == x
    ensures forall y :: lo <= y <= hi ==> Dist(Clamp(x, lo, hi), x) <= Dist(y, x)
    ensures Clamp(Clamp(x, lo, hi), lo, hi) == Clamp(x, lo, hi)
  {
  }

  /** An empty interval clamps everything to its lower end. */
  lemma ClampEmpty(x: real, lo: real, hi: real)
    requires hi < lo
    ensures Clamp(x, lo, hi) == lo
  {
  }

  function Dist(a: real, b: real): real {
    if a < b then b - a else a - b
  }

  /** How far an integer lies from a value. */
  function Gap(k: int, x: real): real {
    Dist(k as real, x)
  }

  /** A patience generator together with the standard deviation of the
      normal distribution `init` gave it, if any. */
  datatype PatienceState = PatienceState(config: PatienceGenerator, sd: Option<real>)

  /** The generator as configured, before `init`. */
  function NewPatienceState(config: PatienceGenerator): (p: PatienceState)
    ensures p.config == config && p.sd.None?
  {
    PatienceState(config, None)
  }

  /** `init`: a distribution, with a third of the maximum deviation as its
      standard deviation, is created only for a positive maximum deviation. */
  function InitPatience(p: PatienceState): (q: PatienceState)
    ensures q.config == p.config
    ensures p.config.maxDeviation > 0 ==> q.sd == Some(p.config.maxDeviation as real / 3.0) && q.sd.value > 0.0
    ensures p.config.maxDeviation <= 0 ==> q == p
  {
    if p.config.maxDeviation > 0 then p.(sd := Some(p.config.maxDeviation as real / 3.0)) else p
  }

  /** The lowest patience `generate` hands out: `Math.max(0, mean - maxDeviation)`,
      the difference taken in `int` arithmetic. */
  function PatienceFloor(g: PatienceGenerator): (lo: int)
    ensures 0 <= lo
  {
    var d := Wrap32(g.mean - g.maxDeviation);
    if d < 0 then 0 else d
  }

  /** The highest patience `generate` hands out: `mean + maxDeviation`, the
      sum taken in `int` arithmetic. */
  function PatienceCeiling(g: PatienceGenerator): int {
    Wrap32(g.mean + g.maxDeviation)
  }

  /** `generate()`: the mean when the maximum deviation is zero or no
      distribution exists; otherwise the sample of the distribution clamped
      to the patience range and rounded. */
  function GeneratePatience(p: PatienceState, sample: real): (r: int)
  {
    if p.config.maxDeviation == 0 || p.sd.None? then p.config.mean
    else Round(Clamp(sample, PatienceFloor(p.config) as real, PatienceCeiling(p.config) as real))
  }

  /** Without a distribution, or with no deviation allowed, every patience
      is the mean, whatever the sample. */
  lemma PatienceWithoutDistribution(p: PatienceState, a: real, b: real)
    requires p.config.maxDeviation == 0 || p.sd.None?
    ensures GeneratePatience(p, a) == GeneratePatience(p, b) == p.config.mean
  {
  }

  /** With a distribution, the patience is never negative, and when the range
      is not empty it is the integer of the range nearest to the sample (so
      it lies in the range, and a sample at an integer of the range is
      returned as it is). */
  lemma PatienceIsNearestInRange(p: PatienceState, sample: real)
    requires p.config.maxDeviation != 0 && p.sd.Some?
    ensures 0 <= PatienceFloor(p.config) <= GeneratePatience(p, sample)
    ensures PatienceFloor(p.config) <= PatienceCeiling(p.config) ==>
      && GeneratePatience(p, sample) <= PatienceCeiling(p.config)
      && (forall k: int :: PatienceFloor(p.config) <= k <= PatienceCeiling(p.config) ==>
            Gap(GeneratePatience(p, sample), sample) <= Gap(k, sample))
    ensures PatienceCeiling(p.config) < PatienceFloor(p.config) ==> GeneratePatience(p, sample) == PatienceFloor(p.config)
  {
    var lo, hi := PatienceFloor(p.config), PatienceCeiling(p.config);
    var c := Clamp(sample, lo as real, hi as real);
    var r := GeneratePatience(p, sample);
    assert r == Round(c);
    if lo <= hi {
      ClampIsNearest(sample, lo as real, hi as real);
      forall k: int | lo <= k <= hi
        ensures Gap(r, sample) <= Gap(k, sample)
      {
        if sample < lo as real {
          assert c == lo as real && r == lo;
        } else if hi as real < sample {
          assert c == hi as real && r == hi;
        } else {
          assert c == sample;
          assert Dist(r as real, sample) <= 0.5;
          if k != r {
            assert k <= r - 1 || r + 1 <= k;
          }
        }
      }
    } else {
      ClampEmpty(sample, lo as real, hi as real);
    }
  }

  /** The state `init` leaves behind only ever pairs a distribution with a
      positive maximum deviation, whose range is then never empty for a
      non-negative mean that does not overflow. */
  lemma InitialisedPatienceRange(c: PatienceGenerator)
    requires 0 <= c.mean && 0 < c.maxDeviation && IsInt32(c.mean + c.maxDeviation)
    ensures InitPatience(NewPatienceState(c)).sd.Some?
    ensures PatienceFloor(c) <= PatienceCeiling(c)
  {
    assert IsInt32(c.mean - c.maxDeviation);
  }

  /** `generateSpeed()`: the fixed speed, or the normal sample clamped to
      one standard deviation around the mean. */
  function GenerateSpeed(g: SpeedGenerator, sample: real): (r: real)
    ensures g.FixedSpeed? ==> r == g.speed
  {
    match g
    case FixedSpeed(v) => v
    case NormSpeed(mean, sd) => Clamp(sample, mean - sd, mean + sd)
  }

  /** A normal speed lies within one deviation of the mean, is the point of
      that band nearest to the sample, and is the sample itself when the
      sample already lies inside. */
  lemma NormSpeedIsNearestInBand(mean: real, sd: real, sample: real)
    requires 0.0 <= sd
    ensures var r := GenerateSpeed(NormSpeed(mean, sd), sample);
      && mean - sd <= r <= mean + sd
      && (mean - sd <= sample <= mean + sd ==> r == sample)
      && (forall y :: mean - sd <= y <= mean + sd ==> Dist(r, sample) <= Dist(y, sample))
  {
    ClampIsNearest(sample, mean - sd, mean + sd);
  }

  /** `getName()` of the speed generators. */
  function SpeedGeneratorName(g: SpeedGenerator): (n: string)
    ensures |n| > 0
  {
    if g.FixedSpeed? then "Fixed" else "Norm"
  }

  /** `getName()` of the spawn strategies. */
  function SpawnStrategyName(s: SpawnStrategy): (n: string)
    ensures |n| > 0
  {
    if s.FixedRate? then "Fixed rate" else "Poisson"
  }

  /** The names tell the kinds apart. */
  lemma NamesIdentifyKinds(a: SpeedGenerator, b: SpeedGenerator, s: SpawnStrategy, t: SpawnStrategy)
    ensures SpeedGeneratorName(a) == SpeedGeneratorName(b) <==> a.FixedSpeed? == b.FixedSpeed?
    ensures SpawnStrategyName(s) == SpawnStrategyName(t) <==> s.FixedRate? == t.FixedRate?
  {
    assert "Fixed"[1] != "Norm"[1];
    assert "Fixed rate"[0] != "Poisson"[0];
  }

  /** `getNextSpawnTime()`: the configured rate, or a sample of the Poisson
      distribution (a whole, non-negative number). */
  function NextSpawnTime(s: SpawnStrategy, poissonSample: nat): (t: real)
    ensures s.Poisson? ==> 0.0 <= t && t.Floor as real == t
  {
    match s
    case FixedRate(rate) => rate
    case Poisson(_) => poissonSample as real
  }

  /** `getFixedRate()`. */
  function FixedRateOf(s: SpawnStrategy): real
    requires s.FixedRate?
  {
    s.rate
  }

  /** A fixed rate is the same on every call, whatever the draws, and is
      what `getFixedRate` reports. */
  lemma FixedRateIsConstant(s: SpawnStrategy, a: nat, b: nat)
    requires s.FixedRate?
    ensures NextSpawnTime(s, a) == NextSpawnTime(s, b) == FixedRateOf(s)
  {
  }
}

=== FILE: javaheap.dfy ===
/** The event queue as the source builds it: a `java.util.PriorityQueue` of
    events compared by timestamp alone. The binary heap is kept in a
    sequence, and `offer` and `poll` move elements with the same sift-up and
    sift-down steps as the library. Nothing in this order remembers which of
    two events with equal timestamps was added first. */
module JavaHeap {

  datatype TimedEvent<H> = TimedEvent(time: real, handler: H)

  /** The parent and first child of a heap slot. */
  function Parent(k: nat): nat
    requires 0 < k
  {
    (k - 1) / 2
  }

  /** `siftUp(k, x)`: `x` climbs from the free slot `k` while it is strictly
      earlier than its parent; an equal parent stops it. */
  function SiftUp<H>(q: seq<TimedEvent<H>>, k: nat, x: TimedEvent<H>): (r: seq<TimedEvent<H>>)
    requires k < |q|
    ensures |r| == |q|
    ensures multiset(r) == multiset(q) - multiset{q[k]} + multiset{x}
    decreases k
  {
    if k == 0 then q[0 := x]
    else
      var p := Parent(k);
      if x.time >= q[p].time then q[k := x]
      else SiftUp(q[k := q[p]], p, x)
  }

  /** `siftDown(k, x)`: `x` sinks from the free slot `k` below the earlier
      of its children while that child is strictly earlier; on a tie the
      left child is taken, and an equal child stops it. */
  function SiftDown<H>(q: seq<TimedEvent<H>>, k: nat, x: TimedEvent<H>): (r: seq<TimedEvent<H>>)
    requires k < |q|
    ensures |r| == |q|
    ensures multiset(r) == multiset(q) - multiset{q[k]} + multiset{x}
    decreases |q| - k
  {
    var n := |q|;
    if k >= n / 2 then q[k := x]
    else
      var left := 2 * k + 1;
      var c := if left + 1 < n && q[left].time > q[left + 1].time then left + 1 else left;
      if x.time <= q[c].time then q[k := x]
      else SiftDown(q[k := q[c]], c, x)
  }

  /** `offer(e)`: the event joins at the end and sifts up. */
  function Offer<H>(q: seq<TimedEvent<H>>, e: TimedEvent<H>): (r: seq<TimedEvent<H>>)
    ensures |r| == |q| + 1
    ensures multiset(r) == multiset(q) + multiset{e}
  {
    SiftUp(q + [e], |q|, e)
  }

  /** `poll()`: the root leaves; the last element takes the free root slot
      and sifts down. */
  function Poll<H>(q: seq<TimedEvent<H>>): (r: (TimedEvent<H>, seq<TimedEvent<H>>))
    requires q != []
    ensures r.0 == q[0]
    ensures |r.1| == |q| - 1
    ensures multiset(r.1) == multiset(q) - multiset{q[0]}
  {
    var n := |q| - 1;
    var x := q[n];
    if n == 0 then (q[0], [])
    else
      var rest := q[..n];
      assert q == rest + [x];
      assert multiset(rest) == multiset(q) - multiset{x};
      (q[0], SiftDown(rest, 0, x))
  }

  const A: TimedEvent<char> := TimedEvent(1.0, 'a')
  const B: TimedEvent<char> := TimedEvent(1.0, 'b')
  const C: TimedEvent<char> := TimedEvent(1.0, 'c')
  const D: TimedEvent<char> := TimedEvent(0.0, 'd')

  /** Events with equal timestamps offered one after another stay in
      offering order: none of them is earlier than its parent. */
  lemma FirstOffer()
    ensures Offer([], A) == [A]
  {
  }

  lemma SecondOffer()
    ensures Offer([A], B) == [A, B]
  {
    assert [A] + [B] == [A, B];
  }

  lemma ThirdOffer()
    ensures Offer([A, B], C) == [A, B, C]
  {
    var q := [A, B, C];
    assert [A, B] + [C] == q;
    assert Parent(2) == 0 && C.time >= q[0].time;
    assert SiftUp(q, 2, C) == q[2 := C];
  }

  /** An earlier event offered last climbs to the root: it displaces b,
      which lands in the last slot, and then a. */
  lemma EarlierOfferClimbs()
    ensures Offer([A, B, C], D) == [D, A, C, B]
  {
    var s1 := [A, B, C, D];
    assert [A, B, C] + [D] == s1;
    ClimbStep(s1);
  }

  lemma ClimbStep(s1: seq<TimedEvent<char>>)
    requires s1 == [A, B, C, D]
    ensures SiftUp(s1, 3, D) == [D, A, C, B]
  {
    assert Parent(3) == 1 && D.time < s1[1].time;
    var s2 := s1[3 := B];
    assert SiftUp(s1, 3, D) == SiftUp(s2, 1, D);
    assert Parent(1) == 0 && D.time < s2[0].time;
    var s3 := s2[1 := A];
    assert SiftUp(s2, 1, D) == SiftUp(s3, 0, D);
    assert SiftUp(s3, 0, D) == s3[0 := D];
    assert s3[0 := D] == [D, A, C, B];
  }

  lemma FourOffers()
    ensures Offer(Offer(Offer(Offer([], A), B), C), D) == [D, A, C, B]
  {
    FirstOffer();
    SecondOffer();
    ThirdOffer();
    EarlierOfferClimbs();
  }

  /** Polling d moves the last element, b, to the root, and b is not later
      than a, so it stays there. */
  lemma PollMovesLastToRoot()
    ensures Poll([D, A, C, B]) == (D, [B, A, C])
  {
    assert [D, A, C, B][..3] == [D, A, C];
    assert SiftDown([D, A, C], 0, B) == [B, A, C];
  }

  /** Events scheduled for time 1 as a, b and c and then one for time 0 as d
      come out as d and then b: b, scheduled after a for the same moment,
      runs before it. */
  lemma EqualTimestampsNotFifo()
    ensures var q := Offer(Offer(Offer(Offer([], A), B), C), D);
      && Poll(q).0 == D
      && Poll(Poll(q).1).0 == B
      && A in Poll(Poll(q).1).1
  {
    FourOffers();
    PollMovesLastToRoot();
    SecondPoll();
  }

  /** Polling b leaves c at the root: it is not later than a. */
  lemma SecondPoll()
    ensures Poll([B, A, C]) == (B, [C, A])
  {
    assert [B, A, C][..2] == [B, A];
    assert SiftDown([B, A], 0, C) == [C, A];
  }
}

=== FILE: javatext.dfy ===
/** The few pieces of the Java platform the model depends on: 32-bit `int`
    arithmetic, `Integer.toString`, `Integer.parseInt`, `Math.round` and
    `String.split` with a one-character separator. */
module JavaText {
  import opened Wrappers

  const IntMin: int := -0x8000_0000
  const IntMax: int := 0x7fff_ffff

  /** The values a Java `int` can hold. */
  predicate IsInt32(x: int) {
    IntMin <= x <= IntMax
  }

  /** A character above U+FFFF, which a Java `String` holds as two UTF-16
      units (a surrogate pair). */
  predicate Supplementary(c: char) {
    c as int >= 0x1_0000
  }

  /** Java `int` arithmetic: the exact result taken modulo 2^32 into the `int` range. */
  function Wrap32(x: int): (r: int)
    ensures IsInt32(r)
    ensures (r - x) % 0x1_0000_0000 == 0
    ensures IsInt32(x) ==> r == x
  {
    (x - IntMin) % 0x1_0000_0000 + IntMin
  }

  /** `(int) Math.round(x)` for a value already inside the `int` range:
      the nearest integer, halves rounded up. */
  function Round(x: real): (r: int)
    ensures r as real - 0.5 <= x < r as real + 0.5
  {
    (x + 0.5).Floor
  }

  predicate IsDigit(c: char) {
    '0' <= c <= '9'
  }

  predicate AllDigits(s: string) {
    forall i :: 0 <= i < |s| ==> IsDigit(s[i])
  }

  function DigitChar(d: nat): (c: char)
    requires d < 10
    ensures IsDigit(c)
    ensures c as int - '0' as int == d
  {
    ('0' as int + d) as char
  }

  /** The decimal digits of `n`, without leading zeros. */
  function NatToDigits(n: nat): (s: string)
    ensures 0 < |s|
    ensures AllDigits(s)
    ensures s[0] == '0' ==> n == 0
    decreases n
  {
    if n < 10 then [DigitChar(n)] else NatToDigits(n / 10) + [DigitChar(n % 10)]
  }

  /** The number a string of decimal digits denotes. */
  function DigitsValue(s: string): nat
    requires AllDigits(s)
  {
    if s == [] then 0 else DigitsValue(s[..|s| - 1]) * 10 + (s[|s| - 1] as int - '0' as int)
  }

  lemma {:induction false} DigitsRoundTrip(n: nat)
    ensures DigitsValue(NatToDigits(n)) == n
    decreases n
  {
    if 10 <= n {
      var s := NatToDigits(n);
      assert s[..|s| - 1] == NatToDigits(n / 10);
      DigitsRoundTrip(n / 10);
    }
  }

  /** `Integer.toString(i)`, also what `%s` prints for an `int`. */
  function IntToString(i: int): (s: string)
    ensures 0 < |s|
    ensures s[0] == '-' <==> i < 0
    ensures i < 0 ==> 1 < |s| && AllDigits(s[1..])
    ensures 0 <= i ==> AllDigits(s)
  {
    if i < 0 then "-" + NatToDigits(-i) else NatToDigits(i)
  }

  /** `Integer.parseInt(s)`: an optional `-` or `+`, at least one decimal
      digit, and a value inside the `int` range; anything else is a
      `NumberFormatException`. */
  function ParseInt(s: string): (r: Result<int, ()>)
    ensures r.Ok? ==> IsInt32(r.value)
    ensures |s| == 0 ==> r.Err?
  {
    if |s| == 0 then Err(())
    else
      var signed := s[0] == '-' || s[0] == '+';
      var digits := if signed then s[1..] else s;
      if |digits| == 0 || !AllDigits(digits) then Err(())
      else
        var v: int := if s[0] == '-' then 0 - DigitsValue(digits) as int else DigitsValue(digits) as int;
        if IsInt32(v) then Ok(v) else Err(())
  }

  /** Parsing what `Integer.toString` printed gives the number back. */
  lemma ParseIntRoundTrip(i: int)
    requires IsInt32(i)
    ensures ParseInt(IntToString(i)) == Ok(i)
  {
    var s := IntToString(i);
    if i < 0 {
      var d := NatToDigits(-i);
      assert s == "-" + d;
      assert s[1..] == d;
      DigitsRoundTrip(-i);
      assert DigitsValue(d) == -i;
    } else {
      var d := NatToDigits(i);
      assert s == d;
      DigitsRoundTrip(i);
      assert s[0] != '-' && s[0] != '+';
    }
  }

  /** The pieces of `s` between the occurrences of `sep`, empty pieces
      included; there is always one more piece than there are separators. */
  function SplitAll(s: string, sep: char): (parts: seq<string>)
    ensures 0 < |parts|
    ensures forall i :: 0 <= i < |parts| ==> sep !in parts[i]
  {
    if s == [] then [[]]
    else
      var rest := SplitAll(s[1..], sep);
      if s[0] == sep then [[]] + rest else [[s[0]] + rest[0]] + rest[1..]
  }

  /** The pieces joined back with the separator between them. */
  function Join(parts: seq<string>, sep: char): string
    requires 0 < |parts|
  {
    if |parts| == 1 then parts[0] else parts[0] + [sep] + Join(parts[1..], sep)
  }

  /** `SplitAll` and `Join` are inverse to each other. */
  lemma {:induction false} JoinSplitAll(s: string, sep: char)
    ensures Join(SplitAll(s, sep), sep) == s
  {
    if s != [] {
      JoinSplitAll(s[1..], sep);
      var rest := SplitAll(s[1..], sep);
      if s[0] != sep {
        if |rest| > 1 {
          assert ([[s[0]] + rest[0]] + rest[1..])[1..] == rest[1..];
          assert Join(rest, sep) == rest[0] + [sep] + Join(rest[1..], sep);
        }
      } else {
        assert ([[]] + rest)[1..] == rest;
      }
    }
  }

  lemma {:induction false} SplitAllJoin(parts: seq<string>, sep: char)
    requires 0 < |parts|
    requires forall i :: 0 <= i < |parts| ==> sep !in parts[i]
    ensures SplitAll(Join(parts, sep), sep) == parts
    decreases |parts|, |parts[0]|
  {
    if parts[0] == [] {
      if |parts| > 1 {
        SplitAllJoin(parts[1..], sep);
        assert Join(parts, sep) == [sep] + Join(parts[1..], sep);
        assert [[]] + parts[1..] == parts;
      }
    } else {
      var p := parts[0];
      var shorter := [p[1..]] + parts[1..];
      assert forall i :: 0 <= i < |shorter| ==> sep !in shorter[i] by {
        forall i | 0 <= i < |shorter|
          ensures sep !in shorter[i]
        {
          if i > 0 {
            assert shorter[i] == parts[i];
          }
        }
      }
      SplitAllJoin(shorter, sep);
      assert shorter[1..] == parts[1..];
      assert Join(parts, sep) == [p[0]] + Join(shorter, sep) by {
        if |parts| > 1 {
          assert Join(shorter, sep) == p[1..] + [sep] + Join(parts[1..], sep);
        }
      }
      assert Join(parts, sep)[1..] == Join(shorter, sep);
      assert [p[0]] + p[1..] == p;
      assert [[p[0]] + p[1..]] + parts[1..] == parts;
    }
  }

  /** The list with its trailing empty strings removed. */
  function StripTrailingEmpty(parts: seq<string>): (r: seq<string>)
    ensures |r| <= |parts| && r == parts[..|r|]
    ensures 0 < |r| ==> r[|r| - 1] != []
    ensures forall i :: |r| <= i < |parts| ==> parts[i] == []
  {
    if 0 < |parts| && parts[|parts| - 1] == [] then StripTrailingEmpty(parts[..|parts| - 1]) else parts
  }

  /** `s.split(String.valueOf(sep))` for a separator that is not a regular
      expression metacharacter: the whole string when the separator does not
      occur, otherwise the pieces without the trailing empty ones. */
  function Split(s: string, sep: char): (parts: seq<string>)
    ensures sep !in s ==> parts == [s]
    ensures forall i :: 0 <= i < |parts| ==> sep !in parts[i]
  {
    if sep !in s then [s] else StripTrailingEmpty(SplitAll(s, sep))
  }
}

=== FILE: location.dfy ===
/** A grid position (`Location`): its equality and hash, its textual key
    form "R<row>C<column>" and how that key is read back when a configuration
    is deserialised, and the Euclidean distance between two positions. */
module Locations {
  import opened Wrappers
  import opened JavaText
  import RealMath

  /** A row and a column; both are Java `int` fields. */
  datatype Location = Location(row: int, column: int)

  /** The coordinates fit the Java `int` fields. */
  predicate Valid(l: Location) {
    IsInt32(l.row) && IsInt32(l.column)
  }

  /** `Location.equals`: two locations are equal when their rows and their
      columns are equal. */
  function Equals(a: Location, b: Location): (r: bool)
    ensures r <==> a == b
  {
    a.row == b.row && a.column == b.column
  }

  /** `Location.hashCode`: `31 * row + column` in wrapping `int` arithmetic. */
  function HashCode(l: Location): (h: int)
    ensures IsInt32(h)
    ensures (h - (31 * l.row + l.column)) % 0x1_0000_0000 == 0
  {
    Wrap32(31 * l.row + l.column)
  }

  /** Equal locations have equal hash codes, as `HashMap` keys require. */
  lemma HashConsistent(a: Location, b: Location)
    requires Equals(a, b)
    ensures HashCode(a) == HashCode(b)
  {
  }

  /** `Location.toString`: "R" + row + "C" + column. */
  function ToString(l: Location): (s: string)
    ensures 'C' in s && s[0] == 'R'
  {
    "R" + IntToString(l.row) + "C" + IntToString(l.column)
  }

  /** The exceptions `LocationKeyDeserializer.deserializeKey` can end in. */
  datatype KeyError = ArrayIndexOutOfBounds | StringIndexOutOfBounds | NumberFormat

  /** `LocationKeyDeserializer.deserializeKey`: split the key at "C", drop the
      first UTF-16 unit of the first piece (whatever it is) and parse the rest
      as the row, parse the second piece as the column; further pieces are
      ignored. When the first character is a surrogate pair, only its first
      half is dropped, and the second half left in front of the row is no
      digit, so the row does not parse. */
  function DeserializeKey(key: string): (r: Result<Location, KeyError>)
    ensures r.Ok? ==> Valid(r.value)
    ensures 'C' !in key ==> r.Err?
    ensures r.Ok? ==> |key| > 0 && !Supplementary(key[0])
  {
    var parts := Split(key, 'C');
    if |parts| == 0 then Err(ArrayIndexOutOfBounds)
    else if |parts[0]| == 0 then Err(StringIndexOutOfBounds)
    else if |parts| < 2 then Err(ArrayIndexOutOfBounds)
    else if Supplementary(parts[0][0]) then Err(NumberFormat)
    else
      match (ParseInt(parts[0][1..]), ParseInt(parts[1]))
      case (Ok(row), Ok(column)) => Ok(Location(row, column))
      case _ => Err(NumberFormat)
  }

  /** The key of a location splits at "C" into the row part and the column part. */
  lemma SplitKey(c: char, l: Location)
    requires c != 'C'
    ensures Split([c] + IntToString(l.row) + "C" + IntToString(l.column), 'C')
            == [[c] + IntToString(l.row), IntToString(l.column)]
  {
    var a, b := [c] + IntToString(l.row), IntToString(l.column);
    assert 'C' !in a && 'C' !in b;
    var key := [c] + IntToString(l.row) + "C" + IntToString(l.column);
    assert key == Join([a, b], 'C');
    SplitAllJoin([a, b], 'C');
    assert key[|a|] == 'C';
  }

  /** Reading back the key that `toString` writes gives the location again. */
  lemma KeyRoundTrip(l: Location)
    requires Valid(l)
    ensures DeserializeKey(ToString(l)) == Ok(l)
  {
    SplitKey('R', l);
    assert ("R" + IntToString(l.row))[1..] == IntToString(l.row);
    ParseIntRoundTrip(l.row);
    ParseIntRoundTrip(l.column);
  }

  /** The first character of a key is never inspected: any character other
      than "C" in place of the "R" reads the same location, unless it takes
      two UTF-16 units, when the row does not parse. */
  lemma KeyIgnoresFirstCharacter(c: char, l: Location)
    requires Valid(l)
    requires c != 'C'
    ensures !Supplementary(c) ==> DeserializeKey([c] + IntToString(l.row) + "C" + IntToString(l.column)) == Ok(l)
    ensures Supplementary(c) ==> DeserializeKey([c] + IntToString(l.row) + "C" + IntToString(l.column)) == Err(NumberFormat)
  {
    SplitKey(c, l);
    assert ([c] + IntToString(l.row))[1..] == IntToString(l.row);
    ParseIntRoundTrip(l.row);
    ParseIntRoundTrip(l.column);
  }

  /** The squared Euclidean distance, an integer. */
  function SquaredDistance(a: Location, b: Location): (d: nat)
    ensures d == 0 <==> a == b
  {
    var dr, dc := a.row - b.row, a.column - b.column;
    assert dr * dr >= 0 && dc * dc >= 0;
    assert dr != 0 ==> dr * dr > 0;
    assert dc != 0 ==> dc * dc > 0;
    dr * dr + dc * dc
  }

  /** `Math.hypot(a.row - b.row, a.column - b.column)`. */
  function Distance(m: RealMath.Oracle, a: Location, b: Location): real {
    m.sqrt(SquaredDistance(a, b) as real)
  }

  /** The Chebyshev (king-move) distance. */
  function Chebyshev(a: Location, b: Location): (d: nat)
    ensures d == 0 <==> a == b
  {
    var dr := if a.row < b.row then b.row - a.row else a.row - b.row;
    var dc := if a.column < b.column then b.column - a.column else a.column - b.column;
    if dr < dc then dc else dr
  }

  /** Comparing a distance with a bound is comparing squares. */
  lemma DistanceCompare(m: RealMath.Oracle, a: Location, b: Location, bound: real)
    requires RealMath.Valid(m)
    requires 0.0 <= bound
    ensures 0.0 <= Distance(m, a, b)
    ensures Distance(m, a, b) <= bound <==> SquaredDistance(a, b) as real <= bound * bound
    ensures Distance(m, a, b) < bound <==> SquaredDistance(a, b) as real < bound * bound
  {
    var x := SquaredDistance(a, b) as real;
    RealMath.SqrtOfSquare(m, bound);
    if x <= bound * bound {
      RealMath.SqrtMonotone(m, x, bound * bound);
    } else {
      RealMath.SqrtStrictlyMonotone(m, bound * bound, x);
    }
    if x < bound * bound {
      RealMath.SqrtStrictlyMonotone(m, x, bound * bound);
    } else {
      RealMath.SqrtMonotone(m, bound * bound, x);
    }
  }

  /** The squared distance to one of the eight neighbours is 1 along a row
      or column and 2 along a diagonal; beyond them it is at least 4. */
  lemma NeighbourSquares(a: Location, b: Location)
    ensures Chebyshev(a, b) == 1 && (a.row == b.row || a.column == b.column) ==> SquaredDistance(a, b) == 1
    ensures Chebyshev(a, b) == 1 && a.row != b.row && a.column != b.column ==> SquaredDistance(a, b) == 2
    ensures Chebyshev(a, b) >= 2 ==> SquaredDistance(a, b) >= 4
  {
    var dr, dc := a.row - b.row, a.column - b.column;
    if Chebyshev(a, b) >= 2 {
      if dr <= -2 || dr >= 2 {
        assert dr * dr >= 4;
      } else {
        assert dc <= -2 || dc >= 2;
        assert dc * dc >= 4;
      }
    } else if Chebyshev(a, b) == 1 {
      assert -1 <= dr <= 1 && -1 <= dc <= 1;
      assert dr * dr == (if dr == 0 then 0 else 1);
      assert dc * dc == (if dc == 0 then 0 else 1);
    }
  }

  /** Between the eight neighbours of a cell the distance is 1 along a row
      or column and the square root of two along a diagonal; beyond them it
      is at least 2. */
  lemma NeighbourDistance(m: RealMath.Oracle, a: Location, b: Location)
    requires RealMath.Valid(m)
    ensures Chebyshev(a, b) == 1 && (a.row == b.row || a.column == b.column) ==> Distance(m, a, b) == 1.0
    ensures Chebyshev(a, b) == 1 && a.row != b.row && a.column != b.column ==> Distance(m, a, b) == m.sqrt(2.0)
    ensures Chebyshev(a, b) == 1 ==> 0.95 < Distance(m, a, b) < 1.5
    ensures Chebyshev(a, b) >= 2 ==> Distance(m, a, b) >= 2.0
    ensures a == b ==> Distance(m, a, b) == 0.0
  {
    NeighbourSquares(a, b);
    RealMath.SqrtTwoBounds(m);
    RealMath.SqrtOfSquare(m, 1.0);
    RealMath.SqrtOfSquare(m, 0.0);
    if Chebyshev(a, b) >= 2 {
      RealMath.SqrtOfSquare(m, 2.0);
      RealMath.SqrtMonotone(m, 4.0, SquaredDistance(a, b) as real);
    }
  }
}

=== FILE: movement.dfy ===
/** The movement decision every move strategy shares
    (`DefaultMovementStrategy`): how much each neighbouring cell lowers the
    potential, corrected for diagonal steps and for other people nearby, and
    which cells are chosen from that; and the potential shown to the user
    with the repulsion of all people added. */
module Movement {
  import opened Wrappers
  import opened RealMath
  import opened Locations
  import opened ObjectTypes
  import opened SimObjects
  import opened Persons
  import opened States
  import opened Neighbourhoods
  import opened Randomness
  import opened Potentials

  function IntAbs(x: int): nat {
    if x < 0 then -x else x
  }

  /** The rows and columns between a person's source and target. */
  function RowDiff(p: Person): nat {
    IntAbs(p.source.row - p.target.row)
  }

  function ColumnDiff(p: Person): nat {
    IntAbs(p.source.column - p.target.column)
  }

  /** `normalizeDiagonalPotentialDescent` of the Euclidean and fast-marching
      strategies: the descent is divided by one plus the ratio of the smaller
      to the larger of the row and column offsets between the person's source
      and target. When source and target coincide that ratio is 0/0, and the
      result is NaN. */
  function NormalizeDiagonal(d: XReal, p: Person): (r: XReal)
    ensures RowDiff(p) == 0 && ColumnDiff(p) == 0 ==> r.NaN?
    ensures !(RowDiff(p) == 0 && ColumnDiff(p) == 0) ==>
      && (d.Num? <==> r.Num?)
      && (!d.Num? ==> r == d)
      && (d.Num? ==> (0.0 <= d.r ==> 0.0 <= r.r <= d.r) && (d.r <= 0.0 ==> d.r <= r.r <= 0.0)
                     && (0.0 <= d.r ==> d.r <= 2.0 * r.r) && (d.r <= 0.0 ==> 2.0 * r.r <= d.r))
  {
    var rows, columns := RowDiff(p), ColumnDiff(p);
    if rows == 0 && columns == 0 then NaN
    else
      var factor := if rows > columns then 1.0 + Ratio(columns, rows) else 1.0 + Ratio(rows, columns);
      DivideByFactor(d, factor);
      DivPos(d, factor)
  }

  /** `a / b` for `0 <= a <= b`, which lies between zero and one. */
  function Ratio(a: nat, b: nat): (q: real)
    requires a <= b && 0 < b
    ensures 0.0 <= q <= 1.0
    ensures q * b as real == a as real
  {
    var q := a as real / b as real;
    assert q * b as real == a as real;
    assert q <= 1.0 by {
      if q > 1.0 {
        MulMonotone(b as real, 1.0, q);
      }
    }
    q
  }

  lemma MulMonotone(x: real, a: real, b: real)
    requires 0.0 <= x && a <= b
    ensures x * a <= x * b
    ensures 0.0 < x && a < b ==> x * a < x * b
  {
    assert x * b - x * a == x * (b - a);
  }

  /** Dividing by a factor from one to two keeps the sign and shrinks the
      magnitude at most by half. */
  lemma DivideByFactor(d: XReal, factor: real)
    requires 1.0 <= factor <= 2.0
    ensures d.Num? ==> var q := d.r / factor;
      && (0.0 <= d.r ==> 0.0 <= q <= d.r && d.r <= 2.0 * q)
      && (d.r <= 0.0 ==> d.r <= q <= 0.0 && 2.0 * q <= d.r)
  {
    if d.Num? {
      QuotientBounds(d.r, factor, d.r / factor);
    }
  }

  lemma ProductNonNegative(a: real, b: real)
    requires 0.0 <= a && 0.0 <= b
    ensures 0.0 <= a * b
  {
  }

  lemma QuotientBounds(x: real, factor: real, q: real)
    requires 1.0 <= factor <= 2.0 && q * factor == x
    ensures 0.0 <= x ==> 0.0 <= q <= x && x <= 2.0 * q
    ensures x <= 0.0 ==> x <= q <= 0.0 && 2.0 * q <= x
  {
    assert x - q == q * (factor - 1.0);
    assert 2.0 * q - x == q * (2.0 - factor);
    if 0.0 <= x {
      assert 0.0 <= q;
      ProductNonNegative(q, factor - 1.0);
      ProductNonNegative(q, 2.0 - factor);
    } else {
      assert q < 0.0;
      ProductNonNegative(-q, factor - 1.0);
      ProductNonNegative(-q, 2.0 - factor);
    }
  }

  /** A journey along a row or a column leaves diagonal descents alone; an
      exactly diagonal journey halves them. */
  lemma NormalizeDiagonalExtremes(d: XReal, p: Person)
    requires d.Num?
    ensures (RowDiff(p) == 0) != (ColumnDiff(p) == 0) ==> NormalizeDiagonal(d, p) == d
    ensures RowDiff(p) == ColumnDiff(p) != 0 ==> NormalizeDiagonal(d, p) == Num(d.r / 2.0)
  {
  }

  /** `DijkstraMoveStrategy.normalizeDiagonalPotentialDescent`. A descent
      strictly between 1.4 and 1.5 (one diagonal step in the Dijkstra field)
      becomes 1.01 or 0.99 by a uniform draw that favours the kind of step
      the journey has more of; every other diagonal descent becomes -1. */
  function NormalizeDiagonalDijkstra(d: XReal, p: Person, g: Random): (r: (XReal, Random))
    ensures !(d.Num? && 1.4 < d.r < 1.5) ==> r == (Num(-1.0), g)
    ensures d.Num? && 1.4 < d.r < 1.5 ==> (r.0 == Num(0.99) || r.0 == Num(1.01)) && r.1 == g.Next().1
    ensures d.Num? && 1.4 < d.r < 1.5 ==>
      var diagonal := Neighbourhoods.Min(RowDiff(p), ColumnDiff(p));
      var straight := Neighbourhoods.Max(RowDiff(p), ColumnDiff(p)) - diagonal;
      var u := g.Next().0;
      && (diagonal > straight ==> (r.0 == Num(1.01) <==> u * (diagonal + straight) as real < diagonal as real))
      && (diagonal <= straight && 0 < straight ==> (r.0 == Num(0.99) <==> u * (diagonal + straight) as real < straight as real))
      && (diagonal + straight == 0 ==> r.0 == Num(1.01))
  {
    if d.Num? && 1.4 < d.r < 1.5 then
      var diagonal := Neighbourhoods.Min(RowDiff(p), ColumnDiff(p));
      var straight := Neighbourhoods.Max(RowDiff(p), ColumnDiff(p)) - diagonal;
      var total := diagonal + straight;
      var (u, g') := g.Next();
      if total == 0 then (Num(1.01), g')
      else if diagonal > straight then
        (if Within(u, diagonal, total) then Num(1.01) else Num(0.99), g')
      else
        (if Within(u, straight, total) then Num(0.99) else Num(1.01), g')
    else (Num(-1.0), g)
  }

  /** Whether a draw `u` falls below the share `part / total`. */
  function Within(u: real, part: int, total: int): (b: bool)
    requires 0 < total
    ensures b <==> u * total as real < part as real
  {
    var t := total as real;
    assert part as real / t * t == part as real;
    u < part as real / t
  }

  /** `calculateMollifierValue(location, center)`: a bump of the given
      strength around a person that vanishes at `range` cells' distance. */
  function Mollifier(m: Oracle, c: MollifierConfiguration, location: Location, center: Location): (v: real)
    requires RealMath.Valid(m)
    ensures Distance(m, location, center) >= c.range as real ==> v == 0.0
    ensures 0.0 <= c.strength ==> v <= 0.0
    ensures 0.0 < c.strength && Distance(m, location, center) < c.range as real ==> -c.strength < v
    ensures 0.0 < c.strength && Distance(m, location, center) < c.range as real ==> v < 0.0
  {
    var d := Distance(m, location, center);
    DistanceCompare(m, location, center, 0.0);
    if d < c.range as real then Bump(m, c.strength, d / c.range as real) else 0.0
  }

  /** `-strength * exp(1 / (x^2 - 1))` for a relative distance `x` in [0, 1). */
  function Bump(m: Oracle, strength: real, x: real): (v: real)
    requires RealMath.Valid(m) && 0.0 <= x < 1.0
    ensures 0.0 <= strength ==> v <= 0.0
    ensures 0.0 < strength ==> -strength < v < 0.0
  {
    assert x * x < 1.0 by {
      assert x * x <= x;
    }
    ReciprocalNegative(x * x - 1.0);
    var e := m.exp(1.0 / (x * x - 1.0));
    ScaledBelow(strength, e);
    -(strength * e)
  }

  lemma ReciprocalNegative(y: real)
    requires y < 0.0
    ensures 1.0 / y < 0.0
  {
    assert (1.0 / y) * y == 1.0;
    if 0.0 <= 1.0 / y {
      ProductNonNegative(1.0 / y, -y);
    }
  }

  /** A positive amount scaled by a factor strictly between zero and one. */
  lemma ScaledBelow(a: real, e: real)
    requires 0.0 < e < 1.0
    ensures 0.0 <= a ==> 0.0 <= a * e
    ensures 0.0 < a ==> 0.0 < a * e < a
  {
    if 0.0 < a {
      assert a * e < a * 1.0;
    }
  }

  /** `getOtherPeopleInRadius`, filtering the visited cells: those whose
      upper occupant is a person no farther than `radius` away. */
  function PeopleAmong(m: Oracle, s: State, l: Location, radius: int, ks: seq<Location>): (r: seq<Location>)
    requires RealMath.Valid(m) && WellFormed(s)
    requires forall k | k in ks :: InGrid(s, k)
    ensures forall k :: k in r <==> k in ks && IsPersonAt(s, k) && Distance(m, k, l) <= radius as real
  {
    if ks == [] then []
    else
      var k := ks[0];
      var rest := PeopleAmong(m, s, l, radius, ks[1..]);
      assert forall k' :: k' in ks <==> k' == k || k' in ks[1..];
      if IsPersonAt(s, k) && Distance(m, k, l) <= radius as real then [k] + rest else rest
  }

  /** The upper occupant of the cell is a person. */
  predicate IsPersonAt(s: State, k: Location)
    requires WellFormed(s) && InGrid(s, k)
  {
    Upper(s.cells[k]).Some? && TypeOf(Upper(s.cells[k]).value) == PersonType
  }

  /** `getOtherPeopleInRadius`: the cells within the radius (as a
      Euclidean distance) whose upper occupant is a person, other than the
      person's own cell; none when the radius is not positive. */
  function OthersInRadius(m: Oracle, s: State, l: Location, radius: int): (r: seq<Location>)
    requires RealMath.Valid(m) && WellFormed(s)
    ensures radius <= 0 ==> r == []
    ensures radius > 0 ==> forall k :: k in r <==>
      InGrid(s, k) && k != l && IsPersonAt(s, k) && Distance(m, k, l) <= radius as real
  {
    if radius <= 0 then []
    else
      var box := Neighbours(l, s.rows, Columns(s), radius, radius);
      assert forall k | InGrid(s, k) && Distance(m, k, l) <= radius as real :: k in box || k == l by {
        forall k | InGrid(s, k) && Distance(m, k, l) <= radius as real
          ensures k in box || k == l
        {
          WithinDistanceInBox(m, k, l, radius);
        }
      }
      PeopleAmong(m, s, l, radius, box)
  }

  /** A cell no farther than `radius` lies in the box of that offset. */
  lemma WithinDistanceInBox(m: Oracle, k: Location, l: Location, radius: int)
    requires RealMath.Valid(m) && 0 < radius
    requires Distance(m, k, l) <= radius as real
    ensures l.row - radius <= k.row <= l.row + radius && l.column - radius <= k.column <= l.column + radius
  {
    DistanceCompare(m, k, l, radius as real);
    var dr, dc := k.row - l.row, k.column - l.column;
    assert dr * dr + dc * dc <= radius * radius;
    assert 0 <= dr * dr && 0 <= dc * dc;
    SquareBound(dr, radius);
    SquareBound(dc, radius);
  }

  /** An integer whose square is at most `b * b` lies between `-b` and `b`. */
  lemma SquareBound(a: int, b: int)
    requires 0 <= b && a * a <= b * b
    ensures -b <= a <= b
  {
  }

  /** The sum of the mollifier values of the given people at a cell. */
  function MollifierSum(m: Oracle, c: MollifierConfiguration, k: Location, others: seq<Location>): (v: real)
    requires RealMath.Valid(m)
    ensures 0.0 <= c.strength ==> v <= 0.0
    ensures (forall i :: 0 <= i < |others| ==> Distance(m, k, others[i]) >= c.range as real) ==> v == 0.0
  {
    if others == [] then 0.0 else Mollifier(m, c, k, others[0]) + MollifierSum(m, c, k, others[1..])
  }

  /** A neighbouring cell and how good a step there is. */
  datatype Candidate = Candidate(location: Location, descent: XReal, eligible: bool)

  /** A step may go to a cell that can be occupied or that holds a target. */
  predicate Eligible(s: State, k: Location)
    requires WellFormed(s) && InGrid(s, k)
  {
    CanBeOccupied(s, k) || OccupantType(s, k) == Some(TargetType)
  }

  /** The adjusted descent towards one neighbour: the drop of the potential,
      corrected when the step is diagonal, plus the repulsion of the people
      nearby when the radius is positive. */
  function DescentTo(m: Oracle, p: Person, field: Field, strategy: MoveStrategy, others: seq<Location>,
                     k: Location, g: Random): (r: (XReal, Random))
    requires RealMath.Valid(m)
    requires p.location in field && k in field
    ensures r.1 == g || r.1 == g.Next().1
    ensures Distance(m, p.location, k) <= 1.0 && strategy.radius <= 0 ==> r == (Sub(field[p.location], field[k]), g)
  {
    var d := Sub(field[p.location], field[k]);
    var (d', g') :=
      if Distance(m, p.location, k) > 1.0 then
        (if strategy.kind == Dijkstra then NormalizeDiagonalDijkstra(d, p, g) else (NormalizeDiagonal(d, p), g))
      else (d, g);
    if strategy.radius > 0 then (AddNum(d', MollifierSum(m, strategy.mollifier, k, others)), g') else (d', g')
  }

  /** The candidates of the visited neighbours, in visiting order, with the
      generator threaded through the draws of the Dijkstra correction. */
  function Candidates(m: Oracle, s: State, p: Person, field: Field, strategy: MoveStrategy, others: seq<Location>,
                      ks: seq<Location>, g: Random): (r: (seq<Candidate>, Random))
    requires RealMath.Valid(m) && WellFormed(s)
    requires p.location in field
    requires forall k | k in ks :: k in field && InGrid(s, k)
    ensures |r.0| == |ks|
    ensures forall i :: 0 <= i < |ks| ==> r.0[i].location == ks[i] && r.0[i].eligible == Eligible(s, ks[i])
    decreases |ks|
  {
    if ks == [] then ([], g)
    else
      var (d, g1) := DescentTo(m, p, field, strategy, others, ks[0], g);
      var (rest, g2) := Candidates(m, s, p, field, strategy, others, ks[1..], g1);
      ([Candidate(ks[0], d, Eligible(s, ks[0]))] + rest, g2)
  }

  /** The candidates the selection can pick: eligible, with a descent not
      below `-Double.MAX_VALUE` (NaN and minus infinity never qualify). */
  predicate Counts(c: Candidate) {
    c.eligible && Le(Num(-MaxValue), c.descent)
  }

  /** The locations of the counted candidates whose descent is `best`, in order. */
  function Winners(cs: seq<Candidate>, best: XReal): (r: seq<Location>)
    ensures forall k :: k in r <==> exists i :: 0 <= i < |cs| && Counts(cs[i]) && cs[i].descent == best && cs[i].location == k
    ensures |r| <= |cs|
  {
    if cs == [] then []
    else
      var rest := Winners(cs[..|cs| - 1], best);
      var c := cs[|cs| - 1];
      assert forall i :: 0 <= i < |cs| - 1 ==> cs[..|cs| - 1][i] == cs[i];
      if Counts(c) && c.descent == best then rest + [c.location] else rest
  }

  /** The loop of `chooseNextLocations` over the candidates: a strictly
      greater descent restarts the list, an equal one joins it; the greatest
      descent starts at `-Double.MAX_VALUE`. */
  function Select(cs: seq<Candidate>): (r: (XReal, seq<Location>))
  {
    if cs == [] then (Num(-MaxValue), [])
    else
      var (best, locations) := Select(cs[..|cs| - 1]);
      var c := cs[|cs| - 1];
      if !c.eligible then (best, locations)
      else if Lt(best, c.descent) then (c.descent, [c.location])
      else if Eq(c.descent, best) then (best, locations + [c.location])
      else (best, locations)
  }

  /** The selection keeps the greatest descent among the counted candidates
      (or `-Double.MAX_VALUE` if none counts) and returns exactly the counted
      candidates with that descent, in visiting order. */
  lemma {:induction false} SelectIsArgMax(cs: seq<Candidate>)
    ensures !Select(cs).0.NaN? && Le(Num(-MaxValue), Select(cs).0)
    ensures forall i :: 0 <= i < |cs| && Counts(cs[i]) ==> Le(cs[i].descent, Select(cs).0)
    ensures Select(cs).0 == Num(-MaxValue) || exists i :: 0 <= i < |cs| && Counts(cs[i]) && cs[i].descent == Select(cs).0
    ensures Select(cs).1 == Winners(cs, Select(cs).0)
  {
    if cs != [] {
      var init := cs[..|cs| - 1];
      var c := cs[|cs| - 1];
      SelectIsArgMax(init);
      var (best, locations) := Select(init);
      assert forall i :: 0 <= i < |init| ==> init[i] == cs[i];
      if !c.eligible {
        assert Winners(cs, best) == Winners(init, best);
      } else if Lt(best, c.descent) {
        assert Counts(c);
        assert Winners(init, c.descent) == [] by {
          forall i | 0 <= i < |init| && Counts(init[i])
            ensures init[i].descent != c.descent
          {
            LtTotalOrder(init[i].descent, best, c.descent);
          }
          NoWinners(init, c.descent);
        }
        assert Winners(cs, c.descent) == Winners(init, c.descent) + [c.location];
        forall i | 0 <= i < |cs| && Counts(cs[i])
          ensures Le(cs[i].descent, c.descent)
        {
          if i < |init| {
            LtTotalOrder(cs[i].descent, best, c.descent);
          }
        }
      } else if Eq(c.descent, best) {
        assert Counts(c);
        assert Winners(cs, best) == Winners(init, best) + [c.location];
      } else {
        assert !c.descent.NaN? ==> Lt(c.descent, best) by {
          if !c.descent.NaN? {
            LtTotalOrder(c.descent, best, best);
          }
        }
        assert Counts(c) ==> Le(c.descent, best);
        if Counts(c) {
          assert c.descent != best;
        }
        assert Winners(cs, best) == Winners(init, best);
      }
    }
  }

  lemma NoWinners(cs: seq<Candidate>, best: XReal)
    requires forall i :: 0 <= i < |cs| && Counts(cs[i]) ==> cs[i].descent != best
    ensures Winners(cs, best) == []
  {
  }

  /** `chooseNextLocations(person, state)`: the neighbours of the person's
      cell with the greatest adjusted descent; none when even the best step
      would climb and the person has not yet run out of patience. */
  function ChooseNextLocations(m: Oracle, s: State, p: Person, field: Field, strategy: MoveStrategy, g: Random): (r: (seq<Location>, Random))
    requires RealMath.Valid(m) && WellFormed(s) && InGrid(s, p.location)
    requires Covers(field, s.rows, s.columns)
    ensures var ks := Neighbours(p.location, s.rows, Columns(s), 1, 1);
      var others := OthersInRadius(m, s, p.location, strategy.radius);
      var (cs, g') := Candidates(m, s, p, field, strategy, others, ks, g);
      var (best, winners) := Select(cs);
      && r.1 == g'
      && (Lt(best, Num(0.0)) && p.couldNotMoveCounter <= p.patience ==> r.0 == [])
      && (!(Lt(best, Num(0.0)) && p.couldNotMoveCounter <= p.patience) ==> r.0 == Winners(cs, best))
    ensures forall k | k in r.0 :: InGrid(s, k) && Chebyshev(p.location, k) == 1 && Eligible(s, k)
  {
    var ks := Neighbours(p.location, s.rows, Columns(s), 1, 1);
    assert forall k | k in ks :: InGrid(s, k) && k in field;
    var others := OthersInRadius(m, s, p.location, strategy.radius);
    var (cs, g') := Candidates(m, s, p, field, strategy, others, ks, g);
    var (best, winners) := Select(cs);
    SelectIsArgMax(cs);
    WinnersAreEligibleNeighbours(s, ks, cs, best);
    if Lt(best, Num(0.0)) && p.couldNotMoveCounter <= p.patience then ([], g') else (winners, g')
  }

  lemma WinnersAreEligibleNeighbours(s: State, ks: seq<Location>, cs: seq<Candidate>, best: XReal)
    requires WellFormed(s) && (forall k | k in ks :: InGrid(s, k)) && |cs| == |ks|
    requires forall i :: 0 <= i < |ks| ==> cs[i].location == ks[i] && cs[i].eligible == Eligible(s, ks[i])
    ensures forall k | k in Winners(cs, best) :: k in ks && Eligible(s, k)
  {
    forall k | k in Winners(cs, best)
      ensures k in ks && Eligible(s, k)
    {
      var i :| 0 <= i < |cs| && Counts(cs[i]) && cs[i].descent == best && cs[i].location == k;
      assert ks[i] == k;
    }
  }

  /** A step along a row or column is never corrected; a diagonal one is. */
  lemma DiagonalIffDistanceAboveOne(m: Oracle, a: Location, k: Location)
    requires RealMath.Valid(m) && Chebyshev(a, k) == 1
    ensures Distance(m, a, k) > 1.0 <==> a.row != k.row && a.column != k.column
  {
    NeighbourDistance(m, a, k);
  }

  /** How `calculatePotential` throws: the cached targets are not exactly
      one (`UnsupportedOperationException`), listing the people meets a
      stale index entry, or a listed object is not a person (the cast). */
  datatype PotentialError = TargetCount | Listing(cause: ListError) | NotAPerson

  /** The arguments `calculatePotential` works on: `targets` lists the
      cached targets, a set, so none twice; the one target has a potential
      over the grid; `people` lists the cells the index holds for people,
      once each. */
  ghost predicate PotentialArgs(m: Oracle, s: State, targets: seq<Location>, cache: map<Location, Field>,
                                people: seq<Location>) {
    && RealMath.Valid(m) && WellFormed(s)
    && (forall i, j :: 0 <= i < j < |targets| ==> targets[i] != targets[j])
    && (|targets| == 1 ==> targets[0] in cache && Covers(cache[targets[0]], s.rows, Columns(s)))
    && (forall l :: l in people <==> l in Locs(s, PersonType))
    && (forall i, j :: 0 <= i < j < |people| ==> people[i] != people[j])
  }

  /** `calculatePotential` as evidently intended: the one target's cached
      potential, with, when the radius is positive, every person's
      repulsion subtracted in a fresh matrix over the cells of their
      mollifier box other than their own, riders on light barriers
      included. More than one target, or none, is refused. */
  function CalculatePotential(m: Oracle, s: State, targets: seq<Location>, cache: map<Location, Field>,
                              strategy: MoveStrategy, people: seq<Location>): (r: Result<Field, PotentialError>)
    requires PotentialArgs(m, s, targets, cache, people)
    ensures r.Err? <==> |targets| != 1
    ensures r.Err? ==> r.error == TargetCount
    ensures r.Ok? && strategy.radius <= 0 ==> r.value == cache[targets[0]]
    ensures r.Ok? && strategy.radius > 0 ==>
      r.value == Repelled(m, cache[targets[0]], strategy.mollifier, people, s.rows, Columns(s))
  {
    if |targets| != 1 then Err(TargetCount)
    else
      var base := cache[targets[0]];
      if strategy.radius <= 0 then Ok(base)
      else Ok(Repelled(m, base, strategy.mollifier, people, s.rows, Columns(s)))
  }

  /** `calculatePotential` as written: with a positive radius it lists the
      people by `getObjectsForType`, which throws on a stale index entry
      and hands out, for a person on a light barrier, the barrier, on which
      the cast to `Person` throws. When nothing throws it agrees with the
      intended potential. */
  function CalculatePotentialAsWritten(m: Oracle, s: State, targets: seq<Location>, cache: map<Location, Field>,
                                       strategy: MoveStrategy, people: seq<Location>): (r: Result<Field, PotentialError>)
    requires PotentialArgs(m, s, targets, cache, people)
    ensures |targets| != 1 ==> r == Err(TargetCount)
    ensures |targets| == 1 && strategy.radius <= 0 ==> r == CalculatePotential(m, s, targets, cache, strategy, people)
    ensures |targets| == 1 && strategy.radius > 0 ==>
      var listed := ObjectsForType(s, PersonType);
      && (listed.Err? ==> r == Err(Listing(listed.error)))
      && (listed.Ok? ==> (r.Err? <==> exists o | o in listed.value :: !o.PersonObject?))
      && (listed.Ok? && r.Err? ==> r.error == NotAPerson)
    ensures r.Ok? ==> r == CalculatePotential(m, s, targets, cache, strategy, people)
  {
    if |targets| != 1 then Err(TargetCount)
    else if strategy.radius <= 0 then CalculatePotential(m, s, targets, cache, strategy, people)
    else
      match ObjectsForType(s, PersonType)
      case Err(e) => Err(Listing(e))
      case Ok(objects) =>
        if exists o | o in objects :: !o.PersonObject? then Err(NotAPerson)
        else CalculatePotential(m, s, targets, cache, strategy, people)
  }

  /** On a world that keeps its invariant, the potential as written fails
      exactly where the intended one does, or when the radius is positive
      and a person stands on a light barrier; it never fails on the listing. */
  lemma RiderBreaksPotential(m: Oracle, s: State, targets: seq<Location>, cache: map<Location, Field>,
                             strategy: MoveStrategy, people: seq<Location>)
    requires PotentialArgs(m, s, targets, cache, people) && Inv(s)
    ensures var r := CalculatePotentialAsWritten(m, s, targets, cache, strategy, people);
      && (r.Err? <==> |targets| != 1 || (strategy.radius > 0 && exists l | l in people :: s.cells[l].Walkable?))
      && !(r.Err? && r.error.Listing?)
  {
    var listed := ObjectsForType(s, PersonType);
    assert forall l | l in Locs(s, PersonType) :: l in s.cells && Holds(s.cells[l], PersonType);
    assert listed.Ok?;
    if |targets| == 1 && strategy.radius > 0 {
      if exists l | l in people :: s.cells[l].Walkable? {
        var l :| l in people && s.cells[l].Walkable?;
        assert Stored(s.cells[l]) in listed.value;
        assert IsWalkable(s.cells[l].base);
      } else {
        forall o | o in listed.value
          ensures o.PersonObject?
        {
          var l :| l in Locs(s, PersonType) && Stored(s.cells[l]) == o;
          assert l in people;
        }
      }
    }
  }

  /** The fresh matrix of `calculatePotential`: over the cells of the grid,
      the base potential with every person's repulsion subtracted. Cells
      at +inf stay there, no finite value drops for a non-negative strength,
      and a cell out of every person's range keeps its base value. */
  function Repelled(m: Oracle, base: Field, c: MollifierConfiguration, people: seq<Location>,
                    rows: int, columns: int): (f: Field)
    requires RealMath.Valid(m) && Covers(base, rows, columns)
    ensures forall k :: k in f <==> InRect(rows, columns, k)
    ensures forall k | k in f :: f[k].Num? <==> base[k].Num?
    ensures forall k | k in f && !base[k].Num? :: f[k] == base[k]
    ensures 0.0 <= c.strength ==> forall k | k in f && f[k].Num? :: base[k].r <= f[k].r
    ensures forall k | k in f && (forall i :: 0 <= i < |people| ==> Distance(m, k, people[i]) >= c.range as real)
      :: f[k] == base[k]
  {
    map k | k in Rect(rows, columns) :: RepelledAt(m, base[k], c, k, people, rows, columns)
  }

  /** One cell of the fresh matrix: its base value `b` less the repulsion
      the people exert on `k`. */
  function RepelledAt(m: Oracle, b: XReal, c: MollifierConfiguration, k: Location, people: seq<Location>,
                      rows: int, columns: int): (x: XReal)
    requires RealMath.Valid(m)
    ensures x.Num? <==> b.Num?
    ensures !b.Num? ==> x == b
    ensures 0.0 <= c.strength && x.Num? ==> b.r <= x.r
    ensures (forall i :: 0 <= i < |people| ==> Distance(m, k, people[i]) >= c.range as real) ==> x == b
  {
    AddNum(b, -Repulsion(m, c, k, people, rows, columns))
  }

  /** The total repulsion the people exert on a cell: the mollifier value of
      each person whose box of offset `range` holds the cell. */
  function Repulsion(m: Oracle, c: MollifierConfiguration, k: Location, people: seq<Location>, rows: int, columns: int): (v: real)
    requires RealMath.Valid(m)
    ensures 0.0 <= c.strength ==> v <= 0.0
    ensures (forall i :: 0 <= i < |people| ==> Distance(m, k, people[i]) >= c.range as real) ==> v == 0.0
  {
    if people == [] then 0.0
    else
      var here := if k in Neighbours(people[0], rows, columns, c.range, c.range) then Mollifier(m, c, k, people[0]) else 0.0;
      here + Repulsion(m, c, k, people[1..], rows, columns)
  }
}

=== FILE: neighbourhood.dfy ===
/** `forEachNeighbour`: the cells of the box of `rowOffset` rows and
    `columnOffset` columns around a location, clipped to the grid, visited
    row by row and column by column, without the location itself. The
    movement strategies, the graph of the Dijkstra strategy and the spawn
    strategy all walk neighbourhoods this way. */
module Neighbourhoods {
  import opened Locations

  function Max(a: int, b: int): int {
    if a < b then b else a
  }

  function Min(a: int, b: int): int {
    if a < b then a else b
  }

  /** The number of integers from `lo` to `hi`. */
  function Span(lo: int, hi: int): nat {
    if hi < lo then 0 else hi - lo + 1
  }

  /** Visiting order: row by row, and within a row by column. */
  predicate RowMajorBefore(a: Location, b: Location) {
    a.row < b.row || (a.row == b.row && a.column < b.column)
  }

  predicate Ascending(s: seq<Location>) {
    forall i, j :: 0 <= i < j < |s| ==> RowMajorBefore(s[i], s[j])
  }

  /** The columns `c` to `hi` of one row, without `skip`. */
  function RowCells(row: int, c: int, hi: int, skip: Location): (r: seq<Location>)
    ensures forall k :: k in r <==> k.row == row && c <= k.column <= hi && k != skip
    ensures Ascending(r)
    ensures |r| == Span(c, hi) - (if skip.row == row && c <= skip.column <= hi then 1 else 0)
    decreases hi - c + 1
  {
    if hi < c then []
    else
      var head := if Location(row, c) == skip then [] else [Location(row, c)];
      var rest := RowCells(row, c + 1, hi, skip);
      assert forall k :: k in rest ==> RowMajorBefore(Location(row, c), k);
      head + rest
  }

  /** The rows `r` to `hiRow` of the box, each from `loCol` to `hiCol`,
      without `skip`. */
  function BoxCells(r: int, hiRow: int, loCol: int, hiCol: int, skip: Location): (s: seq<Location>)
    ensures forall k :: k in s <==> r <= k.row <= hiRow && loCol <= k.column <= hiCol && k != skip
    ensures Ascending(s)
    ensures |s| == Span(r, hiRow) * Span(loCol, hiCol)
                   - (if r <= skip.row <= hiRow && loCol <= skip.column <= hiCol then 1 else 0)
    decreases hiRow - r + 1
  {
    if hiRow < r then []
    else
      var row := RowCells(r, loCol, hiCol, skip);
      var rest := BoxCells(r + 1, hiRow, loCol, hiCol, skip);
      assert Span(r, hiRow) * Span(loCol, hiCol) == Span(loCol, hiCol) + Span(r + 1, hiRow) * Span(loCol, hiCol);
      assert forall i, j :: 0 <= i < |row| && 0 <= j < |rest| ==> RowMajorBefore(row[i], rest[j]) by {
        forall i, j | 0 <= i < |row| && 0 <= j < |rest|
          ensures RowMajorBefore(row[i], rest[j])
        {
          assert row[i] in row && rest[j] in rest;
        }
      }
      row + rest
  }

  /** Whether `k` lies in the clipped box around `l`. */
  predicate InBox(l: Location, rows: int, columns: int, rowOffset: int, columnOffset: int, k: Location) {
    && Max(0, l.row - rowOffset) <= k.row <= Min(l.row + rowOffset, rows - 1)
    && Max(0, l.column - columnOffset) <= k.column <= Min(l.column + columnOffset, columns - 1)
  }

  /** `forEachNeighbour(location, state, rowOffset, columnOffset, consumer)`:
      the locations handed to the consumer, in order. Each cell of the
      clipped box other than the location is visited exactly once. */
  function Neighbours(l: Location, rows: int, columns: int, rowOffset: int, columnOffset: int): (s: seq<Location>)
    ensures forall k :: k in s <==> InBox(l, rows, columns, rowOffset, columnOffset, k) && k != l
    ensures forall i, j :: 0 <= i < j < |s| ==> s[i] != s[j]
    ensures Ascending(s)
    ensures |s| == Span(Max(0, l.row - rowOffset), Min(l.row + rowOffset, rows - 1))
                   * Span(Max(0, l.column - columnOffset), Min(l.column + columnOffset, columns - 1))
                   - (if InBox(l, rows, columns, rowOffset, columnOffset, l) then 1 else 0)
  {
    var s := BoxCells(Max(0, l.row - rowOffset), Min(l.row + rowOffset, rows - 1),
                      Max(0, l.column - columnOffset), Min(l.column + columnOffset, columns - 1), l);
    assert forall i, j :: 0 <= i < j < |s| ==> s[i] != s[j] by {
      forall i, j | 0 <= i < j < |s|
        ensures s[i] != s[j]
      {
        assert RowMajorBefore(s[i], s[j]);
      }
    }
    s
  }

  /** Every cell of a `rows` by `columns` grid, row by row: the order of
      the double loops that scan the whole state. */
  function GridCells(rows: int, columns: int): (s: seq<Location>)
    ensures forall k :: k in s <==> 0 <= k.row < rows && 0 <= k.column < columns
    ensures Ascending(s)
  {
    BoxCells(0, rows - 1, 0, columns - 1, Location(-1, -1))
  }

  /** Only cells of the grid are visited. */
  lemma NeighboursInGrid(l: Location, rows: int, columns: int, rowOffset: int, columnOffset: int, k: Location)
    requires k in Neighbours(l, rows, columns, rowOffset, columnOffset)
    ensures 0 <= k.row < rows && 0 <= k.column < columns
  {
  }

  /** The neighbourhood of offset one is the set of grid cells at Chebyshev
      distance one. */
  lemma UnitNeighbours(l: Location, rows: int, columns: int, k: Location)
    ensures k in Neighbours(l, rows, columns, 1, 1) <==>
      0 <= k.row < rows && 0 <= k.column < columns && Chebyshev(l, k) == 1
  {
  }

  /** An interior cell has eight neighbours. */
  lemma InteriorHasEight(l: Location, rows: int, columns: int)
    requires 1 <= l.row < rows - 1 && 1 <= l.column < columns - 1
    ensures |Neighbours(l, rows, columns, 1, 1)| == 8
  {
  }

  /** A corner cell has three neighbours. */
  lemma CornerHasThree(rows: int, columns: int)
    requires 2 <= rows && 2 <= columns
    ensures |Neighbours(Location(0, 0), rows, columns, 1, 1)| == 3
  {
  }

  /** A box of five rows and three columns around a cell of the second row
      of a four-row grid is cut to four rows: eleven neighbours. */
  lemma ClippedBoxHasEleven(columns: int)
    requires 3 <= columns
    ensures |Neighbours(Location(1, 1), 4, columns, 2, 1)| == 11
  {
  }

  /** The cells of `ks` found in `allowed`, in their order. */
  function Keep(ks: seq<Location>, allowed: set<Location>): (r: seq<Location>)
    ensures forall k :: k in r <==> k in ks && k in allowed
    ensures |r| <= |ks|
    ensures Ascending(ks) ==> Ascending(r)
  {
    if ks == [] then []
    else
      var rest := Keep(ks[1..], allowed);
      assert Ascending(ks) ==> Ascending(ks[1..]) && forall k | k in rest :: RowMajorBefore(ks[0], k) by {
        if Ascending(ks) {
          forall k | k in rest
            ensures RowMajorBefore(ks[0], k)
          {
            var j :| 0 <= j < |ks[1..]| && ks[1..][j] == k;
            assert ks[j + 1] == k;
          }
        }
      }
      if ks[0] in allowed then [ks[0]] + rest else rest
  }
}

=== FILE: objects.dfy ===
/** The objects that occupy grid cells (`SimObject` and its implementations
    Person, Obstacle, Source, Target and LightBarrier), the configurations
    sources and targets carry, and `CellDescriptor.createSimObject`, which
    builds an object from its configuration entry. */
module SimObjects {
  import opened Wrappers
  import opened JavaText
  import opened Locations
  import opened ObjectTypes
  import opened Persons

  /** `MollifierConfiguration`: the reach and strength of the repulsion
      between people. */
  datatype MollifierConfiguration = MollifierConfiguration(range: int, strength: real)

  const DefaultMollifier: MollifierConfiguration := MollifierConfiguration(2, 1.5)

  /** Which base potential a move strategy walks down. */
  datatype PotentialKind = Euclidean | Dijkstra | FastMarching

  /** A move strategy's settings: its potential, the mollifier, and the
      radius within which other people repel. */
  datatype MoveStrategy = MoveStrategy(kind: PotentialKind, mollifier: MollifierConfiguration, radius: int)

  /** `MoveStrategies.DEFAULT`: Euclidean with the default mollifier and radius 3. */
  const DefaultMoveStrategy: MoveStrategy := MoveStrategy(Euclidean, DefaultMollifier, 3)

  /** How long a source waits between spawns. */
  datatype SpawnStrategy = FixedRate(rate: real) | Poisson(lambda: real)

  /** How a spawned person's speed is chosen. */
  datatype SpeedGenerator = FixedSpeed(speed: real) | NormSpeed(mean: real, deviation: real)

  /** How a spawned person's patience is chosen. */
  datatype PatienceGenerator = NormPatience(mean: int, maxDeviation: int)

  /** What a target does with a person that reaches it. */
  datatype ConsumeStrategy = Remove | Revive

  datatype SourceConfiguration = SourceConfiguration(
    spawnStrategy: SpawnStrategy,
    moveStrategy: MoveStrategy,
    maxSpawns: int,
    speedGenerator: SpeedGenerator,
    patienceGenerator: PatienceGenerator)

  datatype TargetConfiguration = TargetConfiguration(consumeStrategy: ConsumeStrategy)

  /** The configuration a cell entry may carry. */
  datatype CellConfiguration = SourceConfig(source: SourceConfiguration) | TargetConfig(target: TargetConfiguration)

  /** A source without a configuration spawns every 10 time units without
      limit, walks people by the default move strategy at the fixed speed
      3.34, and draws patience around 20 with deviation 10. */
  const DefaultSourceConfiguration: SourceConfiguration :=
    SourceConfiguration(FixedRate(10.0), DefaultMoveStrategy, -1, FixedSpeed(3.34), NormPatience(20, 10))

  /** A target without a configuration removes the people that reach it. */
  const DefaultTargetConfiguration: TargetConfiguration := TargetConfiguration(Remove)

  /** `areSpawnsLimited`: a positive maximum limits the spawns. */
  predicate AreSpawnsLimited(c: SourceConfiguration) {
    c.maxSpawns > 0
  }

  /** `areSpawnsUnlimited`: zero or a negative maximum means no limit. */
  predicate AreSpawnsUnlimited(c: SourceConfiguration) {
    c.maxSpawns <= 0
  }

  /** Every configuration is either limited or unlimited, never both. */
  lemma LimitedIffNotUnlimited(c: SourceConfiguration)
    ensures AreSpawnsLimited(c) <==> !AreSpawnsUnlimited(c)
  {
  }

  /** An object in a cell. */
  datatype SimObject =
    | PersonObject(person: Person)
    | Obstacle(at: Location)
    | Source(at: Location, sourceConfig: SourceConfiguration, spawnCounter: int)
    | Target(at: Location, targetConfig: TargetConfiguration)
    | LightBarrier(at: Location)

  /** `getType` of an object on its own (a light barrier without a rider). */
  function TypeOf(o: SimObject): (t: SimObjectType)
    ensures t == LightBarrierType <==> o.LightBarrier?
    ensures t == PersonType <==> o.PersonObject?
  {
    match o
    case PersonObject(_) => PersonType
    case Obstacle(_) => ObstacleType
    case Source(_, _, _) => SourceType
    case Target(_, _) => TargetType
    case LightBarrier(_) => LightBarrierType
  }

  /** `getLocation`. */
  function LocationOf(o: SimObject): Location {
    if o.PersonObject? then o.person.location else o.at
  }

  /** `isWalkable`: only a light barrier can be stepped on. */
  predicate IsWalkable(o: SimObject) {
    o.LightBarrier?
  }

  /** `setLocation`: people move; every other object throws
      `UnsupportedOperationException`. */
  function SetLocation(o: SimObject, l: Location): (r: Result<SimObject, ()>)
    ensures r.Ok? <==> o.PersonObject?
    ensures r.Ok? ==> r.value == PersonObject(o.person.(location := l))
  {
    if o.PersonObject? then Ok(PersonObject(o.person.(location := l))) else Err(())
  }

  /** `Source.increaseSpawnCounter` (an `int` field). */
  function IncreaseSpawnCounter(o: SimObject): (q: SimObject)
    requires o.Source?
    ensures q == o.(spawnCounter := Wrap32(o.spawnCounter + 1))
  {
    o.(spawnCounter := Wrap32(o.spawnCounter + 1))
  }

  /** A configuration entry: the type id, the location and, for sources and
      targets, an optional configuration. */
  datatype CellDescriptor = CellDescriptor(typeId: int, location: Location, configuration: Option<CellConfiguration>)

  /** Why `createSimObject` fails: the id names no type (the `switch` on
      `null` throws), or the configuration is of the wrong kind (the cast
      throws). */
  datatype DescriptorError = UnknownType | WrongConfiguration

  /** `CellDescriptor.createSimObject`. A person entry becomes a placeholder
      person, which still takes an id from the counter. */
  function CreateSimObject(d: CellDescriptor, nextPersonId: int): (r: Result<(SimObject, int), DescriptorError>)
    ensures r.Err? && r.error == UnknownType <==> ForTypeId(d.typeId).None?
    ensures r.Ok? ==> Some(TypeOf(r.value.0)) == ForTypeId(d.typeId)
    ensures r.Ok? ==> LocationOf(r.value.0) == d.location
    ensures r.Ok? && r.value.0.Source? && d.configuration.None? ==> r.value.0.sourceConfig == DefaultSourceConfiguration
    ensures r.Ok? && r.value.0.Target? && d.configuration.None? ==> r.value.0.targetConfig == DefaultTargetConfiguration
    ensures r.Ok? && r.value.0.Source? ==> r.value.0.spawnCounter == 0
    ensures r.Ok? ==> r.value.1 == (if r.value.0.PersonObject? then Wrap32(nextPersonId + 1) else nextPersonId)
  {
    match ForTypeId(d.typeId)
    case None => Err(UnknownType)
    case Some(PersonType) =>
      var (p, next) := NewPerson(nextPersonId, Location(0, 0), Location(0, 0), d.location, 1.0, 0.0, 20);
      Ok((PersonObject(p), next))
    case Some(ObstacleType) => Ok((Obstacle(d.location), nextPersonId))
    case Some(SourceType) =>
      (match d.configuration
       case None => Ok((Source(d.location, DefaultSourceConfiguration, 0), nextPersonId))
       case Some(SourceConfig(c)) => Ok((Source(d.location, c, 0), nextPersonId))
       case Some(TargetConfig(_)) => Err(WrongConfiguration))
    case Some(TargetType) =>
      (match d.configuration
       case None => Ok((Target(d.location, DefaultTargetConfiguration), nextPersonId))
       case Some(TargetConfig(c)) => Ok((Target(d.location, c), nextPersonId))
       case Some(SourceConfig(_)) => Err(WrongConfiguration))
    case Some(LightBarrierType) => Ok((LightBarrier(d.location), nextPersonId))
  }

  /** Creation fails only on an unknown id or a configuration of the wrong
      kind: an entry of any type without a configuration always yields an
      object of that type at that location. */
  lemma CreateWithoutConfiguration(t: SimObjectType, l: Location, nextPersonId: int)
    ensures CreateSimObject(CellDescriptor(Id(t), l, None), nextPersonId).Ok?
    ensures TypeOf(CreateSimObject(CellDescriptor(Id(t), l, None), nextPersonId).value.0) == t
  {
    ForTypeIdRoundTrip(t);
  }

  /** A configuration is rejected exactly when it does not match the type. */
  lemma WrongConfigurationIff(d: CellDescriptor, nextPersonId: int)
    ensures CreateSimObject(d, nextPersonId) == Err(WrongConfiguration) <==>
      (ForTypeId(d.typeId) == Some(SourceType) && d.configuration.Some? && d.configuration.value.TargetConfig?)
      || (ForTypeId(d.typeId) == Some(TargetType) && d.configuration.Some? && d.configuration.value.SourceConfig?)
  {
  }
}

=== FILE: objecttype.dfy ===
/** The five kinds of simulation object (`SimObjectType`), their numeric ids
    and display names, and the id lookup that is filled on first use. */
module ObjectTypes {
  import opened Wrappers

  datatype SimObjectType = PersonType | ObstacleType | SourceType | TargetType | LightBarrierType

  const AllTypes: set<SimObjectType> := {PersonType, ObstacleType, SourceType, TargetType, LightBarrierType}

  /** The type id: Person 1, Obstacle 2, Source 3, Target 4, Light barrier 5. */
  function Id(t: SimObjectType): (id: int)
    ensures 1 <= id <= 5
  {
    match t
    case PersonType => 1
    case ObstacleType => 2
    case SourceType => 3
    case TargetType => 4
    case LightBarrierType => 5
  }

  /** The display name of a type. */
  function Name(t: SimObjectType): string {
    match t
    case PersonType => "Person"
    case ObstacleType => "Obstacle"
    case SourceType => "Source"
    case TargetType => "Target"
    case LightBarrierType => "Light barrier"
  }

  /** Distinct types have distinct ids and distinct names. */
  lemma IdsAndNamesDistinct(a: SimObjectType, b: SimObjectType)
    ensures Id(a) == Id(b) <==> a == b
    ensures Name(a) == Name(b) <==> a == b
  {
  }

  /** The lookup table: every type entered under its id. */
  function Lookup(): (table: map<int, SimObjectType>)
    ensures table.Keys == set t | t in AllTypes :: Id(t)
    ensures forall t :: Id(t) in table && table[Id(t)] == t
  {
    map t | t in AllTypes :: Id(t) := t
  }

  /** `SimObjectType.getForTypeID`: the type with the given id, or `null`. */
  function ForTypeId(id: int): (r: Option<SimObjectType>)
    ensures r.Some? <==> 1 <= id <= 5
    ensures r.Some? ==> Id(r.value) == id
  {
    var table := Lookup();
    assert forall t :: Id(t) in table;
    assert 1 <= id <= 5 ==> id in table by {
      if 1 <= id <= 5 {
        var t := match id case 1 => PersonType case 2 => ObstacleType case 3 => SourceType
                          case 4 => TargetType case _ => LightBarrierType;
        assert Id(t) == id;
      }
    }
    if id in table then Some(table[id]) else None
  }

  /** Looking up the id of a type gives the type back. */
  lemma ForTypeIdRoundTrip(t: SimObjectType)
    ensures ForTypeId(Id(t)) == Some(t)
  {
    IdsAndNamesDistinct(t, ForTypeId(Id(t)).value);
  }

  /** The lookup as the source keeps it: the table is filled when it is found
      empty, and a filled table is used as it is. Either way the answer is the
      same and the table ends up filled. */
  function ForTypeIdCached(cache: map<int, SimObjectType>, id: int): (r: (map<int, SimObjectType>, Option<SimObjectType>))
    requires cache == map[] || cache == Lookup()
    ensures r.0 == Lookup()
    ensures r.1 == ForTypeId(id)
  {
    var table := if |cache| == 0 then Lookup() else cache;
    (table, if id in table then Some(table[id]) else None)
  }
}

=== FILE: person.dfy ===
/** A walking person (`Person`): where they came from and are heading, their
    nominal speed, their patience, how often in a row they could not move,
    and the history of the speeds they actually walked. */
module Persons {
  import opened JavaText
  import opened Locations

  datatype Person = Person(
    id: int,
    source: Location,
    target: Location,
    speed: real,
    location: Location,
    lastMoveTimestamp: real,
    couldNotMoveCounter: int,
    patience: int,
    speedHistory: seq<real>)

  /** The constructor: the person takes the next id of the class-wide counter
      (a Java `int`, so it wraps), has not been blocked yet, has walked
      nothing yet, and counts as having last moved at its creation. */
  function NewPerson(nextId: int, source: Location, target: Location, location: Location,
                     speed: real, creationTimestamp: real, patience: int): (r: (Person, int))
    ensures r.0.id == nextId && r.1 == Wrap32(nextId + 1)
    ensures r.0.source == source && r.0.target == target && r.0.location == location
    ensures r.0.speed == speed && r.0.patience == patience
    ensures r.0.lastMoveTimestamp == creationTimestamp
    ensures r.0.couldNotMoveCounter == 0 && r.0.speedHistory == []
  {
    (Person(nextId, source, target, speed, location, creationTimestamp, 0, patience, []), Wrap32(nextId + 1))
  }

  /** `addMovementRecord`: the speed of the walk that ends at `timestamp`
      after covering `distance` since the last move is appended to the
      history, and the end of the walk becomes the last move. */
  function AddMovementRecord(p: Person, timestamp: real, distance: real): (q: Person)
    requires timestamp != p.lastMoveTimestamp
    ensures |q.speedHistory| == |p.speedHistory| + 1
    ensures q.speedHistory[..|p.speedHistory|] == p.speedHistory
    ensures q.speedHistory[|p.speedHistory|] * (timestamp - p.lastMoveTimestamp) == distance
    ensures q.lastMoveTimestamp == timestamp
    ensures q == p.(lastMoveTimestamp := q.lastMoveTimestamp, speedHistory := q.speedHistory)
  {
    var diff := timestamp - p.lastMoveTimestamp;
    p.(lastMoveTimestamp := timestamp, speedHistory := p.speedHistory + [distance / diff])
  }

  /** `couldNotMove`: one more blocked attempt in a row. */
  function CouldNotMove(p: Person): (q: Person)
    ensures q.couldNotMoveCounter == Wrap32(p.couldNotMoveCounter + 1)
    ensures q == p.(couldNotMoveCounter := q.couldNotMoveCounter)
  {
    p.(couldNotMoveCounter := Wrap32(p.couldNotMoveCounter + 1))
  }

  /** `couldMove`: the run of blocked attempts is over. */
  function CouldMove(p: Person): (q: Person)
    ensures q.couldNotMoveCounter == 0
    ensures q == p.(couldNotMoveCounter := 0)
  {
    p.(couldNotMoveCounter := 0)
  }

  /** `setTarget`: the person heads for another cell. */
  function SetTarget(p: Person, target: Location): (q: Person)
    ensures q.target == target
    ensures q.id == p.id && q.source == p.source && q.speed == p.speed && q.patience == p.patience
    ensures q.location == p.location && q.lastMoveTimestamp == p.lastMoveTimestamp
    ensures q.couldNotMoveCounter == p.couldNotMoveCounter && q.speedHistory == p.speedHistory
  {
    p.(target := target)
  }

  /** What never changes about a person: its id, origin, nominal speed and
      patience. */
  predicate SameIdentity(p: Person, q: Person) {
    p.id == q.id && p.source == q.source && p.speed == q.speed && p.patience == q.patience
  }

  /** No operation on a person changes its identity, and retargeting
      changes nothing but where it heads. */
  lemma OperationsKeepIdentity(p: Person, target: Location, timestamp: real, distance: real)
    requires timestamp != p.lastMoveTimestamp
    ensures SameIdentity(p, SetTarget(p, target))
    ensures SameIdentity(p, CouldMove(p)) && SameIdentity(p, CouldNotMove(p))
    ensures SameIdentity(p, AddMovementRecord(p, timestamp, distance))
    ensures SetTarget(SetTarget(p, target), p.target) == p
  {
  }

  /** The sum of a list of samples. */
  function Sum(s: seq<real>): real {
    if s == [] then 0.0 else Sum(s[..|s| - 1]) + s[|s| - 1]
  }

  /** The window `getMeanSpeed(windowSize)` averages over: the requested
      size capped at the length of the history. */
  function Window(p: Person, windowSize: int): int {
    if windowSize < |p.speedHistory| then windowSize else |p.speedHistory|
  }

  /** What `getMeanSpeed(windowSize)` promises: the average of the last
      `windowSize` recorded speeds (all of them if there are fewer), or the
      nominal speed when that window is empty. */
  function MeanSpeedSpec(p: Person, windowSize: int): real {
    var w := Window(p, windowSize);
    if w <= 0 then p.speed
    else Sum(p.speedHistory[|p.speedHistory| - w..]) / w as real
  }

  /** `getMeanSpeed(windowSize)`, summing the window from its oldest sample
      to the newest one. */
  method MeanSpeed(p: Person, windowSize: int) returns (mean: real)
    ensures mean == MeanSpeedSpec(p, windowSize)
    ensures Window(p, windowSize) <= 0 ==> mean == p.speed
  {
    var w := Window(p, windowSize);
    if w <= 0 {
      return p.speed;
    }
    var n := |p.speedHistory|;
    var sum := 0.0;
    var i := n - w;
    while i < n
      invariant n - w <= i <= n
      invariant sum == Sum(p.speedHistory[n - w..i])
    {
      assert p.speedHistory[n - w..i + 1][..i - (n - w)] == p.speedHistory[n - w..i];
      sum := sum + p.speedHistory[i];
      i := i + 1;
    }
    assert p.speedHistory[n - w..n] == p.speedHistory[n - w..];
    mean := sum / w as real;
  }

  /** `getMeanSpeed()`: the average over the whole history. */
  method FullMeanSpeed(p: Person) returns (mean: real)
    ensures mean == MeanSpeedSpec(p, |p.speedHistory|)
    ensures 0 < |p.speedHistory| ==> mean * |p.speedHistory| as real == Sum(p.speedHistory)
    ensures |p.speedHistory| == 0 ==> mean == p.speed
  {
    mean := MeanSpeed(p, |p.speedHistory|);
    assert p.speedHistory[0..] == p.speedHistory;
  }

  /** Every average of recorded speeds lies between the slowest and the
      fastest sample of its window. */
  lemma {:induction false} SumBounds(s: seq<real>, lo: real, hi: real)
    requires forall i :: 0 <= i < |s| ==> lo <= s[i] <= hi
    ensures |s| as real * lo <= Sum(s) <= |s| as real * hi
  {
    if s != [] {
      SumBounds(s[..|s| - 1], lo, hi);
    }
  }

  lemma MeanSpeedBounds(p: Person, windowSize: int, lo: real, hi: real)
    requires forall i :: 0 <= i < |p.speedHistory| ==> lo <= p.speedHistory[i] <= hi
    requires 0 < Window(p, windowSize)
    ensures lo <= MeanSpeedSpec(p, windowSize) <= hi
  {
    var w := Window(p, windowSize);
    var win := p.speedHistory[|p.speedHistory| - w..];
    assert forall i :: 0 <= i < |win| ==> lo <= win[i] <= hi by {
      forall i | 0 <= i < |win|
        ensures lo <= win[i] <= hi
      {
        assert win[i] == p.speedHistory[|p.speedHistory| - w + i];
      }
    }
    SumBounds(win, lo, hi);
    assert |win| == w;
  }

  /** Right after a move has been recorded, the mean over a window of one is
      the speed of that move. */
  lemma LastRecordIsWindowOfOne(p: Person, timestamp: real, distance: real)
    requires timestamp != p.lastMoveTimestamp
    ensures MeanSpeedSpec(AddMovementRecord(p, timestamp, distance), 1) * (timestamp - p.lastMoveTimestamp) == distance
  {
    var q := AddMovementRecord(p, timestamp, distance);
    var n := |q.speedHistory|;
    assert q.speedHistory[n - 1..] == [q.speedHistory[n - 1]];
    assert Sum([q.speedHistory[n - 1]]) == q.speedHistory[n - 1] by {
      assert [q.speedHistory[n - 1]][..0] == [];
    }
  }
}

=== FILE: potential.dfy ===
/** Potential fields: a value per grid cell that people walk down towards a
    target, and the Euclidean one (`EuclideanMoveStrategy`), which ignores
    obstacles and is the straight-line distance to the target. */
module Potentials {
  import opened Wrappers
  import opened RealMath
  import opened Locations

  /** A `double[rows][columns]` potential matrix. */
  type Field = map<Location, XReal>

  predicate InRect(rows: int, columns: int, l: Location) {
    0 <= l.row < rows && 0 <= l.column < columns
  }

  /** The field has a value for every cell of a `rows` by `columns` grid. */
  ghost predicate Covers(f: Field, rows: int, columns: int) {
    forall l :: InRect(rows, columns, l) ==> l in f
  }

  /** Every cell of a `rows` by `columns` grid. */
  function Rect(rows: int, columns: int): (g: set<Location>)
    ensures forall l :: l in g <==> InRect(rows, columns, l)
  {
    var g := set r, c | 0 <= r < rows && 0 <= c < columns :: Location(r, c);
    assert forall l: Location :: InRect(rows, columns, l) ==> l in g by {
      forall l: Location | InRect(rows, columns, l)
        ensures l in g
      {
        assert l == Location(l.row, l.column);
      }
    }
    g
  }

  /** `EuclideanMoveStrategy.calculateBasePotential`: the distance of every
      cell to the target; with no target, a matrix of zeros. */
  function EuclideanPotential(m: Oracle, rows: int, columns: int, target: Option<Location>): (f: Field)
    requires RealMath.Valid(m)
    ensures forall l :: l in f <==> InRect(rows, columns, l)
    ensures forall l | l in f :: f[l].Num? && 0.0 <= f[l].r
    ensures target.None? ==> forall l | l in f :: f[l] == Num(0.0)
    ensures target.Some? ==> forall l | l in f :: f[l].r * f[l].r == SquaredDistance(l, target.value) as real
  {
    map l | l in Rect(rows, columns) :: if target.None? then Num(0.0) else Num(Distance(m, l, target.value))
  }

  /** In the Euclidean field the potential is zero exactly at the target. */
  lemma EuclideanZeroOnlyAtTarget(m: Oracle, rows: int, columns: int, target: Location, l: Location)
    requires RealMath.Valid(m) && InRect(rows, columns, l)
    ensures EuclideanPotential(m, rows, columns, Some(target))[l] == Num(0.0) <==> l == target
  {
    var f := EuclideanPotential(m, rows, columns, Some(target));
    assert f[l].r * f[l].r == SquaredDistance(l, target) as real;
    if f[l].r == 0.0 {
      assert SquaredDistance(l, target) == 0;
    }
    if l == target {
      SqrtOfSquare(m, 0.0);
    }
  }

  /** The Euclidean field orders cells by their distance to the target. */
  lemma EuclideanMonotone(m: Oracle, rows: int, columns: int, target: Location, a: Location, b: Location)
    requires RealMath.Valid(m) && InRect(rows, columns, a) && InRect(rows, columns, b)
    ensures var f := EuclideanPotential(m, rows, columns, Some(target));
      f[a].r < f[b].r <==> SquaredDistance(a, target) < SquaredDistance(b, target)
  {
    var x, y := SquaredDistance(a, target) as real, SquaredDistance(b, target) as real;
    if x < y {
      SqrtStrictlyMonotone(m, x, y);
    } else {
      SqrtMonotone(m, y, x);
    }
  }
}

=== FILE: randomness.dfy ===
/** The simulation's random number generator and the distribution samples
    its generators draw. The generator is an arbitrary stream of uniform
    draws in [0, 1): which stream the seeded `java.util.Random` produces is
    not modelled, only how the simulation consumes it. */
module Randomness {
  import opened Wrappers

  /** A uniform draw, `Random.nextDouble()`. */
  type Unit = x: real | 0.0 <= x < 1.0

  /** A stream of values and the position of the next one. */
  datatype Stream<T> = Stream(at: nat -> T, pos: nat) {

    /** The next value and the stream after it. */
    function Next(): (r: (T, Stream<T>))
      ensures r.0 == at(pos)
      ensures r.1 == Stream(at, pos + 1)
    {
      (at(pos), Stream(at, pos + 1))
    }
  }

  /** `java.util.Random` as the stream of its `nextDouble` values. */
  type Random = Stream<Unit>

  /** `Random.nextDouble()`. */
  function NextDouble(g: Random): (r: (real, Random))
    ensures 0.0 <= r.0 < 1.0
    ensures r.1 == Stream(g.at, g.pos + 1)
  {
    g.Next()
  }

  /** `Random.nextInt(bound)` fails with `IllegalArgumentException` when the
      bound is not positive, and otherwise yields an index below the bound. */
  function NextInt(g: Random, bound: int): (r: Result<(int, Random), ()>)
    ensures r.Ok? <==> 0 < bound
    ensures r.Ok? ==> 0 <= r.value.0 < bound && r.value.1 == Stream(g.at, g.pos + 1)
  {
    if bound <= 0 then Err(())
    else
      var (u, g') := g.Next();
      var k := (u * bound as real).Floor;
      assert u * bound as real < bound as real;
      Ok((k, g'))
  }
}

=== FILE: realmath.dfy ===
/** Real arithmetic the simulation needs beyond `+ - * /`.

    `Math.sqrt`, `Math.hypot` and `Math.exp` enter the model as an `Oracle`
    argument constrained by `Valid`, so every fact used about them is stated
    here and nothing is assumed. `XReal` follows the IEEE-754 special values
    (infinities, NaN) that the potential fields and the movement decision rely
    on; rounding is not modelled. */
module RealMath {

  /** `Double.MAX_VALUE`, that is (2^53 - 1) * 2^971, written out exactly. */
  const MaxValue: real := 179769313486231570814527423731704356798070567525844996598917476803157260780028538760589558632766878171540458953514382464234321326889464182768467546703537516986049910576551282076245490090389328944075868508455133942304583236903222948165808559332123348274797826204144723168738177180919299881250404026184124858368.0

  /** Half the gap between `Double.MAX_VALUE` and the double below it, 2^970. */
  const HalfGapAtMax: real := 9979201547673599058281863565184192830337256302177287707512736212186059459344820328924789827463178505446712234220962476219862189941967968303695858991424157101600028364755428382587688607221814935913266783722719619966654052275604351944444276342240220787535604534378780208211792476151720049639424.0

  /** Whether a sum of doubles, rounded to the nearest double, is exactly
      `Double.MAX_VALUE`: it lies within half a gap of it. A tie below goes to
      the neighbour with the even mantissa, which is the smaller one, and a
      tie above overflows to infinity. */
  predicate RoundsToMax(x: real) {
    MaxValue - HalfGapAtMax < x < MaxValue + HalfGapAtMax
  }

  /** The square root and exponential functions the model is run with. */
  datatype Oracle = Oracle(sqrt: real -> real, exp: real -> real)

  /** `sqrt` is the exact non-negative square root on non-negative inputs,
      `exp` is positive and below one on negative arguments. */
  ghost predicate Valid(m: Oracle) {
    && (forall x :: 0.0 <= x ==> 0.0 <= m.sqrt(x) && m.sqrt(x) * m.sqrt(x) == x)
    && (forall x :: 0.0 < m.exp(x))
    && (forall x :: x < 0.0 ==> m.exp(x) < 1.0)
  }

  /** `Math.sqrt` on a non-negative argument. */
  function Sqrt(m: Oracle, x: real): (s: real)
    requires Valid(m) && 0.0 <= x
    ensures 0.0 <= s && s * s == x
  {
    m.sqrt(x)
  }

  /** The non-negative root of a square is the number itself. */
  lemma SqrtOfSquare(m: Oracle, r: real)
    requires Valid(m)
    requires 0.0 <= r
    ensures m.sqrt(r * r) == r
  {
    var s := m.sqrt(r * r);
    assert 0.0 <= s && s * s == r * r;
    assert (s - r) * (s + r) == 0.0;
    if s + r != 0.0 {
      assert s - r == (s - r) * (s + r) / (s + r);
    }
  }

  /** The square root is strictly increasing. */
  lemma SqrtStrictlyMonotone(m: Oracle, x: real, y: real)
    requires Valid(m)
    requires 0.0 <= x < y
    ensures m.sqrt(x) < m.sqrt(y)
  {
    var a, b := m.sqrt(x), m.sqrt(y);
    assert 0.0 <= a && a * a == x;
    assert 0.0 <= b && b * b == y;
    assert (b - a) * (b + a) == y - x;
    assert 0.0 < b + a;
    assert 0.0 < b - a;
  }

  /** The square root is monotone. */
  lemma SqrtMonotone(m: Oracle, x: real, y: real)
    requires Valid(m)
    requires 0.0 <= x <= y
    ensures m.sqrt(x) <= m.sqrt(y)
  {
    if x < y {
      SqrtStrictlyMonotone(m, x, y);
    }
  }

  /** Between non-negative numbers, squaring keeps the order. */
  lemma SquareMonotone(x: real, y: real)
    requires 0.0 <= x && 0.0 <= y && x * x <= y * y
    ensures x <= y
  {
    if x + y != 0.0 {
      assert x - y == (x * x - y * y) / (x + y);
    }
  }

  /** The square root of two lies strictly between 1.4 and 1.5; the bounds
      are the window both the Dijkstra node adjacency test and the Dijkstra
      diagonal correction use. */
  lemma SqrtTwoBounds(m: Oracle)
    requires Valid(m)
    ensures 1.4 < m.sqrt(2.0) < 1.5
  {
    SqrtOfSquare(m, 1.4);
    SqrtOfSquare(m, 1.5);
    SqrtStrictlyMonotone(m, 1.96, 2.0);
    SqrtStrictlyMonotone(m, 2.0, 2.25);
  }

  /** A double value without rounding: a finite real, an infinity or NaN. */
  datatype XReal = NegInf | Num(r: real) | PosInf | NaN

  /** `a - b` in IEEE-754 (infinity minus the same infinity is NaN). */
  function Sub(a: XReal, b: XReal): (d: XReal)
    ensures a.Num? && b.Num? ==> d == Num(a.r - b.r)
    ensures (a.NaN? || b.NaN?) ==> d.NaN?
  {
    match (a, b)
    case (NaN, _) => NaN
    case (_, NaN) => NaN
    case (Num(x), Num(y)) => Num(x - y)
    case (PosInf, PosInf) => NaN
    case (NegInf, NegInf) => NaN
    case (PosInf, _) => PosInf
    case (NegInf, _) => NegInf
    case (Num(_), PosInf) => NegInf
    case (Num(_), NegInf) => PosInf
  }

  /** `a + x` for a finite `x`. */
  function AddNum(a: XReal, x: real): (d: XReal)
    ensures a.Num? <==> d.Num?
    ensures a.Num? ==> d.r == a.r + x
    ensures !a.Num? ==> d == a
  {
    if a.Num? then Num(a.r + x) else a
  }

  /** `a / k` for a finite positive `k`. */
  function DivPos(a: XReal, k: real): (d: XReal)
    requires 0.0 < k
    ensures a.Num? <==> d.Num?
    ensures a.Num? ==> d.r * k == a.r
    ensures !a.Num? ==> d == a
  {
    if a.Num? then Num(a.r / k) else a
  }

  /** `Math.abs`. */
  function Abs(a: XReal): (d: XReal)
    ensures a.Num? ==> d.Num? && 0.0 <= d.r && (d.r == a.r || d.r == -a.r)
    ensures (a.PosInf? || a.NegInf?) ==> d.PosInf?
    ensures a.NaN? ==> d.NaN?
  {
    match a
    case Num(x) => Num(if x < 0.0 then -x else x)
    case NaN => NaN
    case _ => PosInf
  }

  /** The IEEE `a < b`: false whenever NaN takes part. */
  predicate Lt(a: XReal, b: XReal) {
    match (a, b)
    case (Num(x), Num(y)) => x < y
    case (NegInf, Num(_)) => true
    case (NegInf, PosInf) => true
    case (Num(_), PosInf) => true
    case _ => false
  }

  /** The IEEE `a == b` on doubles: NaN equals nothing. */
  predicate Eq(a: XReal, b: XReal) {
    !a.NaN? && !b.NaN? && a == b
  }

  /** The IEEE `a <= b`. */
  predicate Le(a: XReal, b: XReal) {
    Lt(a, b) || Eq(a, b)
  }

  /** `Math.min`: NaN if either argument is NaN, the smaller one otherwise. */
  function Min(a: XReal, b: XReal): (d: XReal)
    ensures (a.NaN? || b.NaN?) <==> d.NaN?
    ensures !d.NaN? ==> Le(d, a) && Le(d, b) && (d == a || d == b)
  {
    if a.NaN? || b.NaN? then NaN
    else if Lt(b, a) then b
    else a
  }

  /** On the values other than NaN, `Lt` is a strict total order. */
  lemma LtTotalOrder(a: XReal, b: XReal, c: XReal)
    requires !a.NaN? && !b.NaN? && !c.NaN?
    ensures !Lt(a, a)
    ensures Lt(a, b) || a == b || Lt(b, a)
    ensures Lt(a, b) && Lt(b, c) ==> Lt(a, c)
    ensures Lt(a, b) ==> !Lt(b, a)
  {
  }
}

=== FILE: scheduler.dfy ===
/** The event-driven scheduler (`EventDrivenScheduler`): a virtual clock and
    the queue of pending events, each a timestamp and the handler to run
    then. Events with equal timestamps run in the order they were scheduled,
    which the queue guarantees through a sequence number given to every
    event when it is scheduled. Handlers are a type parameter; the
    simulation instantiates it with its event kinds. */
module Scheduling {
  import opened Wrappers
  import RealMath

  datatype Event<H> = Event(time: real, seqNo: nat, handler: H)

  /** The order the queue runs events in: earlier first, and on equal
      timestamps the earlier scheduled one first. */
  predicate Before<H>(a: Event<H>, b: Event<H>) {
    a.time < b.time || (a.time == b.time && a.seqNo < b.seqNo)
  }

  predicate Sorted<H>(q: seq<Event<H>>) {
    forall i, j :: 0 <= i < j < |q| ==> Before(q[i], q[j])
  }

  /** The clock, the pending events in running order, and the sequence
      number the next scheduled event gets. */
  datatype Scheduler<H> = Scheduler(now: real, queue: seq<Event<H>>, nextSeq: nat)

  /** The queue is in running order, no pending event lies before the clock,
      and every pending event was numbered before the next one. */
  ghost predicate Inv<H>(s: Scheduler<H>) {
    && Sorted(s.queue)
    && (forall i :: 0 <= i < |s.queue| ==> s.now <= s.queue[i].time && s.queue[i].seqNo < s.nextSeq)
  }

  /** `new EventDrivenScheduler(startTime)`. */
  function NewScheduler<H>(startTime: real): (s: Scheduler<H>)
    ensures Inv(s) && s.now == startTime && s.queue == []
  {
    Scheduler(startTime, [], 0)
  }

  /** `currentTime`. */
  function CurrentTime<H>(s: Scheduler<H>): (t: real)
    requires Inv(s)
    ensures forall i :: 0 <= i < |s.queue| ==> t <= s.queue[i].time
  {
    s.now
  }

  /** An event put in its place in a sorted queue; it was numbered after
      every queued event, so it goes behind all events not later than it. */
  function Insert<H>(q: seq<Event<H>>, e: Event<H>): (r: seq<Event<H>>)
    requires Sorted(q)
    requires forall i :: 0 <= i < |q| ==> q[i].seqNo < e.seqNo
    ensures Sorted(r)
    ensures |r| == |q| + 1
    ensures multiset(r) == multiset(q) + multiset{e}
  {
    if q == [] || e.time < q[0].time then
      assert forall j :: 0 < j < |[e] + q| ==> ([e] + q)[j] == q[j - 1];
      [e] + q
    else
      var rest := Insert(q[1..], e);
      assert forall j :: 0 <= j < |rest| ==> Before(q[0], rest[j]) by {
        forall j | 0 <= j < |rest|
          ensures Before(q[0], rest[j])
        {
          assert rest[j] in multiset(rest);
          if rest[j] != e {
            assert rest[j] in multiset(q[1..]);
            var k :| 0 <= k < |q[1..]| && q[1..][k] == rest[j];
            assert Before(q[0], q[k + 1]);
          }
        }
      }
      assert q == [q[0]] + q[1..];
      [q[0]] + rest
  }

  /** `scheduleIn(handler, relativeTime)`: a negative delay is refused and
      nothing is queued; otherwise the handler is queued at the current time
      plus the delay. When that sum, rounded to a double, is
      `Double.MAX_VALUE`, the clock and every pending timestamp are first
      shifted back to start at zero. The queued timestamp itself is the exact
      sum. */
  function ScheduleIn<H>(s: Scheduler<H>, handler: H, delay: real): (r: Result<Scheduler<H>, ()>)
    requires Inv(s)
    ensures r.Err? <==> delay < 0.0
    ensures r.Ok? ==> Inv(r.value)
    ensures r.Ok? ==> |r.value.queue| == |s.queue| + 1 && r.value.nextSeq == s.nextSeq + 1
    ensures r.Ok? && !RealMath.RoundsToMax(s.now + delay) ==>
      && r.value.now == s.now
      && multiset(r.value.queue) == multiset(s.queue) + multiset{Event(s.now + delay, s.nextSeq, handler)}
    ensures r.Ok? && RealMath.RoundsToMax(s.now + delay) ==>
      && r.value.now == 0.0
      && multiset(r.value.queue) == multiset(ResetTime(s).queue) + multiset{Event(delay, s.nextSeq, handler)}
    ensures r.Ok? ==> Handlers(r.value.queue) == Handlers(s.queue) + multiset{handler}
  {
    if delay < 0.0 then Err(())
    else if RealMath.RoundsToMax(s.now + delay) then
      var base := ResetTime(s);
      var e := Event(delay, s.nextSeq, handler);
      InsertKeepsBounds(base.queue, e, 0.0);
      InsertAddsHandler(base.queue, e);
      RetimedHandlers(s.queue, base.queue);
      Ok(Scheduler(0.0, Insert(base.queue, e), s.nextSeq + 1))
    else
      var e := Event(s.now + delay, s.nextSeq, handler);
      InsertKeepsBounds(s.queue, e, s.now);
      InsertAddsHandler(s.queue, e);
      Ok(Scheduler(s.now, Insert(s.queue, e), s.nextSeq + 1))
  }

  /** An event numbered after every queued one and not before the clock
      keeps every queued event, once it is put in its place, after the clock
      and numbered below the next number. */
  lemma InsertKeepsBounds<H>(q: seq<Event<H>>, e: Event<H>, now: real)
    requires Sorted(q)
    requires forall i :: 0 <= i < |q| ==> now <= q[i].time && q[i].seqNo < e.seqNo
    requires now <= e.time
    ensures forall i :: 0 <= i < |Insert(q, e)| ==> now <= Insert(q, e)[i].time && Insert(q, e)[i].seqNo < e.seqNo + 1
  {
    var r := Insert(q, e);
    forall i | 0 <= i < |r|
      ensures now <= r[i].time && r[i].seqNo < e.seqNo + 1
    {
      assert r[i] in multiset(r);
      if r[i] != e {
        assert r[i] in multiset(q);
        var k :| 0 <= k < |q| && q[k] == r[i];
      }
    }
  }

  /** `resetTime`: every pending timestamp moved back by the current time,
      and the clock set to zero; order, gaps and handlers are kept. */
  function ResetTime<H>(s: Scheduler<H>): (r: Scheduler<H>)
    requires Inv(s)
    ensures Inv(r)
    ensures r.now == 0.0 && r.nextSeq == s.nextSeq && |r.queue| == |s.queue|
    ensures forall i :: 0 <= i < |s.queue| ==>
      r.queue[i] == s.queue[i].(time := s.queue[i].time - s.now)
  {
    Scheduler(0.0, seq(|s.queue|, i requires 0 <= i < |s.queue| => s.queue[i].(time := s.queue[i].time - s.now)), s.nextSeq)
  }

  /** `clear`: nothing pending and the clock back at zero. */
  function Clear<H>(s: Scheduler<H>): (r: Scheduler<H>)
    ensures Inv(r) && r.queue == [] && r.now == 0.0
  {
    Scheduler(0.0, [], s.nextSeq)
  }

  /** `processNext`: with nothing pending, false and nothing changes;
      otherwise the first event in running order leaves the queue, the clock
      moves forward to its timestamp, and its handler is returned to be run. */
  function ProcessNext<H>(s: Scheduler<H>): (r: (Scheduler<H>, Option<H>))
    requires Inv(s)
    ensures s.queue == [] <==> r.1.None?
    ensures s.queue == [] ==> r.0 == s
    ensures Inv(r.0) && s.now <= r.0.now
    ensures s.queue != [] ==>
      && |r.0.queue| == |s.queue| - 1
      && r.0.now in (set i | 0 <= i < |s.queue| :: s.queue[i].time)
      && (forall i :: 0 <= i < |s.queue| ==> r.0.now <= s.queue[i].time)
      && exists e :: e in s.queue && e.time == r.0.now && Some(e.handler) == r.1
           && (forall i :: 0 <= i < |s.queue| && s.queue[i] != e ==> Before(e, s.queue[i]))
           && multiset(r.0.queue) == multiset(s.queue) - multiset{e}
  {
    if s.queue == [] then (s, None)
    else
      var e := s.queue[0];
      var rest := s.queue[1..];
      HeadRunsFirst(s.queue);
      assert e.time in (set i | 0 <= i < |s.queue| :: s.queue[i].time);
      assert e in s.queue && forall i :: 0 <= i < |s.queue| && s.queue[i] != e ==> Before(e, s.queue[i]);
      assert Inv(Scheduler(e.time, rest, s.nextSeq));
      (Scheduler(e.time, rest, s.nextSeq), Some(e.handler))
  }

  /** The head of a queue in running order runs before every other event,
      and taking it off leaves the rest of the queue in running order. */
  lemma HeadRunsFirst<H>(q: seq<Event<H>>)
    requires Sorted(q) && q != []
    ensures Sorted(q[1..])
    ensures forall i :: 0 < i < |q| ==> q[i] != q[0] && Before(q[0], q[i])
    ensures forall i :: 0 <= i < |q| ==> q[0].time <= q[i].time
    ensures forall i :: 0 <= i < |q[1..]| ==> q[0].time <= q[1..][i].time
    ensures multiset(q[1..]) == multiset(q) - multiset{q[0]}
  {
    assert q == [q[0]] + q[1..];
  }

  /** `peekNextTimestamp`: the earliest pending timestamp, or none. */
  function PeekNextTimestamp<H>(s: Scheduler<H>): (r: Option<real>)
    requires Inv(s)
    ensures r.None? <==> s.queue == []
    ensures r.Some? ==> s.now <= r.value
    ensures r.Some? ==> forall i :: 0 <= i < |s.queue| ==> r.value <= s.queue[i].time
    ensures r.Some? ==> exists i :: 0 <= i < |s.queue| && s.queue[i].time == r.value
  {
    if s.queue == [] then None
    else
      assert forall i :: 0 < i < |s.queue| ==> Before(s.queue[0], s.queue[i]);
      Some(s.queue[0].time)
  }

  /** Peeking names the time the next processed event runs at. */
  lemma PeekAgreesWithProcessNext<H>(s: Scheduler<H>)
    requires Inv(s) && s.queue != []
    ensures PeekNextTimestamp(s) == Some(ProcessNext(s).0.now)
  {
    var t := PeekNextTimestamp(s).value;
    var i :| 0 <= i < |s.queue| && s.queue[i].time == t;
    var j :| 0 <= j < |s.queue| && s.queue[j].time == ProcessNext(s).0.now;
    assert ProcessNext(s).0.now <= t <= ProcessNext(s).0.now;
  }

  /** In a queue in running order, an event that runs before another sits
      in front of it. */
  lemma SortedPositions<H>(q: seq<Event<H>>, x: Event<H>, y: Event<H>)
    requires Sorted(q) && x in q && y in q && Before(x, y)
    ensures exists i, j :: 0 <= i < j < |q| && q[i] == x && q[j] == y
  {
    var i :| 0 <= i < |q| && q[i] == x;
    var j :| 0 <= j < |q| && q[j] == y;
    if j <= i {
      assert false;
    }
  }

  /** One successful `scheduleIn` without the time shift, in terms of the
      event it adds. */
  lemma ScheduledEvent<H>(s: Scheduler<H>, s1: Scheduler<H>, h: H, delay: real)
    requires Inv(s) && !RealMath.RoundsToMax(s.now + delay)
    requires ScheduleIn(s, h, delay) == Ok(s1)
    ensures Inv(s1) && s1.now == s.now && s1.nextSeq == s.nextSeq + 1
    ensures multiset(s1.queue) == multiset(s.queue) + multiset{Event(s.now + delay, s.nextSeq, h)}
  {
  }

  /** Two handlers scheduled one after the other for the same moment run in
      the order they were scheduled: the first one sits in front of the
      second in the queue. */
  lemma FifoOnEqualTimestamps<H>(s: Scheduler<H>, s1: Scheduler<H>, s2: Scheduler<H>, a: H, b: H, delay: real)
    requires Inv(s)
    requires !RealMath.RoundsToMax(s.now + delay)
    requires ScheduleIn(s, a, delay) == Ok(s1)
    requires ScheduleIn(s1, b, delay) == Ok(s2)
    ensures exists i, j :: (0 <= i < j < |s2.queue|
      && s2.queue[i] == Event(s.now + delay, s.nextSeq, a)
      && s2.queue[j] == Event(s.now + delay, s.nextSeq + 1, b))
  {
    var ea := Event(s.now + delay, s.nextSeq, a);
    var eb := Event(s.now + delay, s.nextSeq + 1, b);
    ScheduledEvent(s, s1, a, delay);
    assert s1.now == s.now && s1.nextSeq == s.nextSeq + 1;
    assert ea in multiset(s1.queue);
    assert eb == Event(s1.now + delay, s1.nextSeq, b);
    ScheduledEvent(s1, s2, b, delay);
    assert ea in multiset(s2.queue) && eb in multiset(s2.queue);
    SortedPositions(s2.queue, ea, eb);
  }

  /** A start just below `Double.MAX_VALUE`: a delay whose rounded sum hits
      it resets the clock, and the handler scheduled next, from the new
      clock, is queued after the first one. */
  lemma OverflowResetsClock<H>(a: H, b: H)
    ensures var s0 := NewScheduler<H>(RealMath.MaxValue - 5.0);
      && ScheduleIn(s0, a, 3.0).Ok?
      && var s1 := ScheduleIn(s0, a, 3.0).value;
      && s1.now == 0.0
      && ScheduleIn(s1, b, 10.0).Ok?
      && ScheduleIn(s1, b, 10.0).value.now == 0.0
      && ScheduleIn(s1, b, 10.0).value.queue == [Event(3.0, 0, a), Event(10.0, 1, b)]
  {
    var s0 := NewScheduler<H>(RealMath.MaxValue - 5.0);
    assert RealMath.RoundsToMax(s0.now + 3.0);
    var s1 := ScheduleIn(s0, a, 3.0).value;
    assert s1.queue == [Event(3.0, 0, a)];
    assert !RealMath.RoundsToMax(s1.now + 10.0);
    var s2 := ScheduleIn(s1, b, 10.0).value;
    assert multiset(s2.queue) == multiset{Event(3.0, 0, a), Event(10.0, 1, b)};
    assert s2.queue[0] in multiset(s2.queue) && s2.queue[1] in multiset(s2.queue);
  }

  /** Draining a queue by `processNext` runs the events in running order:
      each processed event is at least as late as the one before, and equal
      timestamps run by schedule order. */
  lemma ProcessNextTwice<H>(s: Scheduler<H>)
    requires Inv(s) && |s.queue| >= 2
    ensures var (s1, _) := ProcessNext(s);
      var (s2, _) := ProcessNext(s1);
      Before(s.queue[0], s.queue[1]) && s1.now == s.queue[0].time && s2.now == s.queue[1].time && s1.now <= s2.now
  {
    assert s.queue[1..][0] == s.queue[1];
  }

  /** The handlers waiting in a queue, however they are timed. */
  function Handlers<H>(q: seq<Event<H>>): multiset<H> {
    if q == [] then multiset{} else multiset{q[0].handler} + Handlers(q[1..])
  }

  /** Putting an event in its place adds its handler to the waiting ones. */
  lemma {:induction false} InsertAddsHandler<H>(q: seq<Event<H>>, e: Event<H>)
    requires Sorted(q)
    requires forall i :: 0 <= i < |q| ==> q[i].seqNo < e.seqNo
    ensures Handlers(Insert(q, e)) == Handlers(q) + multiset{e.handler}
  {
    if q == [] || e.time < q[0].time {
      assert ([e] + q)[1..] == q;
    } else {
      InsertAddsHandler(q[1..], e);
      var rest := Insert(q[1..], e);
      assert ([q[0]] + rest)[1..] == rest;
    }
  }

  /** Retiming events keeps their handlers. */
  lemma {:induction false} RetimedHandlers<H>(q: seq<Event<H>>, r: seq<Event<H>>)
    requires |q| == |r|
    requires forall i :: 0 <= i < |q| ==> r[i].handler == q[i].handler
    ensures Handlers(r) == Handlers(q)
  {
    if q != [] {
      RetimedHandlers(q[1..], r[1..]);
    }
  }

  /** `processNext` hands out one of the waiting handlers and keeps the rest. */
  lemma ProcessNextTakesHandler<H>(s: Scheduler<H>)
    requires Inv(s) && s.queue != []
    ensures ProcessNext(s).1.value in Handlers(s.queue)
    ensures Handlers(ProcessNext(s).0.queue) + multiset{ProcessNext(s).1.value} == Handlers(s.queue)
  {
  }
}

=== FILE: simulator.dfy ===
/** The simulator (`StreamSimulator`): its life cycle (play, pause, reset and
    the end of the event queue), what a run sets up when it starts (the
    count of walkable cells and the first spawn of every source), and the
    statistics it derives from the state on every debounced change of the
    clock. Which handler an event runs, and the strategies' own `init`, are
    modelled by the spawn and move operations themselves. */
module Simulation {
  import opened Wrappers
  import opened Locations
  import opened ObjectTypes
  import opened SimObjects
  import opened Persons
  import opened States
  import Scheduling
  import Neighbourhoods
  import Generators
  import opened Actions
  import Spawning

  /** The life-cycle events the simulator reports to its listeners. */
  datatype LifeCycleEvent = Started | Continued | Paused | WasReset | Ended | TimeChanged

  /** The statistics settings: the debounce delay between two updates, how
      many cells fit in a meter, and the window of the mean speed (negative
      for the whole history). */
  datatype Settings = Settings(debounceDelay: real, cellsPerMeter: real, meanSpeedWindowSize: int)

  /** A delay of 10 time units, cells of 40 cm, a window of 5 moves. */
  const DefaultSettings: Settings := Settings(10.0, 2.5, 5)

  /** What the simulator keeps between calls. `current` is the grid the
      run changes; `start` is the world the simulator was made from. The
      code's copy of the start state shares its cells and index with the
      running one (`State.clone` copies no cells), so as written nothing
      ever reads `start`; only the intended reset goes back to it.
      `lastStatisticsUpdate` is -1 until the first update; `triggerCount` is
      the light barriers' shared counter of people stepping onto them. */
  datatype Simulator = Simulator(
    start: State,
    current: State,
    scheduler: Scheduling.Scheduler<Handler>,
    started: bool,
    running: bool,
    lastStatisticsUpdate: real,
    triggerCount: nat,
    walkableCellCount: nat)

  /** No location twice. */
  predicate Distinct<T(==)>(ks: seq<T>) {
    forall i, j :: 0 <= i < j < |ks| ==> ks[i] != ks[j]
  }

  /** `ks` lists the members once each, in some order. */
  predicate Lists(ks: seq<Location>, members: set<Location>) {
    Distinct(ks) && (forall k | k in ks :: k in members) && (forall k | k in members :: k in ks)
  }

  /** A list without repetitions is as long as the set of its elements. */
  lemma {:induction false} DistinctSize(ks: seq<Location>)
    requires Distinct(ks)
    ensures |set k | k in ks| == |ks|
  {
    if ks != [] {
      DistinctSize(ks[1..]);
      assert (set k | k in ks) == {ks[0]} + (set k | k in ks[1..]);
      assert ks[0] !in ks[1..];
    }
  }

  // ---------------------------------------------------------------------
  // Starting a run

  /** A cell the density counts as walkable: one without an occupant or
      whose occupant can be stepped on. */
  predicate OpenCell(c: Cell) {
    c.Empty? || c.Walkable?
  }

  /** The walkable cells among `ks`, counted one by one as the start of a
      run does. */
  function CountOpen(s: State, ks: seq<Location>): (n: nat)
    requires forall i :: 0 <= i < |ks| ==> ks[i] in s.cells
    ensures n <= |ks|
  {
    if ks == [] then 0 else (if OpenCell(s.cells[ks[0]]) then 1 else 0) + CountOpen(s, ks[1..])
  }

  /** Counting visits every walkable cell of the list once: the count is the
      number of distinct walkable cells listed. */
  lemma {:induction false} CountOpenIsSetSize(s: State, ks: seq<Location>)
    requires forall i :: 0 <= i < |ks| ==> ks[i] in s.cells
    requires Distinct(ks)
    ensures CountOpen(s, ks) == |set l | l in ks && l in s.cells && OpenCell(s.cells[l])|
  {
    if ks != [] {
      CountOpenIsSetSize(s, ks[1..]);
      var rest := set l | l in ks[1..] && l in s.cells && OpenCell(s.cells[l]);
      assert ks[0] !in rest;
      if OpenCell(s.cells[ks[0]]) {
        assert (set l | l in ks && l in s.cells && OpenCell(s.cells[l])) == {ks[0]} + rest;
      } else {
        assert (set l | l in ks && l in s.cells && OpenCell(s.cells[l])) == rest;
      }
    }
  }

  /** The cells of the grid in row-major order, as the start of a run visits
      them. */
  function Cells(s: State): (ks: seq<Location>)
    requires WellFormed(s)
    ensures Lists(ks, s.cells.Keys)
    ensures forall i :: 0 <= i < |ks| ==> ks[i] in s.cells
  {
    var ks := Neighbourhoods.GridCells(s.rows, Columns(s));
    assert Distinct(ks) by {
      forall i, j | 0 <= i < j < |ks|
        ensures ks[i] != ks[j]
      {
        assert Neighbourhoods.RowMajorBefore(ks[i], ks[j]);
      }
    }
    ks
  }

  /** The walkable cell count a run starts with (`walkableCellCount`). */
  function WalkableCells(s: State): (n: nat)
    requires WellFormed(s)
  {
    CountOpen(s, Cells(s))
  }

  /** The count is the number of cells without an occupant or with a light
      barrier, so it never falls below the number of light barriers. */
  lemma WalkableCellsCountsOpenCells(s: State)
    requires Inv(s)
    ensures WalkableCells(s) == |set l | l in s.cells && OpenCell(s.cells[l])|
    ensures ObjectTypeCount(s, LightBarrierType) <= WalkableCells(s)
  {
    var ks := Cells(s);
    CountOpenIsSetSize(s, ks);
    var open := set l | l in s.cells && OpenCell(s.cells[l]);
    assert (set l | l in ks && l in s.cells && OpenCell(s.cells[l])) == open;
    assert Locs(s, LightBarrierType) <= open by {
      forall l | l in Locs(s, LightBarrierType)
        ensures l in open
      {
        assert Holds(s.cells[l], LightBarrierType);
      }
    }
    SubsetSize(Locs(s, LightBarrierType), open);
  }

  /** The delay to a source's first spawn: its spawn strategy's next spawn
      time, with `poisson` the sample the source's Poisson distribution
      yields first. */
  function FirstDelay(s: State, at: Location, poisson: Location -> nat): real
    requires Spawning.IsSourceAt(s, at)
  {
    Generators.NextSpawnTime(s.cells[at].occupant.sourceConfig.spawnStrategy, poisson(at))
  }

  /** A source whose first spawn would be scheduled in the past. */
  predicate LateSource(s: State, at: Location, poisson: Location -> nat) {
    Spawning.IsSourceAt(s, at) && FirstDelay(s, at, poisson) < 0.0
  }

  /** The position in `ks` of the first source whose first spawn would be
      in the past, or `|ks|` when there is none. */
  function FirstLate(s: State, ks: seq<Location>, poisson: Location -> nat): (k: nat)
    ensures k <= |ks|
    ensures forall i :: 0 <= i < k ==> !LateSource(s, ks[i], poisson)
    ensures k < |ks| ==> LateSource(s, ks[k], poisson)
    decreases |ks|
  {
    if ks == [] || LateSource(s, ks[0], poisson) then 0 else 1 + FirstLate(s, ks[1..], poisson)
  }

  /** Scheduling the first spawn of every source among `ks`, in order: the
      first negative delay stops it with an error, which carries the
      scheduler with the spawns queued before it, as Java's exception leaves
      them queued. */
  function ScheduleSpawns(s: State, sched: Scheduling.Scheduler<Handler>, ks: seq<Location>, poisson: Location -> nat)
    : (r: Result<Scheduling.Scheduler<Handler>, Scheduling.Scheduler<Handler>>)
    requires Scheduling.Inv(sched)
    ensures r.Err? <==> exists i :: 0 <= i < |ks| && LateSource(s, ks[i], poisson)
    ensures r.Err? <==> FirstLate(s, ks, poisson) < |ks|
    ensures r.Ok? ==> Scheduling.Inv(r.value)
    ensures r.Err? ==> Scheduling.Inv(r.error)
    decreases |ks|
  {
    if ks == [] then Ok(sched)
    else
      assert forall i :: 0 < i < |ks| ==> ks[i] == ks[1..][i - 1];
      if !Spawning.IsSourceAt(s, ks[0]) then ScheduleSpawns(s, sched, ks[1..], poisson)
      else
        match Scheduling.ScheduleIn(sched, SpawnFrom(ks[0]), FirstDelay(s, ks[0], poisson))
        case Err(_) => Err(sched)
        case Ok(sched1) => ScheduleSpawns(s, sched1, ks[1..], poisson)
  }

  /** When scheduling succeeds, one spawn per listed source joins the
      waiting events and nothing else does. */
  lemma {:induction false} ScheduleSpawnsAddsOnePerSource(s: State, sched: Scheduling.Scheduler<Handler>, ks: seq<Location>,
                                                          poisson: Location -> nat)
    requires Scheduling.Inv(sched) && Distinct(ks)
    requires ScheduleSpawns(s, sched, ks, poisson).Ok?
    ensures forall h ::
              Scheduling.Handlers(ScheduleSpawns(s, sched, ks, poisson).value.queue)[h] ==
              Scheduling.Handlers(sched.queue)[h] + (if h.SpawnFrom? && h.source in ks && Spawning.IsSourceAt(s, h.source) then 1 else 0)
    decreases |ks|
  {
    if ks != [] {
      var rest := ks[1..];
      assert Distinct(rest) by {
        forall i, j | 0 <= i < j < |rest|
          ensures rest[i] != rest[j]
        {
          assert rest[i] == ks[i + 1] && rest[j] == ks[j + 1];
        }
      }
      assert ks[0] !in rest by {
        forall i | 0 <= i < |rest|
          ensures rest[i] != ks[0]
        {
          assert rest[i] == ks[i + 1];
        }
      }
      assert forall l :: l in ks <==> l == ks[0] || l in rest;
      var r := ScheduleSpawns(s, sched, ks, poisson).value;
      if !Spawning.IsSourceAt(s, ks[0]) {
        ScheduleSpawnsAddsOnePerSource(s, sched, rest, poisson);
      } else {
        var sched1 := Scheduling.ScheduleIn(sched, SpawnFrom(ks[0]), FirstDelay(s, ks[0], poisson)).value;
        ScheduleSpawnsAddsOnePerSource(s, sched1, rest, poisson);
      }
    }
  }

  /** When scheduling fails, exactly the first spawns of the sources listed
      before the first late one have joined the waiting events. */
  lemma {:induction false} ScheduleSpawnsStopsAtFirstLate(s: State, sched: Scheduling.Scheduler<Handler>, ks: seq<Location>,
                                                          poisson: Location -> nat)
    requires Scheduling.Inv(sched) && Distinct(ks)
    requires ScheduleSpawns(s, sched, ks, poisson).Err?
    ensures var before := ks[..FirstLate(s, ks, poisson)];
      forall h ::
        Scheduling.Handlers(ScheduleSpawns(s, sched, ks, poisson).error.queue)[h] ==
        Scheduling.Handlers(sched.queue)[h] + (if h.SpawnFrom? && h.source in before && Spawning.IsSourceAt(s, h.source) then 1 else 0)
    decreases |ks|
  {
    var rest := ks[1..];
    assert Distinct(rest) by {
      forall i, j | 0 <= i < j < |rest|
        ensures rest[i] != rest[j]
      {
        assert rest[i] == ks[i + 1] && rest[j] == ks[j + 1];
      }
    }
    assert ks[0] !in rest by {
      forall i | 0 <= i < |rest|
        ensures rest[i] != ks[0]
      {
        assert rest[i] == ks[i + 1];
      }
    }
    var k := FirstLate(s, ks, poisson);
    if LateSource(s, ks[0], poisson) {
      assert k == 0 && ks[..k] == [];
    } else {
      var k' := FirstLate(s, rest, poisson);
      assert k == 1 + k';
      assert forall l :: l in ks[..k] <==> l == ks[0] || l in rest[..k'] by {
        assert ks[..k] == [ks[0]] + rest[..k'];
      }
      assert forall l :: l in rest[..k'] ==> l in rest;
      if !Spawning.IsSourceAt(s, ks[0]) {
        ScheduleSpawnsStopsAtFirstLate(s, sched, rest, poisson);
      } else {
        var sched1 := Scheduling.ScheduleIn(sched, SpawnFrom(ks[0]), FirstDelay(s, ks[0], poisson)).value;
        ScheduleSpawnsStopsAtFirstLate(s, sched1, rest, poisson);
      }
    }
  }

  /** What the start of a run sets up (`initializeSimulationStart`): the
      first spawn of every source, visited in row-major order, and the count
      of walkable cells. A first spawn in the past fails the start; the
      error carries the scheduler with the spawns of the sources visited
      before it, and no count is made. */
  function Initialise(s: State, sched: Scheduling.Scheduler<Handler>, poisson: Location -> nat)
    : (r: Result<(Scheduling.Scheduler<Handler>, nat), Scheduling.Scheduler<Handler>>)
    requires WellFormed(s) && Scheduling.Inv(sched)
    ensures r.Err? <==> exists l :: LateSource(s, l, poisson)
    ensures r.Err? ==> Scheduling.Inv(r.error)
    ensures r.Err? ==> var before := Cells(s)[..FirstLate(s, Cells(s), poisson)];
      forall h ::
        Scheduling.Handlers(r.error.queue)[h] ==
        Scheduling.Handlers(sched.queue)[h] + (if h.SpawnFrom? && h.source in before && Spawning.IsSourceAt(s, h.source) then 1 else 0)
    ensures r.Ok? ==> Scheduling.Inv(r.value.0)
    ensures r.Ok? ==> r.value.1 == |set l | l in s.cells && OpenCell(s.cells[l])|
    ensures r.Ok? ==> forall h ::
              Scheduling.Handlers(r.value.0.queue)[h] ==
              Scheduling.Handlers(sched.queue)[h] + (if h.SpawnFrom? && Spawning.IsSourceAt(s, h.source) then 1 else 0)
  {
    var ks := Cells(s);
    assert forall l :: LateSource(s, l, poisson) ==> l in ks;
    CountOpenIsSetSize(s, ks);
    assert (set l | l in ks && l in s.cells && OpenCell(s.cells[l])) == (set l | l in s.cells && OpenCell(s.cells[l]));
    match ScheduleSpawns(s, sched, ks, poisson)
    case Err(partial) =>
      ScheduleSpawnsStopsAtFirstLate(s, sched, ks, poisson);
      Err(partial)
    case Ok(next) =>
      ScheduleSpawnsAddsOnePerSource(s, sched, ks, poisson);
      assert forall l :: Spawning.IsSourceAt(s, l) ==> l in ks;
      Ok((next, CountOpen(s, ks)))
  }

  /** `play`: the simulator runs. The first time (or the first time after a
      reset) it reports the start and sets the run up, which fails if a
      source's first spawn would be in the past; afterwards it reports a
      continuation. A failed start leaves the simulator as Java's exception
      does: running, started, the start reported and the spawns queued so
      far pending. */
  function Play(sim: Simulator, poisson: Location -> nat)
    : (r: Result<(Simulator, seq<LifeCycleEvent>), (Simulator, seq<LifeCycleEvent>)>)
    requires WellFormed(sim.current) && Scheduling.Inv(sim.scheduler)
    ensures r.Ok? ==> r.value.0.running && r.value.0.started && Scheduling.Inv(r.value.0.scheduler)
    ensures r.Ok? ==> r.value.0.current == sim.current
    ensures sim.started ==> r.Ok? && r.value.1 == [Continued] && r.value.0.scheduler == sim.scheduler
    ensures !sim.started ==> (r.Err? <==> exists l :: LateSource(sim.current, l, poisson))
    ensures !sim.started && r.Ok? ==>
      && r.value.1 == [Started]
      && r.value.0.walkableCellCount == |set l | l in sim.current.cells && OpenCell(sim.current.cells[l])|
      && forall h ::
           Scheduling.Handlers(r.value.0.scheduler.queue)[h] ==
           Scheduling.Handlers(sim.scheduler.queue)[h] + (if h.SpawnFrom? && Spawning.IsSourceAt(sim.current, h.source) then 1 else 0)
    ensures r.Err? ==>
      && r.error.1 == [Started]
      && r.error.0 == sim.(running := true, started := true, scheduler := r.error.0.scheduler)
      && Scheduling.Inv(r.error.0.scheduler)
      && var ks := Cells(sim.current);
         forall h ::
           Scheduling.Handlers(r.error.0.scheduler.queue)[h] ==
           Scheduling.Handlers(sim.scheduler.queue)[h]
           + (if h.SpawnFrom? && h.source in ks[..FirstLate(sim.current, ks, poisson)] && Spawning.IsSourceAt(sim.current, h.source) then 1 else 0)
  {
    if sim.started then Ok((sim.(running := true), [Continued]))
    else
      match Initialise(sim.current, sim.scheduler, poisson)
      case Err(partial) => Err((sim.(running := true, started := true, scheduler := partial), [Started]))
      case Ok((sched, walkable)) =>
        Ok((sim.(running := true, started := true, scheduler := sched, walkableCellCount := walkable), [Started]))
  }

  /** `pause`: a simulator that is not running is left alone and reports
      nothing; a running one stops and reports the pause. */
  function Pause(sim: Simulator): (r: (Simulator, seq<LifeCycleEvent>))
    ensures !r.0.running
    ensures sim.running <==> r.1 == [Paused]
    ensures !sim.running <==> r.1 == []
    ensures r.0 == sim.(running := false)
  {
    if !sim.running then (sim, []) else (sim.(running := false), [Paused])
  }

  /** Pausing twice is pausing once, and the second pause reports nothing. */
  lemma PauseIsIdempotent(sim: Simulator)
    ensures Pause(Pause(sim).0) == (Pause(sim).0, [])
  {
  }

  /** `reset` as written: pauses a running simulator, empties the scheduler
      and winds its clock back to zero and marks the run as not started. The
      grid it takes from the start state shares its cells with the current
      one, so it stays as it is; the time of the last statistics update stays
      what it was too. */
  function ResetAsWritten(sim: Simulator): (r: (Simulator, seq<LifeCycleEvent>))
    ensures !r.0.running && !r.0.started
    ensures r.0.current == sim.current
    ensures Scheduling.Inv(r.0.scheduler) && r.0.scheduler.queue == [] && r.0.scheduler.now == 0.0
    ensures r.0.lastStatisticsUpdate == sim.lastStatisticsUpdate
    ensures r.1 == (if sim.running then [Paused, WasReset] else [WasReset])
  {
    var (paused, events) := Pause(sim);
    (paused.(scheduler := Scheduling.Clear(paused.scheduler), started := false),
     events + [WasReset])
  }

  /** `reset` as evidently intended: as written, except that the world goes
      back to the start state and the statistics start over, as they do for
      a new simulator. */
  function Reset(sim: Simulator): (r: (Simulator, seq<LifeCycleEvent>))
    ensures !r.0.running && !r.0.started
    ensures r.0.current == sim.start && r.0.start == sim.start
    ensures Scheduling.Inv(r.0.scheduler) && r.0.scheduler.queue == [] && r.0.scheduler.now == 0.0
    ensures r.0.lastStatisticsUpdate == -1.0
    ensures r.0.triggerCount == sim.triggerCount
    ensures r.1 == (if sim.running then [Paused, WasReset] else [WasReset])
  {
    var (s, events) := ResetAsWritten(sim);
    (s.(current := sim.start, lastStatisticsUpdate := -1.0), events)
  }

  /** The code as written does not restore the world: after a run has changed
      the grid, a reset leaves the changed grid in place, where the intended
      reset brings back the start state. */
  lemma ResetKeepsRunGrid(sim: Simulator)
    requires sim.current != sim.start
    ensures ResetAsWritten(sim).0.current == sim.current != sim.start
    ensures Reset(sim).0.current == sim.start
  {
  }

  /** The constructor: the start state, a scheduler at time zero, and a
      reset, so that nothing has run and no statistics have been taken. */
  function Create(state: State): (sim: Simulator)
    ensures sim.current == state && sim.start == state
    ensures !sim.started && !sim.running && sim.lastStatisticsUpdate == -1.0 && sim.triggerCount == 0
    ensures Scheduling.Inv(sim.scheduler) && sim.scheduler.queue == [] && sim.scheduler.now == 0.0
  {
    Reset(Simulator(state, state, Scheduling.NewScheduler(0.0), false, false, -1.0, 0, 0)).0
  }

  /** Playing a simulator that was reset starts a new run: it reports the
      start, and what waits in the scheduler is exactly one spawn for each
      source of the grid. */
  lemma PlayAfterResetStartsOver(sim: Simulator, poisson: Location -> nat)
    requires WellFormed(sim.start)
    requires forall l :: !LateSource(sim.start, l, poisson)
    ensures var r := Play(Reset(sim).0, poisson);
      && r.Ok? && r.value.1 == [Started] && r.value.0.current == sim.start
      && forall h :: Scheduling.Handlers(r.value.0.scheduler.queue)[h] ==
           (if h.SpawnFrom? && Spawning.IsSourceAt(sim.start, h.source) then 1 else 0)
  {
    var s := Reset(sim).0;
    assert Scheduling.Handlers(s.scheduler.queue) == multiset{};
  }

  /** A start that fails still leaves the simulator started and running, so
      playing it again continues the run with the spawns that were queued. */
  lemma FailedStartContinues(sim: Simulator, poisson: Location -> nat)
    requires WellFormed(sim.current) && Scheduling.Inv(sim.scheduler) && !sim.started
    requires exists l :: LateSource(sim.current, l, poisson)
    ensures Play(sim, poisson).Err?
    ensures var half := Play(sim, poisson).error.0;
      && half.started && half.running
      && Play(half, poisson) == Ok((half, [Continued]))
  {
  }

  /** Play, pause and play again from a fresh simulator report the start,
      the pause and the continuation, in that order, and leave it running. */
  lemma PlayPausePlay(state: State, poisson: Location -> nat)
    requires WellFormed(state)
    requires forall l :: !LateSource(state, l, poisson)
    ensures var first := Play(Create(state), poisson);
      && first.Ok? && first.value.1 == [Started]
      && var paused := Pause(first.value.0);
         && paused.1 == [Paused]
         && var second := Play(paused.0, poisson);
            && second.Ok? && second.value.1 == [Continued] && second.value.0.running
            && second.value.0.scheduler == first.value.0.scheduler
  {
  }

  /** `scheduleNextEventProcessing`: a paused simulator does nothing. A
      running one with nothing pending stops and reports the end; otherwise
      the next event runs (the handler is returned to be run) and the time
      change is reported. */
  function Advance(sim: Simulator): (r: (Simulator, Option<Handler>, seq<LifeCycleEvent>))
    requires Scheduling.Inv(sim.scheduler)
    ensures Scheduling.Inv(r.0.scheduler)
    ensures !sim.running ==> r == (sim, None, [])
    ensures sim.running && sim.scheduler.queue == [] ==> r == (sim.(running := false), None, [Ended])
    ensures sim.running && sim.scheduler.queue != [] ==>
      && r.1.Some? && r.2 == [TimeChanged] && r.0.running
      && r.0 == sim.(scheduler := r.0.scheduler)
      && sim.scheduler.now <= r.0.scheduler.now
      && Scheduling.Handlers(r.0.scheduler.queue) + multiset{r.1.value} == Scheduling.Handlers(sim.scheduler.queue)
  {
    if !sim.running then (sim, None, [])
    else if sim.scheduler.queue == [] then (sim.(running := false), None, [Ended])
    else
      var (sched, h) := Scheduling.ProcessNext(sim.scheduler);
      Scheduling.ProcessNextTakesHandler(sim.scheduler);
      (sim.(scheduler := sched), h, [TimeChanged])
  }

  /** The run ends exactly when a running simulator has nothing left to do. */
  lemma EndsOnlyWhenDrained(sim: Simulator)
    requires Scheduling.Inv(sim.scheduler)
    ensures Advance(sim).2 == [Ended] <==> sim.running && sim.scheduler.queue == []
  {
  }

  /** A person stepping onto a light barrier counts one trigger
      (`LightBarrier.trigger`). */
  function CountTrigger(sim: Simulator, triggered: bool): (r: Simulator)
    ensures r.triggerCount == sim.triggerCount + (if triggered then 1 else 0)
    ensures r == sim.(triggerCount := r.triggerCount)
  {
    if triggered then sim.(triggerCount := sim.triggerCount + 1) else sim
  }

  // ---------------------------------------------------------------------
  // Statistics

  /** `calculateDensity`: people per square meter of walkable space. The
      division yields no finite number when there is no walkable cell; with
      zero cells per meter the space is infinite and the density zero. */
  function Density(walkable: nat, cellsPerMeter: real, people: nat): (r: Option<real>)
    ensures r.None? <==> walkable == 0
    ensures r.Some? && cellsPerMeter == 0.0 ==> r.value == 0.0
    ensures r.Some? ==> 0.0 <= r.value
    ensures r.Some? ==> r.value * walkable as real == people as real * (cellsPerMeter * cellsPerMeter)
  {
    if walkable == 0 then None
    else if cellsPerMeter == 0.0 then Some(0.0)
    else
      var space := walkable as real / (cellsPerMeter * cellsPerMeter);
      Some(people as real / space)
  }

  /** With the default 2.5 cells per meter, ten people on fifty walkable
      cells (eight square meters) make 1.25 people per square meter. */
  lemma DensityOfDefaultCells()
    ensures Density(50, DefaultSettings.cellsPerMeter, 10) == Some(1.25)
  {
  }

  /** More people on the same space is a higher density. */
  lemma DensityGrowsWithPeople(walkable: nat, cellsPerMeter: real, a: nat, b: nat)
    requires 0 < walkable && cellsPerMeter != 0.0 && a < b
    ensures Density(walkable, cellsPerMeter, a).value < Density(walkable, cellsPerMeter, b).value
  {
    var c2 := cellsPerMeter * cellsPerMeter;
    assert 0.0 < c2;
    var da, db := Density(walkable, cellsPerMeter, a).value, Density(walkable, cellsPerMeter, b).value;
    assert da * walkable as real < db * walkable as real;
  }

  /** The mean speed `getMeanSpeed` gives a person: over the whole history
      for a negative window size, over the window otherwise. */
  function PersonMean(p: Person, windowSize: int): real {
    if windowSize < 0 then MeanSpeedSpec(p, |p.speedHistory|) else MeanSpeedSpec(p, windowSize)
  }

  /** Each person's mean speed, in the order of the people. */
  function Means(people: seq<Person>, windowSize: int): (ms: seq<real>)
    ensures |ms| == |people|
    ensures forall i :: 0 <= i < |people| ==> ms[i] == PersonMean(people[i], windowSize)
  {
    seq(|people|, i requires 0 <= i < |people| => PersonMean(people[i], windowSize))
  }

  /** The people's mean speeds added up. */
  function SpeedTotal(people: seq<Person>, windowSize: int): real {
    Sum(Means(people, windowSize))
  }

  /** `calculateMeanSpeed`: zero without people; otherwise the average of
      their mean speeds in meters, which no finite number is when there are
      zero cells per meter. */
  function MeanSpeedOf(people: seq<Person>, windowSize: int, cellsPerMeter: real): (r: Option<real>)
    ensures people == [] ==> r == Some(0.0)
    ensures people != [] ==> (r.None? <==> cellsPerMeter == 0.0)
  {
    if people == [] then Some(0.0)
    else if cellsPerMeter == 0.0 then None
    else Some(SpeedTotal(people, windowSize) / |people| as real / cellsPerMeter)
  }

  /** The mean speed, taken as many times as there are people and converted
      back to cells, is the total of their mean speeds. */
  lemma MeanSpeedIsAverage(people: seq<Person>, windowSize: int, cellsPerMeter: real)
    requires people != [] && cellsPerMeter != 0.0
    ensures MeanSpeedOf(people, windowSize, cellsPerMeter).value * (|people| as real * cellsPerMeter)
         == SpeedTotal(people, windowSize)
  {
    var n := |people| as real;
    var avg := SpeedTotal(people, windowSize) / n;
    assert avg * n == SpeedTotal(people, windowSize);
    var r := MeanSpeedOf(people, windowSize, cellsPerMeter).value;
    assert r == avg / cellsPerMeter;
    assert r * cellsPerMeter == avg;
    assert r * (n * cellsPerMeter) == (r * cellsPerMeter) * n;
  }

  /** `calculateMeanSpeed`, adding up the people's mean speeds one by one. */
  method CalculateMeanSpeed(people: seq<Person>, windowSize: int, cellsPerMeter: real) returns (r: Option<real>)
    ensures people == [] ==> r == Some(0.0)
    ensures r == MeanSpeedOf(people, windowSize, cellsPerMeter)
  {
    if people == [] {
      return Some(0.0);
    }
    var ms := Means(people, windowSize);
    var sum := 0.0;
    var i := 0;
    while i < |people|
      invariant 0 <= i <= |people|
      invariant sum == Sum(ms[..i])
    {
      var m;
      if windowSize < 0 {
        m := FullMeanSpeed(people[i]);
      } else {
        m := MeanSpeed(people[i], windowSize);
      }
      assert m == ms[i];
      assert ms[..i + 1][..i] == ms[..i];
      sum := sum + m;
      i := i + 1;
    }
    assert ms[..|people|] == ms;
    assert sum == SpeedTotal(people, windowSize);
    if cellsPerMeter == 0.0 {
      return None;
    }
    r := Some(sum / |people| as real / cellsPerMeter);
  }

  /** Dividing by a positive number keeps the order. */
  lemma DivideKeepsOrder(a: real, b: real, d: real)
    requires a <= b && 0.0 < d
    ensures a / d <= b / d
  {
    assert a / d * d == a && b / d * d == b;
  }

  /** A factor divided out again. */
  lemma Cancel(d: real, x: real)
    requires d != 0.0
    ensures d * x / d == x
  {
  }

  /** When every person's mean speed lies in a band, so does the mean speed
      of everyone, converted to meters. */
  lemma MeanSpeedInBand(people: seq<Person>, windowSize: int, cellsPerMeter: real, lo: real, hi: real)
    requires people != [] && 0.0 < cellsPerMeter
    requires forall i :: 0 <= i < |people| ==> lo <= PersonMean(people[i], windowSize) <= hi
    ensures lo / cellsPerMeter <= MeanSpeedOf(people, windowSize, cellsPerMeter).value <= hi / cellsPerMeter
  {
    TotalInBand(people, windowSize, lo, hi);
    AverageInBand(SpeedTotal(people, windowSize), |people| as real, cellsPerMeter, lo, hi);
  }

  /** Means in a band add up to a total within the band scaled by the
      number of people. */
  lemma TotalInBand(people: seq<Person>, windowSize: int, lo: real, hi: real)
    requires forall i :: 0 <= i < |people| ==> lo <= PersonMean(people[i], windowSize) <= hi
    ensures |people| as real * lo <= SpeedTotal(people, windowSize) <= |people| as real * hi
  {
    var ms := Means(people, windowSize);
    assert forall i :: 0 <= i < |ms| ==> lo <= ms[i] <= hi;
    SumBounds(ms, lo, hi);
  }

  /** An average of values in a band, scaled down by a positive factor,
      lies in the scaled band. */
  lemma AverageInBand(total: real, n: real, c: real, lo: real, hi: real)
    requires 0.0 < n && 0.0 < c && n * lo <= total <= n * hi
    ensures lo / c <= total / n / c <= hi / c
  {
    DivideKeepsOrder(n * lo, total, n);
    DivideKeepsOrder(total, n * hi, n);
    Cancel(n, lo);
    Cancel(n, hi);
    DivideKeepsOrder(lo, total / n, c);
    DivideKeepsOrder(total / n, hi, c);
  }

  /** A person who walked no faster than `hi` and no slower than `lo`, and
      whose nominal speed lies in that band too, has a mean speed in it. */
  lemma PersonMeanInBand(p: Person, windowSize: int, lo: real, hi: real)
    requires forall i :: 0 <= i < |p.speedHistory| ==> lo <= p.speedHistory[i] <= hi
    requires lo <= p.speed <= hi
    ensures lo <= PersonMean(p, windowSize) <= hi
  {
    var w := if windowSize < 0 then |p.speedHistory| else windowSize;
    if 0 < Window(p, w) {
      MeanSpeedBounds(p, w, lo, hi);
    }
  }

  /** The width of the light barriers in meters, or 1 without any barrier
      (so that the flow is a plain count per time). */
  function BarrierWidth(barriers: nat, cellsPerMeter: real): (w: real)
    requires barriers == 0 || cellsPerMeter != 0.0
    ensures barriers == 0 ==> w == 1.0
    ensures barriers > 0 ==> w * cellsPerMeter == barriers as real
  {
    if barriers > 0 then barriers as real / cellsPerMeter else 1.0
  }

  /** The flow through the light barriers, in people per meter and time
      unit. Over an empty time span it is no finite number; with zero cells
      per meter the barriers are infinitely wide and the flow zero. */
  function Flow(triggers: nat, barriers: nat, cellsPerMeter: real, elapsed: real): (r: Option<real>)
    ensures r.None? <==> elapsed == 0.0
    ensures r.Some? && barriers > 0 && cellsPerMeter == 0.0 ==> r.value == 0.0
    ensures r.Some? && (barriers == 0 || cellsPerMeter != 0.0) ==>
      r.value * BarrierWidth(barriers, cellsPerMeter) * elapsed == triggers as real
  {
    if elapsed == 0.0 then None
    else if barriers > 0 && cellsPerMeter == 0.0 then Some(0.0)
    else
      var w := BarrierWidth(barriers, cellsPerMeter);
      assert w != 0.0;
      Some(triggers as real / w / elapsed)
  }

  /** The values an update reports (`notifyStatisticsChangeListeners`). */
  datatype Statistics = Statistics(peopleCount: nat, density: Option<real>, meanSpeed: Option<real>, flow: Option<real>)

  /** The people standing on the cells the index lists for them. */
  function PeopleAt(s: State, ks: seq<Location>): (people: seq<Person>)
    requires Inv(s)
    requires forall i :: 0 <= i < |ks| ==> ks[i] in Locs(s, PersonType)
    ensures |people| == |ks|
    ensures forall i :: 0 <= i < |ks| ==> Upper(s.cells[ks[i]]) == Some(PersonObject(people[i]))
  {
    assert forall i :: 0 <= i < |ks| ==> Holds(s.cells[ks[i]], PersonType);
    seq(|ks|, i requires 0 <= i < |ks| => Upper(s.cells[ks[i]]).value.person)
  }

  /** `updateStatistics(timeElapsed)`: the people of the current state, their
      density over the walkable cells, their mean speed, and the flow of the
      light barrier triggers counted since the last update. */
  function Measure(sim: Simulator, settings: Settings, peopleCells: seq<Location>, elapsed: real): (st: Statistics)
    requires Inv(sim.current) && Lists(peopleCells, Locs(sim.current, PersonType))
    ensures st.peopleCount == ObjectTypeCount(sim.current, PersonType) == |PeopleAt(sim.current, peopleCells)|
    ensures st.density == Density(sim.walkableCellCount, settings.cellsPerMeter, st.peopleCount)
    ensures st.meanSpeed == MeanSpeedOf(PeopleAt(sim.current, peopleCells), settings.meanSpeedWindowSize, settings.cellsPerMeter)
    ensures st.flow == Flow(sim.triggerCount, ObjectTypeCount(sim.current, LightBarrierType), settings.cellsPerMeter, elapsed)
  {
    var people := PeopleAt(sim.current, peopleCells);
    DistinctSize(peopleCells);
    assert (set l | l in peopleCells) == Locs(sim.current, PersonType);
    var count := ObjectTypeCount(sim.current, PersonType);
    Statistics(
      count,
      Density(sim.walkableCellCount, settings.cellsPerMeter, count),
      MeanSpeedOf(people, settings.meanSpeedWindowSize, settings.cellsPerMeter),
      Flow(sim.triggerCount, ObjectTypeCount(sim.current, LightBarrierType), settings.cellsPerMeter, elapsed))
  }

  /** Whether a change of the clock to `time` updates the statistics: the
      first time, or once the debounce delay has passed since the last. */
  predicate Due(sim: Simulator, settings: Settings, time: real) {
    sim.lastStatisticsUpdate == -1.0 || time - sim.lastStatisticsUpdate >= settings.debounceDelay
  }

  /** The time an update window starts at as evidently intended: the last
      update, or the start of the run at zero before the first one. */
  function WindowStart(last: real): (t: real)
    ensures last == -1.0 ==> t == 0.0
    ensures last != -1.0 ==> t == last
  {
    if last == -1.0 then 0.0 else last
  }

  /** The time-change listener as written: a due update measures over the
      time since the last update, taking the -1 that marks "no update yet"
      as that time; the update becomes the last one and the trigger counter
      starts over. */
  function TimeChangeAsWritten(sim: Simulator, settings: Settings, peopleCells: seq<Location>, time: real)
    : (r: (Option<Statistics>, Simulator))
    requires Inv(sim.current) && Lists(peopleCells, Locs(sim.current, PersonType))
    ensures r.0.Some? <==> Due(sim, settings, time)
    ensures r.0.Some? ==> r.0.value == Measure(sim, settings, peopleCells, time - sim.lastStatisticsUpdate)
    ensures r.0.Some? ==> r.1 == sim.(lastStatisticsUpdate := time, triggerCount := 0)
    ensures r.0.None? ==> r.1 == sim
  {
    if Due(sim, settings, time) then
      (Some(Measure(sim, settings, peopleCells, time - sim.lastStatisticsUpdate)),
       sim.(lastStatisticsUpdate := time, triggerCount := 0))
    else (None, sim)
  }

  /** The time-change listener as evidently intended: the first window starts
      at zero rather than at -1. */
  function TimeChange(sim: Simulator, settings: Settings, peopleCells: seq<Location>, time: real)
    : (r: (Option<Statistics>, Simulator))
    requires Inv(sim.current) && Lists(peopleCells, Locs(sim.current, PersonType))
    ensures r.0.Some? <==> Due(sim, settings, time)
    ensures r.0.Some? ==> r.0.value == Measure(sim, settings, peopleCells, time - WindowStart(sim.lastStatisticsUpdate))
    ensures r.0.Some? ==> r.1 == sim.(lastStatisticsUpdate := time, triggerCount := 0)
    ensures r.0.None? ==> r.1 == sim
  {
    if Due(sim, settings, time) then
      (Some(Measure(sim, settings, peopleCells, time - WindowStart(sim.lastStatisticsUpdate))),
       sim.(lastStatisticsUpdate := time, triggerCount := 0))
    else (None, sim)
  }

  /** Two updates in a row are at least the debounce delay apart, and the
      flow of the second counts only the triggers after the first. */
  lemma UpdatesAreDebounced(sim: Simulator, settings: Settings, peopleCells: seq<Location>,
                            t1: real, t2: real, triggers: nat)
    requires Inv(sim.current) && Lists(peopleCells, Locs(sim.current, PersonType))
    requires TimeChange(sim, settings, peopleCells, t1).0.Some?
    ensures var next := TimeChange(sim, settings, peopleCells, t1).1.(triggerCount := triggers);
      var second := TimeChange(next, settings, peopleCells, t2);
      && (second.0.Some? <==> t2 - t1 >= settings.debounceDelay || t1 == -1.0)
      && (second.0.Some? ==>
            second.0.value.flow == Flow(triggers, ObjectTypeCount(sim.current, LightBarrierType), settings.cellsPerMeter,
                                        t2 - WindowStart(t1)))
  {
  }

  /** The code as written measures the first window as one time unit longer
      than the run: the flow of an update at time 10 with five triggers on
      one barrier one meter wide comes out as 5/11 people per meter and time
      unit rather than 1/2. */
  lemma FirstWindowOneUnitTooLong(sim: Simulator, settings: Settings, peopleCells: seq<Location>, time: real)
    requires Inv(sim.current) && Lists(peopleCells, Locs(sim.current, PersonType))
    requires sim.lastStatisticsUpdate == -1.0
    ensures TimeChangeAsWritten(sim, settings, peopleCells, time).0.value.flow ==
      Flow(sim.triggerCount, ObjectTypeCount(sim.current, LightBarrierType), settings.cellsPerMeter, time + 1.0)
    ensures TimeChange(sim, settings, peopleCells, time).0.value.flow ==
      Flow(sim.triggerCount, ObjectTypeCount(sim.current, LightBarrierType), settings.cellsPerMeter, time)
    ensures Flow(5, 1, 1.0, 10.0 + 1.0) == Some(5.0 / 11.0) && Flow(5, 1, 1.0, 10.0) == Some(0.5)
  {
  }

  /** The code as written keeps the time of the last update across a reset,
      while the clock starts again at zero: after a reset from a run whose
      last update was at time 100, with the default delay of 10, no update
      comes before time 110 of the new run. The intended reset lets the
      first change of the new run update the statistics. */
  lemma ResetKeepsStaleDebounce(sim: Simulator, peopleCells: seq<Location>, startPeople: seq<Location>, time: real)
    requires Inv(sim.current) && Lists(peopleCells, Locs(sim.current, PersonType))
    requires Inv(sim.start) && Lists(startPeople, Locs(sim.start, PersonType))
    requires sim.lastStatisticsUpdate == 100.0 && 0.0 <= time < 110.0
    ensures TimeChangeAsWritten(ResetAsWritten(sim).0, DefaultSettings, peopleCells, time).0.None?
    ensures TimeChange(Reset(sim).0, DefaultSettings, startPeople, time).0.Some?
  {
  }

  /** `terminate` as written: a last update over the time since the
      previous one, which before the first update counts from -1, then a
      reset as written, which keeps the time of the last update. */
  function TerminateAsWritten(sim: Simulator, settings: Settings, peopleCells: seq<Location>)
    : (r: (Statistics, Simulator, seq<LifeCycleEvent>))
    requires Inv(sim.current) && Lists(peopleCells, Locs(sim.current, PersonType))
    ensures r.0 == Measure(sim, settings, peopleCells, sim.scheduler.now - sim.lastStatisticsUpdate)
    ensures !r.1.running && !r.1.started && r.1.current == sim.current && r.1.scheduler.queue == []
    ensures r.1.triggerCount == 0 && r.1.lastStatisticsUpdate == sim.lastStatisticsUpdate
    ensures r.2 == (if sim.running then [Paused, WasReset] else [WasReset])
  {
    var st := Measure(sim, settings, peopleCells, sim.scheduler.now - sim.lastStatisticsUpdate);
    var (s, events) := ResetAsWritten(sim.(triggerCount := 0));
    (st, s, events)
  }

  /** `terminate` as evidently intended: the last update covers the time
      since the previous one or since the start of the run, and the reset
      brings back the start state and starts the statistics over. */
  function Terminate(sim: Simulator, settings: Settings, peopleCells: seq<Location>)
    : (r: (Statistics, Simulator, seq<LifeCycleEvent>))
    requires Inv(sim.current) && Lists(peopleCells, Locs(sim.current, PersonType))
    ensures r.0 == Measure(sim, settings, peopleCells, sim.scheduler.now - WindowStart(sim.lastStatisticsUpdate))
    ensures !r.1.running && !r.1.started && r.1.current == sim.start && r.1.scheduler.queue == []
    ensures r.1.triggerCount == 0 && r.1.lastStatisticsUpdate == -1.0
    ensures r.2 == (if sim.running then [Paused, WasReset] else [WasReset])
  {
    var st := Measure(sim, settings, peopleCells, sim.scheduler.now - WindowStart(sim.lastStatisticsUpdate));
    var (s, events) := Reset(sim.(triggerCount := 0));
    (st, s, events)
  }

  /** The code as written carries both slips of the statistics into
      `terminate`: terminating before any update measures the flow over one
      time unit more than the run (5 triggers on one barrier a meter wide by
      time 10 give 5/11 rather than 1/2), and the time of the last update
      survives it. */
  lemma TerminateInheritsSlips(sim: Simulator, settings: Settings, peopleCells: seq<Location>)
    requires Inv(sim.current) && Lists(peopleCells, Locs(sim.current, PersonType))
    ensures sim.lastStatisticsUpdate == -1.0 ==>
      && TerminateAsWritten(sim, settings, peopleCells).0.flow ==
           Flow(sim.triggerCount, ObjectTypeCount(sim.current, LightBarrierType), settings.cellsPerMeter, sim.scheduler.now + 1.0)
      && Terminate(sim, settings, peopleCells).0.flow ==
           Flow(sim.triggerCount, ObjectTypeCount(sim.current, LightBarrierType), settings.cellsPerMeter, sim.scheduler.now)
    ensures sim.lastStatisticsUpdate == 100.0 ==>
      && TerminateAsWritten(sim, settings, peopleCells).1.lastStatisticsUpdate == 100.0
      && Terminate(sim, settings, peopleCells).1.lastStatisticsUpdate == -1.0
  {
  }
}

=== FILE: spawn.dfy ===
/** How a source spawns people (`DefaultSpawnStrategy`): it picks a free cell
    next to it, creates a person there heading for one of the targets,
    counts the spawn, schedules the person's first move, and schedules its
    own next attempt while spawns remain. */
module Spawning {
  import opened Wrappers
  import RealMath
  import opened JavaText
  import opened Locations
  import opened ObjectTypes
  import opened SimObjects
  import opened Persons
  import opened States
  import opened Neighbourhoods
  import opened Randomness
  import Scheduling
  import opened Actions

  /** `getPossibleSpawnLocations(state, base)`: the cells around the base, row
      by row, that can be occupied. */
  function SpawnCandidates(s: State, base: Location): (r: seq<Location>)
    requires WellFormed(s)
    ensures forall k :: k in r <==> InGrid(s, k) && Chebyshev(base, k) == 1 && CanBeOccupied(s, k)
    ensures Ascending(r)
  {
    var ks := Neighbours(base, s.rows, Columns(s), 1, 1);
    assert forall k :: k in ks <==> InGrid(s, k) && Chebyshev(base, k) == 1 by {
      forall k
        ensures k in ks <==> InGrid(s, k) && Chebyshev(base, k) == 1
      {
        UnitNeighbours(base, s.rows, Columns(s), k);
      }
    }
    Keep(ks, set k | k in s.cells && CanBeOccupied(s, k))
  }

  /** `findTargetsInState`: the cells, row by row, whose occupant reports the
      target type. */
  function FindTargets(s: State): (r: seq<Location>)
    requires WellFormed(s)
    ensures forall k :: k in r <==> InGrid(s, k) && OccupantType(s, k) == Some(TargetType)
    ensures Ascending(r)
  {
    Keep(GridCells(s.rows, Columns(s)), set k | k in s.cells && OccupantType(s, k) == Some(TargetType))
  }

  /** The scan for targets finds exactly the cells the type index lists
      under the target type. */
  lemma TargetsAreIndexed(s: State)
    requires Inv(s)
    ensures forall k :: k in FindTargets(s) <==> k in Locs(s, TargetType)
  {
    var r := FindTargets(s);
    forall k
      ensures k in r <==> k in Locs(s, TargetType)
    {
      assert k in Locs(s, TargetType) <==> k in s.cells && Holds(s.cells[k], TargetType);
      if InGrid(s, k) {
        HoldsTypeIff(s.cells[k], TargetType);
      }
    }
  }

  /** The index lists a cell under a type other than the light barrier's
      exactly when its upper object has that type. */
  lemma HoldsTypeIff(c: Cell, t: SimObjectType)
    requires CellShape(c) && t != LightBarrierType
    ensures Holds(c, t) <==> Upper(c).Some? && TypeOf(Upper(c).value) == t
  {
  }

  predicate IsSourceAt(s: State, at: Location) {
    at in s.cells && s.cells[at].Solid? && s.cells[at].occupant.Source?
  }

  /** `source.increaseSpawnCounter()` on the source stored at `at`. */
  function CountSpawn(s: State, at: Location): (s': State)
    requires WellFormed(s) && IsSourceAt(s, at)
    ensures WellFormed(s') && IsSourceAt(s', at) && s'.cells.Keys == s.cells.Keys
    ensures s'.cells[at].occupant == IncreaseSpawnCounter(s.cells[at].occupant)
    ensures forall l | l in s.cells && l != at :: s'.cells[l] == s.cells[l]
    ensures forall t :: Locs(s', t) == Locs(s, t)
    ensures Inv(s) ==> Inv(s')
  {
    var s' := s.(cells := s.cells[at := Solid(IncreaseSpawnCounter(s.cells[at].occupant))]);
    assert forall t :: Holds(s'.cells[at], t) <==> Holds(s.cells[at], t);
    s'
  }

  /** Whether a source spawns again: it has no limit, or has spawned fewer
      people than its limit. */
  predicate SpawnsRemain(o: SimObject)
    requires o.Source?
  {
    AreSpawnsUnlimited(o.sourceConfig) || o.spawnCounter < o.sourceConfig.maxSpawns
  }

  /** What a spawn attempt leaves: the state, the scheduler, the generator,
      the next person id, and the person spawned, if any. */
  datatype Spawned = Spawned(state: State, scheduler: Scheduling.Scheduler<Handler>, rng: Random,
                             nextPersonId: int, person: Option<Person>)

  /** A target drawn from the cached ones, or (0, 0) when there are none. */
  function PickTarget(targets: seq<Location>, g: Random): (r: (Location, Random))
    ensures targets != [] ==> r.0 in targets && r.1 == Stream(g.at, g.pos + 1)
    ensures targets == [] ==> r == (Location(0, 0), g)
  {
    match NextInt(g, |targets|)
    case Err(_) => (Location(0, 0), g)
    case Ok((j, g')) => (targets[j], g')
  }

  /** `spawn(source, state, scheduler)`. `speed` and `patience` are what the
      source's generators yield for the new person, and `interval` is what
      `getNextSpawnTime` yields at this attempt. Without a free cell next to
      the source the attempt is retried after a random share of the
      interval; `scheduleIn` refuses a negative delay, which ends the run
      (`Err`). Otherwise a person is placed on a random free cell, heading
      for a random cached target, with the walk from the source recorded;
      the source counts the spawn, the person's first move is scheduled for
      when that walk ends, and the next attempt while spawns remain. */
  function Spawn(m: RealMath.Oracle, s: State, sched: Scheduling.Scheduler<Handler>, g: Random, source: Location,
                 targets: seq<Location>, nextPersonId: int, speed: real, patience: int, interval: real): (r: Result<Spawned, ()>)
    requires RealMath.Valid(m) && WellFormed(s) && IsSourceAt(s, source) && Scheduling.Inv(sched)
    requires 0.0 < speed
    ensures r.Ok? ==> WellFormed(r.value.state) && IsSourceAt(r.value.state, source) && Scheduling.Inv(r.value.scheduler)
    ensures r.Ok? && Inv(s) ==> Inv(r.value.state)
    ensures r.Ok? ==> (r.value.person.Some? <==> SpawnCandidates(s, source) != [])
    ensures SpawnCandidates(s, source) == [] ==>
      && (r.Err? <==> RetryDelay(sched, NextDouble(g).0, interval) < 0.0)
      && (r.Ok? ==>
            && r.value.state == s && r.value.nextPersonId == nextPersonId && r.value.rng == NextDouble(g).1
            && Scheduling.Handlers(r.value.scheduler.queue) == Scheduling.Handlers(sched.queue) + multiset{SpawnFrom(source)})
    ensures SpawnCandidates(s, source) != [] ==>
      (r.Err? <==> SpawnsRemain(IncreaseSpawnCounter(s.cells[source].occupant)) && interval < 0.0)
    ensures r.Ok? && r.value.person.Some? ==>
      var p := r.value.person.value;
      var counted := IncreaseSpawnCounter(s.cells[source].occupant);
      && p.location in SpawnCandidates(s, source)
      && p.id == nextPersonId && r.value.nextPersonId == Wrap32(nextPersonId + 1)
      && p.source == source && p.speed == speed && p.patience == patience && p.couldNotMoveCounter == 0
      && (targets != [] ==> p.target in targets)
      && (targets == [] ==> p.target == Location(0, 0))
      && p.lastMoveTimestamp == sched.now + Distance(m, p.location, source) / speed
      && p.speedHistory == [speed]
      && r.value.state.cells == s.cells[p.location := Installed(s.cells[p.location], PersonObject(p))][source := Solid(counted)]
      && Locs(r.value.state, PersonType) == Locs(s, PersonType) + {p.location}
      && (forall t :: t != PersonType ==> Locs(r.value.state, t) == Locs(s, t))
      && Scheduling.Handlers(r.value.scheduler.queue) ==
           Scheduling.Handlers(sched.queue) + multiset{MoveOf(p.id, source)} + (if SpawnsRemain(counted) then multiset{SpawnFrom(source)} else multiset{})
  {
    var cands := SpawnCandidates(s, source);
    if cands == [] then
      var (u, g1) := NextDouble(g);
      match Scheduling.ScheduleIn(sched, SpawnFrom(source), RetryDelay(sched, u, interval))
      case Err(_) => Err(())
      case Ok(sc) => Ok(Spawned(s, sc, g1, nextPersonId, None))
    else
      var (i, g1) := NextInt(g, |cands|).value;
      var (target, g2) := PickTarget(targets, g1);
      var p := Newcomer(m, nextPersonId, source, target, cands[i], speed, sched.now, patience);
      var s2 := Settle(s, source, p);
      match Reschedule(sched, p, Distance(m, p.location, source) / speed, source, s2.cells[source].occupant, interval)
      case Err(_) => Err(())
      case Ok(sc) => Ok(Spawned(s2, sc, g2, Wrap32(nextPersonId + 1), Some(p)))
  }

  /** The person `new Person(...)` creates at `at`, with the walk from the
      source recorded as ending `distance / speed` after its creation. */
  function Newcomer(m: RealMath.Oracle, id: int, source: Location, target: Location, at: Location,
                    speed: real, now: real, patience: int): (p: Person)
    requires RealMath.Valid(m) && Chebyshev(source, at) == 1 && 0.0 < speed
    ensures p.id == id && p.source == source && p.target == target && p.location == at
    ensures p.speed == speed && p.patience == patience && p.couldNotMoveCounter == 0
    ensures 0.0 < Distance(m, at, source) && 0.0 < Distance(m, at, source) / speed
    ensures p.lastMoveTimestamp == now + Distance(m, at, source) / speed
    ensures p.speedHistory == [speed]
  {
    var (newcomer, _) := NewPerson(id, source, target, at, speed, now, patience);
    var d := Distance(m, at, source);
    NeighbourDistance(m, at, source);
    FirstRecordIsNominalSpeed(newcomer, now, d, speed);
    AddMovementRecord(newcomer, now + d / speed, d)
  }

  /** The state once the new person stands on its cell and the source has
      counted the spawn. */
  function Settle(s: State, source: Location, p: Person): (s': State)
    requires WellFormed(s) && IsSourceAt(s, source) && InGrid(s, p.location) && CanBeOccupied(s, p.location)
    ensures WellFormed(s') && IsSourceAt(s', source)
    ensures Inv(s) ==> Inv(s')
    ensures s'.cells == s.cells[p.location := Installed(s.cells[p.location], PersonObject(p))]
                               [source := Solid(IncreaseSpawnCounter(s.cells[source].occupant))]
    ensures Locs(s', PersonType) == Locs(s, PersonType) + {p.location}
    ensures forall t :: t != PersonType ==> Locs(s', t) == Locs(s, t)
  {
    var s1 := SetCellOccupantChecked(s, Some(PersonObject(p)), p.location).value.0;
    assert s1.cells[source] == s.cells[source];
    assert Inv(s) ==> Inv(s1) by {
      if Inv(s) {
        SetCellOccupantKeepsInv(s, PersonObject(p), p.location);
      }
    }
    CountSpawn(s1, source)
  }

  /** The events a spawn schedules: the person's first move after `delay`,
      and the source's next attempt after `interval` while spawns remain. */
  function Reschedule(sched: Scheduling.Scheduler<Handler>, p: Person, delay: real, source: Location,
                      counted: SimObject, interval: real): (r: Result<Scheduling.Scheduler<Handler>, ()>)
    requires Scheduling.Inv(sched) && 0.0 <= delay && counted.Source?
    ensures r.Err? <==> SpawnsRemain(counted) && interval < 0.0
    ensures r.Ok? ==> Scheduling.Inv(r.value)
    ensures r.Ok? ==>
      Scheduling.Handlers(r.value.queue) ==
        Scheduling.Handlers(sched.queue) + multiset{MoveOf(p.id, source)} + (if SpawnsRemain(counted) then multiset{SpawnFrom(source)} else multiset{})
  {
    var sc1 := Scheduling.ScheduleIn(sched, MoveOf(p.id, source), delay).value;
    if SpawnsRemain(counted) then Scheduling.ScheduleIn(sc1, SpawnFrom(source), interval)
    else Ok(sc1)
  }

  /** A spawn that places a person keeps the state's invariant and adds
      exactly one person to the count, leaving every other count as it was. */
  lemma SpawnAddsOnePerson(m: RealMath.Oracle, s: State, sched: Scheduling.Scheduler<Handler>, g: Random, source: Location,
                           targets: seq<Location>, nextPersonId: int, speed: real, patience: int, interval: real)
    requires RealMath.Valid(m) && Inv(s) && IsSourceAt(s, source) && Scheduling.Inv(sched)
    requires 0.0 < speed
    requires var r := Spawn(m, s, sched, g, source, targets, nextPersonId, speed, patience, interval);
      r.Ok? && r.value.person.Some?
    ensures var r := Spawn(m, s, sched, g, source, targets, nextPersonId, speed, patience, interval).value;
      && Inv(r.state)
      && ObjectTypeCount(r.state, PersonType) == ObjectTypeCount(s, PersonType) + 1
      && forall t :: t != PersonType ==> ObjectTypeCount(r.state, t) == ObjectTypeCount(s, t)
  {
    var r := Spawn(m, s, sched, g, source, targets, nextPersonId, speed, patience, interval).value;
    var at := r.person.value.location;
    assert InGrid(s, at) && CanBeOccupied(s, at);
    assert at !in Locs(s, PersonType);
  }

  /** A limited source never spawns more people than its limit. An attempt
      that runs while the source has spawned fewer people than its limit, and
      while no other attempt of the source is pending, leaves the count at
      most at the limit, and leaves another attempt pending only while the
      count is still below it; a failed attempt leaves the count alone. */
  lemma SpawnKeepsBudget(m: RealMath.Oracle, s: State, sched: Scheduling.Scheduler<Handler>, g: Random, source: Location,
                         targets: seq<Location>, nextPersonId: int, speed: real, patience: int, interval: real)
    requires RealMath.Valid(m) && WellFormed(s) && IsSourceAt(s, source) && Scheduling.Inv(sched)
    requires 0.0 < speed
    requires var c := s.cells[source].occupant;
      && AreSpawnsLimited(c.sourceConfig) && IsInt32(c.sourceConfig.maxSpawns)
      && 0 <= c.spawnCounter < c.sourceConfig.maxSpawns
    requires SpawnFrom(source) !in Scheduling.Handlers(sched.queue)
    requires Spawn(m, s, sched, g, source, targets, nextPersonId, speed, patience, interval).Ok?
    ensures var r := Spawn(m, s, sched, g, source, targets, nextPersonId, speed, patience, interval).value;
      var c, c' := s.cells[source].occupant, r.state.cells[source].occupant;
      && c'.sourceConfig == c.sourceConfig
      && c'.spawnCounter == c.spawnCounter + (if r.person.Some? then 1 else 0)
      && 0 <= c'.spawnCounter <= c.sourceConfig.maxSpawns
      && (SpawnFrom(source) in Scheduling.Handlers(r.scheduler.queue) ==> c'.spawnCounter < c.sourceConfig.maxSpawns)
  {
    var c := s.cells[source].occupant;
    assert IsInt32(c.spawnCounter + 1);
  }

  /** A walk of positive length `d` at speed `speed` that ends `d / speed`
      after the last move is recorded as a walk at exactly that speed. */
  lemma FirstRecordIsNominalSpeed(p: Person, now: real, d: real, speed: real)
    requires p.lastMoveTimestamp == now && p.speedHistory == []
    requires 0.0 < d && 0.0 < speed
    ensures now + d / speed != p.lastMoveTimestamp
    ensures AddMovementRecord(p, now + d / speed, d).speedHistory == [speed]
  {
    var q := AddMovementRecord(p, now + d / speed, d);
    var x, t := q.speedHistory[0], d / speed;
    assert x * t == d;
    assert t * speed == d;
    assert 0.0 < t;
    assert (x - speed) * t == 0.0;
    assert x == speed;
    assert q.speedHistory == [x];
  }
}

=== FILE: state.dfy ===
/** The simulation world (`State`): a grid of cells (`StateCell`), each
    empty, holding one solid object, or holding a walkable object (a light
    barrier) that one rider may stand on; and the index from object types to
    the locations holding them, which the statistics read. */
module States {
  import opened Wrappers
  import opened Locations
  import opened ObjectTypes
  import opened SimObjects

  /** A cell of the grid. A walkable object is always stored with its rider
      slot, so the two forms of occupation are told apart by construction. */
  datatype Cell = Empty | Solid(occupant: SimObject) | Walkable(base: SimObject, rider: Option<SimObject>)

  /** The kinds of update the state reports to its listeners. */
  datatype EventKind = Added | Removed | Changed

  datatype UpdateEvent = UpdateEvent(kind: EventKind, location: Location)

  datatype State = State(rows: int, columns: int, cells: map<Location, Cell>, index: map<SimObjectType, set<Location>>)

  /** `getColumns`: the width of the first row, zero when there is none. */
  function Columns(s: State): (c: int)
    ensures s.rows > 0 ==> c == s.columns
    ensures s.rows <= 0 ==> c == 0
  {
    if s.rows > 0 then s.columns else 0
  }

  predicate InGrid(s: State, l: Location) {
    0 <= l.row < s.rows && 0 <= l.column < s.columns
  }

  /** Every location of a `rows` by `columns` grid. */
  function GridSet(rows: int, columns: int): (g: set<Location>)
    ensures forall l :: l in g <==> 0 <= l.row < rows && 0 <= l.column < columns
  {
    var g := set r, c | 0 <= r < rows && 0 <= c < columns :: Location(r, c);
    assert forall l: Location :: 0 <= l.row < rows && 0 <= l.column < columns ==> l in g by {
      forall l: Location | 0 <= l.row < rows && 0 <= l.column < columns
        ensures l in g
      {
        assert l == Location(l.row, l.column);
      }
    }
    g
  }

  /** The shape of the two-dimensional cell array: one cell per grid location. */
  ghost predicate WellFormed(s: State) {
    && 0 <= s.rows && 0 <= s.columns
    && (forall l :: l in s.cells <==> InGrid(s, l))
  }

  /** The object on top of a cell: the rider if there is one, else the cell's
      own occupant (`getUpperCellOccupant`). */
  function Upper(c: Cell): Option<SimObject> {
    match c
    case Empty => None
    case Solid(o) => Some(o)
    case Walkable(b, None) => Some(b)
    case Walkable(_, Some(r)) => Some(r)
  }

  /** Whether the type index lists a cell under `t`: a light barrier is listed
      under its own type whether or not someone stands on it, and a rider or
      a solid occupant under its type. */
  predicate Holds(c: Cell, t: SimObjectType) {
    match c
    case Empty => false
    case Solid(o) => TypeOf(o) == t
    case Walkable(_, rider) => t == LightBarrierType || (rider.Some? && TypeOf(rider.value) == t)
  }

  /** Only walkable objects carry riders, and riders are not walkable. */
  predicate CellShape(c: Cell) {
    match c
    case Empty => true
    case Solid(o) => !IsWalkable(o)
    case Walkable(b, rider) => IsWalkable(b) && (rider.Some? ==> !IsWalkable(rider.value))
  }

  /** The index entry for a type; a type never entered has none. */
  function Locs(s: State, t: SimObjectType): set<Location> {
    if t in s.index then s.index[t] else {}
  }

  /** The type index lists exactly the cells holding each type. */
  ghost predicate IndexMirrors(s: State) {
    forall t, l :: l in Locs(s, t) <==> l in s.cells && Holds(s.cells[l], t)
  }

  /** The invariant the operations of the state keep. */
  ghost predicate Inv(s: State) {
    && WellFormed(s)
    && (forall l | l in s.cells :: CellShape(s.cells[l]))
    && IndexMirrors(s)
  }

  /** `new State(rows, columns)`: every cell empty, nothing indexed. */
  function NewState(rows: int, columns: int): (s: State)
    requires 0 <= rows && 0 <= columns
    ensures Inv(s)
    ensures s.rows == rows && Columns(s) == (if rows > 0 then columns else 0)
    ensures forall l :: InGrid(s, l) ==> s.cells[l] == Empty
    ensures forall t :: Locs(s, t) == {}
  {
    State(rows, columns, map l | l in GridSet(rows, columns) :: Empty, map[])
  }

  /** `getCellOccupant`: the object stored in the cell itself (for a walkable
      cell, the walkable object, not its rider). */
  function CellOccupant(s: State, l: Location): (r: Option<SimObject>)
    requires WellFormed(s) && InGrid(s, l)
    ensures r.None? <==> s.cells[l].Empty?
  {
    match s.cells[l]
    case Empty => None
    case Solid(o) => Some(o)
    case Walkable(b, _) => Some(b)
  }

  /** `getType` of the occupant of a cell: for a walkable object that is the
      type of its rider when it has one. */
  function OccupantType(s: State, l: Location): (r: Option<SimObjectType>)
    requires WellFormed(s) && InGrid(s, l)
    ensures r.None? <==> s.cells[l].Empty?
    ensures r.Some? ==> r == Some(TypeOf(Upper(s.cells[l]).value))
  {
    match Upper(s.cells[l])
    case None => None
    case Some(o) => Some(TypeOf(o))
  }

  /** `getUpperCellOccupant`. */
  function UpperCellOccupant(s: State, l: Location): (r: Option<SimObject>)
    requires WellFormed(s) && InGrid(s, l)
    ensures r.None? <==> s.cells[l].Empty?
    ensures s.cells[l].Walkable? && s.cells[l].rider.Some? ==> r == s.cells[l].rider
  {
    Upper(s.cells[l])
  }

  /** `isCellFree`: nothing at all is stored in the cell. */
  predicate IsCellFree(s: State, l: Location)
    requires WellFormed(s) && InGrid(s, l)
  {
    s.cells[l].Empty?
  }

  /** `canBeOccupied`: the cell is empty or a walkable object without a rider. */
  predicate CanBeOccupied(s: State, l: Location)
    requires WellFormed(s) && InGrid(s, l)
  {
    s.cells[l].Empty? || (s.cells[l].Walkable? && s.cells[l].rider.None?)
  }

  /** `getObjectTypeCount`: the size of a type's index entry. */
  function ObjectTypeCount(s: State, t: SimObjectType): (n: nat)
    ensures n == |Locs(s, t)|
    ensures t !in s.index ==> n == 0
  {
    |Locs(s, t)|
  }

  /** Under the invariant, the count of a type is the number of cells
      holding it. */
  lemma ObjectTypeCountIsCellCount(s: State, t: SimObjectType)
    requires Inv(s)
    ensures ObjectTypeCount(s, t) == |set l | l in s.cells && Holds(s.cells[l], t)|
  {
    assert Locs(s, t) == set l | l in s.cells && Holds(s.cells[l], t);
  }

  /** The cell an object becomes when it is stored directly. */
  function Place(o: SimObject): (c: Cell)
    ensures Upper(c) == Some(o)
    ensures IsWalkable(o) ==> c == Walkable(o, None)
    ensures !IsWalkable(o) ==> c == Solid(o)
  {
    if IsWalkable(o) then Walkable(o, None) else Solid(o)
  }

  /** A type's index entry replaced. */
  function SetLocs(s: State, t: SimObjectType, ls: set<Location>): (s': State)
    ensures Locs(s', t) == ls
    ensures forall u :: u != t ==> Locs(s', u) == Locs(s, u)
    ensures s'.rows == s.rows && s'.columns == s.columns && s'.cells == s.cells
  {
    s.(index := s.index[t := ls])
  }

  /** The cell after `obj` is installed by `setCellOccupant`: as the rider of
      a riderless walkable object, otherwise stored directly. */
  function Installed(c: Cell, obj: SimObject): Cell {
    if c.Walkable? then Walkable(c.base, Some(obj)) else Place(obj)
  }

  datatype SetError = NullOccupant | OccupiedWalkable | OccupiedCell

  /** `setCellOccupant(occupant, location)` as written: a null occupant and a
      walkable object that already has a rider are refused; anything else,
      including a cell that already holds a solid object, is overwritten,
      and the new object is added to the type index. */
  function SetCellOccupant(s: State, occupant: Option<SimObject>, l: Location): (r: Result<(State, UpdateEvent), SetError>)
    requires WellFormed(s) && InGrid(s, l)
    ensures occupant.None? ==> r == Err(NullOccupant)
    ensures r.Ok? <==> occupant.Some? && !(s.cells[l].Walkable? && s.cells[l].rider.Some?)
    ensures r.Ok? ==> var (s', e) := r.value;
      && WellFormed(s')
      && s'.cells == s.cells[l := Installed(s.cells[l], occupant.value)]
      && Upper(s'.cells[l]) == occupant
      && Locs(s', TypeOf(occupant.value)) == Locs(s, TypeOf(occupant.value)) + {l}
      && (forall t :: t != TypeOf(occupant.value) ==> Locs(s', t) == Locs(s, t))
      && e == UpdateEvent(if s.cells[l].Walkable? then Changed else Added, l)
  {
    var prior := s.cells[l];
    if occupant.None? then Err(NullOccupant)
    else
      var o := occupant.value;
      if prior.Walkable? then
        if prior.rider.Some? then Err(OccupiedWalkable)
        else
          var s1 := s.(cells := s.cells[l := Walkable(prior.base, Some(o))]);
          Ok((SetLocs(s1, TypeOf(o), Locs(s, TypeOf(o)) + {l}), UpdateEvent(Changed, l)))
      else
        var s1 := s.(cells := s.cells[l := Place(o)]);
        Ok((SetLocs(s1, TypeOf(o), Locs(s, TypeOf(o)) + {l}), UpdateEvent(Added, l)))
  }

  /** Installing an object on a cell that can take it keeps the invariant
      (a walkable object does not become a rider). */
  lemma SetCellOccupantKeepsInv(s: State, o: SimObject, l: Location)
    requires Inv(s) && InGrid(s, l)
    requires CanBeOccupied(s, l)
    requires !(s.cells[l].Walkable? && IsWalkable(o))
    ensures SetCellOccupant(s, Some(o), l).Ok?
    ensures Inv(SetCellOccupant(s, Some(o), l).value.0)
  {
    var s' := SetCellOccupant(s, Some(o), l).value.0;
    forall t, k
      ensures k in Locs(s', t) <==> k in s'.cells && Holds(s'.cells[k], t)
    {
      if k == l {
        assert Holds(s'.cells[l], t) <==> Holds(s.cells[l], t) || t == TypeOf(o);
      }
    }
  }

  /** The code as written: an object stored over a solid occupant of another
      type leaves the old type's index entry pointing at a cell that no
      longer holds it, so the index no longer mirrors the grid. */
  lemma OverwriteLeavesStaleIndex(s: State, o: SimObject, l: Location)
    requires Inv(s) && InGrid(s, l)
    requires s.cells[l].Solid? && TypeOf(s.cells[l].occupant) != TypeOf(o)
    ensures SetCellOccupant(s, Some(o), l).Ok?
    ensures var s' := SetCellOccupant(s, Some(o), l).value.0;
      l in Locs(s', TypeOf(s.cells[l].occupant)) && !Holds(s'.cells[l], TypeOf(s.cells[l].occupant))
    ensures !IndexMirrors(SetCellOccupant(s, Some(o), l).value.0)
  {
    var former := TypeOf(s.cells[l].occupant);
    var s' := SetCellOccupant(s, Some(o), l).value.0;
    assert l in Locs(s, former);
    assert l in Locs(s', former);
    if IsWalkable(o) {
      assert former != LightBarrierType;
    }
    assert !Holds(s'.cells[l], former);
  }

  /** The code as written, continued: once the object stored over a solid
      occupant of another type is removed again, the old type's index still
      lists the cell, now empty, and listing the objects of that type throws. */
  lemma StaleIndexBreaksListing(s: State, o: SimObject, l: Location)
    requires Inv(s) && InGrid(s, l)
    requires s.cells[l].Solid? && TypeOf(s.cells[l].occupant) != TypeOf(o)
    ensures SetCellOccupant(s, Some(o), l).Ok?
    ensures var s1 := SetCellOccupant(s, Some(o), l).value.0;
      var s2 := RemoveOccupant(s1, l).0;
      && s2.cells[l].Empty?
      && ObjectsForType(s2, TypeOf(s.cells[l].occupant)) == Err(NoSuchElement)
  {
    var former := TypeOf(s.cells[l].occupant);
    var s1 := SetCellOccupant(s, Some(o), l).value.0;
    var s2 := RemoveOccupant(s1, l).0;
    assert l in Locs(s, former);
    assert Locs(s2, former) == Locs(s, former);
    assert s2.cells[l].Empty?;
    assert Unlisted(s2, l);
  }

  /** `setCellOccupant` with the check it evidently lacks: a cell that holds
      a solid object is refused like a walkable object with a rider. */
  function SetCellOccupantChecked(s: State, occupant: Option<SimObject>, l: Location): (r: Result<(State, UpdateEvent), SetError>)
    requires WellFormed(s) && InGrid(s, l)
    ensures occupant.None? ==> r == Err(NullOccupant)
    ensures r.Ok? <==> occupant.Some? && CanBeOccupied(s, l)
    ensures r.Ok? ==> r == SetCellOccupant(s, occupant, l)
    ensures occupant.Some? && s.cells[l].Solid? ==> r == Err(OccupiedCell)
  {
    if occupant.Some? && s.cells[l].Solid? then Err(OccupiedCell) else SetCellOccupant(s, occupant, l)
  }

  /** The corrected operation never breaks the invariant when it succeeds. */
  lemma SetCellOccupantCheckedKeepsInv(s: State, o: SimObject, l: Location)
    requires Inv(s) && InGrid(s, l)
    requires !(s.cells[l].Walkable? && IsWalkable(o))
    ensures SetCellOccupantChecked(s, Some(o), l).Ok? ==> Inv(SetCellOccupantChecked(s, Some(o), l).value.0)
  {
    if CanBeOccupied(s, l) {
      SetCellOccupantKeepsInv(s, o, l);
    }
  }

  /** Why `moveOccupant` throws: nothing to move (`orElseThrow`), a walkable
      object without a rider (the `null` occupant), or an object that cannot
      change its location. */
  datatype MoveError = NothingToMove | MissingRider | UnsupportedMove

  /** What `moveOccupant` leaves behind. A failing call can already have
      cleared the origin cell; no events are reported then. `triggered` says
      whether a light barrier counted the step onto it. */
  datatype MoveOutcome = MoveOutcome(state: State, moved: Result<bool, MoveError>, events: seq<UpdateEvent>, triggered: bool)

  /** The object a move would carry away from `from`: a rider, or a solid occupant. */
  function Mover(c: Cell): Option<SimObject> {
    match c
    case Empty => None
    case Solid(o) => Some(o)
    case Walkable(_, rider) => rider
  }

  /** The origin cell once its mover is taken away. */
  function Vacated(c: Cell): Cell {
    if c.Walkable? then Walkable(c.base, None) else Empty
  }

  /** `moveOccupant(from, to)`: nothing happens when the two are equal or the
      target cannot be occupied; otherwise the rider or solid occupant of the
      origin is taken away and, once its location is updated, installed at
      the target (as a rider on a walkable object, which counts as a light
      barrier trigger), and the index entry of its type follows it. */
  function MoveOccupant(s: State, from: Location, to: Location): (r: MoveOutcome)
    requires WellFormed(s)
    requires from != to ==> InGrid(s, to)
    requires from != to && CanBeOccupied(s, to) ==> InGrid(s, from)
    ensures WellFormed(r.state)
    ensures from == to || !CanBeOccupied(s, to) ==> r == MoveOutcome(s, Ok(false), [], false)
    ensures r.moved == Ok(true) <==>
      from != to && CanBeOccupied(s, to) && Mover(s.cells[from]).Some? && Mover(s.cells[from]).value.PersonObject?
    ensures from != to && CanBeOccupied(s, to) && s.cells[from].Empty? ==> r == MoveOutcome(s, Err(NothingToMove), [], false)
    ensures r.moved == Err(UnsupportedMove) ==> r.state.cells == s.cells[from := Vacated(s.cells[from])] && r.events == []
    ensures r.moved == Ok(true) ==> var p := Mover(s.cells[from]).value.person;
      && r.state.cells == s.cells[from := Vacated(s.cells[from])][to := Installed(s.cells[to], PersonObject(p.(location := to)))]
      && Locs(r.state, PersonType) == Locs(s, PersonType) - {from} + {to}
      && (forall t :: t != PersonType ==> Locs(r.state, t) == Locs(s, t))
      && r.triggered == s.cells[to].Walkable?
      && r.events == [UpdateEvent(if s.cells[from].Walkable? then Changed else Removed, from),
                      UpdateEvent(if s.cells[to].Walkable? then Changed else Added, to)]
  {
    if from == to || !CanBeOccupied(s, to) then MoveOutcome(s, Ok(false), [], false)
    else
      var origin := s.cells[from];
      if origin.Empty? then MoveOutcome(s, Err(NothingToMove), [], false)
      else
        var s1 := s.(cells := s.cells[from := Vacated(origin)]);
        match Mover(origin)
        case None => MoveOutcome(s1, Err(MissingRider), [], false)
        case Some(o) =>
          match SetLocation(o, to)
          case Err(_) => MoveOutcome(s1, Err(UnsupportedMove), [], false)
          case Ok(moved) =>
            var target := s1.cells[to];
            var s2 := s1.(cells := s1.cells[to := Installed(target, moved)]);
            var t := TypeOf(moved);
            var s3 := SetLocs(s2, t, Locs(s, t) - {from} + {to});
            MoveOutcome(s3, Ok(true),
                        [UpdateEvent(if origin.Walkable? then Changed else Removed, from),
                         UpdateEvent(if target.Walkable? then Changed else Added, to)],
                        target.Walkable?)
  }

  /** A successful move keeps the invariant and every type's count. */
  lemma MoveKeepsInv(s: State, from: Location, to: Location)
    requires Inv(s) && InGrid(s, from) && InGrid(s, to)
    requires MoveOccupant(s, from, to).moved == Ok(true)
    ensures Inv(MoveOccupant(s, from, to).state)
    ensures forall t :: ObjectTypeCount(MoveOccupant(s, from, to).state, t) == ObjectTypeCount(s, t)
  {
    var s' := MoveOccupant(s, from, to).state;
    var p := PersonObject(Mover(s.cells[from]).value.person.(location := to));
    assert from in Locs(s, PersonType);
    assert to !in Locs(s, PersonType);
    forall t, k
      ensures k in Locs(s', t) <==> k in s'.cells && Holds(s'.cells[k], t)
    {
      if k == from {
        assert Holds(s'.cells[k], t) <==> t == LightBarrierType && s.cells[from].Walkable?;
      } else if k == to {
        assert Holds(s'.cells[k], t) <==> t == PersonType || (t == LightBarrierType && s.cells[to].Walkable?);
      }
    }
    assert |Locs(s', PersonType)| == |Locs(s, PersonType)| by {
      assert Locs(s', PersonType) == Locs(s, PersonType) - {from} + {to};
      assert |Locs(s, PersonType) - {from}| == |Locs(s, PersonType)| - 1;
    }
  }

  /** `removeOccupant(location)`: false on an empty cell; otherwise the rider
      of a walkable object, or else the whole occupant, is removed together
      with its index entry. */
  function RemoveOccupant(s: State, l: Location): (r: (State, bool, seq<UpdateEvent>))
    requires WellFormed(s) && InGrid(s, l)
    ensures WellFormed(r.0)
    ensures r.1 <==> !s.cells[l].Empty?
    ensures !r.1 ==> r.0 == s && r.2 == []
    ensures r.1 ==> var t := TypeOf(Upper(s.cells[l]).value);
      && r.0.cells == s.cells[l := if s.cells[l].Walkable? && s.cells[l].rider.Some? then Walkable(s.cells[l].base, None) else Empty]
      && Locs(r.0, t) == Locs(s, t) - {l}
      && (forall u :: u != t ==> Locs(r.0, u) == Locs(s, u))
      && r.2 == [UpdateEvent(if s.cells[l].Walkable? && s.cells[l].rider.Some? then Changed else Removed, l)]
  {
    match s.cells[l]
    case Empty => (s, false, [])
    case Walkable(b, None) =>
      var s1 := s.(cells := s.cells[l := Empty]);
      (SetLocs(s1, TypeOf(b), Locs(s, TypeOf(b)) - {l}), true, [UpdateEvent(Removed, l)])
    case Walkable(b, Some(rider)) =>
      var s1 := s.(cells := s.cells[l := Walkable(b, None)]);
      (SetLocs(s1, TypeOf(rider), Locs(s, TypeOf(rider)) - {l}), true, [UpdateEvent(Changed, l)])
    case Solid(o) =>
      var s1 := s.(cells := s.cells[l := Empty]);
      (SetLocs(s1, TypeOf(o), Locs(s, TypeOf(o)) - {l}), true, [UpdateEvent(Removed, l)])
  }

  /** Removal keeps the invariant and lowers the count of the removed
      object's type by one; a removed rider's cell can be occupied again. */
  lemma RemoveKeepsInv(s: State, l: Location)
    requires Inv(s) && InGrid(s, l)
    requires !s.cells[l].Empty?
    ensures var (s', _, _) := RemoveOccupant(s, l);
      && Inv(s')
      && CanBeOccupied(s', l)
      && ObjectTypeCount(s', TypeOf(Upper(s.cells[l]).value)) == ObjectTypeCount(s, TypeOf(Upper(s.cells[l]).value)) - 1
  {
    var s' := RemoveOccupant(s, l).0;
    var t := TypeOf(Upper(s.cells[l]).value);
    assert l in Locs(s, t);
    forall u, k
      ensures k in Locs(s', u) <==> k in s'.cells && Holds(s'.cells[k], u)
    {
      if k == l {
        assert Holds(s'.cells[k], u) <==> u == LightBarrierType && s'.cells[l].Walkable?;
      }
    }
  }
  /** `StateCell.canBeOccupied` and `WalkableSimObject.isFree`: a cell can be
      taken exactly when it is empty or its walkable object has no rider, so
      under the invariant a cell holding a non-walkable object never can. */
  lemma CanBeOccupiedIff(s: State, l: Location)
    requires Inv(s) && InGrid(s, l)
    ensures CanBeOccupied(s, l) <==> Mover(s.cells[l]).None?
    ensures CellOccupant(s, l).Some? && !IsWalkable(CellOccupant(s, l).value) ==> !CanBeOccupied(s, l)
    ensures IsCellFree(s, l) ==> CanBeOccupied(s, l)
  {
  }

  /** The object a cell stores itself (`StateCell.getOccupant`). */
  function Stored(c: Cell): (o: SimObject)
    requires !c.Empty?
    ensures c.Solid? ==> o == c.occupant
    ensures c.Walkable? ==> o == c.base
  {
    if c.Solid? then c.occupant else c.base
  }

  /** How `getObjectsForType` throws: a listed location off the grid fails
      the array access, and a listed cell that is empty fails `orElseThrow`. */
  datatype ListError = IndexOutOfBounds | NoSuchElement

  /** A listed location the lookup of `getCellOccupant` fails on. */
  predicate Unlisted(s: State, l: Location) {
    l !in s.cells || s.cells[l].Empty?
  }

  /** `getObjectsForType` as written: the object each listed cell stores
      itself, which for a cell with a rider is the walkable object under the
      rider, not the rider. A stale index entry makes it throw: an entry off
      the grid is reported before an empty cell, the order of a hash set
      being unknown. */
  function ObjectsForType(s: State, t: SimObjectType): (r: Result<set<SimObject>, ListError>)
    ensures r.Err? <==> exists l | l in Locs(s, t) :: Unlisted(s, l)
    ensures r == Err(NoSuchElement) <==>
      (exists l | l in Locs(s, t) :: Unlisted(s, l)) && forall l | l in Locs(s, t) :: l in s.cells
    ensures r.Ok? ==> forall l | l in Locs(s, t) :: Stored(s.cells[l]) in r.value
    ensures r.Ok? ==> forall o | o in r.value :: exists l :: l in Locs(s, t) && Stored(s.cells[l]) == o
    ensures r.Ok? ==> |r.value| <= ObjectTypeCount(s, t)
  {
    if exists l | l in Locs(s, t) :: l !in s.cells then Err(IndexOutOfBounds)
    else if exists l | l in Locs(s, t) :: s.cells[l].Empty? then Err(NoSuchElement)
    else
      var r := set l | l in Locs(s, t) :: Stored(s.cells[l]);
      ImageSmaller(s, t, r);
      Ok(r)
  }

  lemma {:induction false} ImageSmaller(s: State, t: SimObjectType, r: set<SimObject>)
    requires forall l | l in Locs(s, t) :: l in s.cells && !s.cells[l].Empty?
    requires r == set l | l in Locs(s, t) :: Stored(s.cells[l])
    ensures |r| <= |Locs(s, t)|
    decreases |Locs(s, t)|
  {
    var ls := Locs(s, t);
    if ls != {} {
      var l :| l in ls;
      var s' := SetLocs(s, t, ls - {l});
      var r' := set k | k in Locs(s', t) :: Stored(s'.cells[k]);
      ImageSmaller(s', t, r');
      assert r <= r' + {Stored(s.cells[l])};
      assert |r| <= |r' + {Stored(s.cells[l])}| <= |r'| + 1 by {
        SubsetSize(r, r' + {Stored(s.cells[l])});
      }
    }
  }

  lemma SubsetSize<T>(a: set<T>, b: set<T>)
    requires a <= b
    ensures |a| <= |b|
  {
    assert b == a + (b - a);
  }

  /** The code as written: for a person standing on a light barrier, the
      people the index lists include the light barrier itself, so the cast to
      `Person` that `calculatePotential` applies to every element fails. */
  lemma RiderListedAsWalkable(s: State, l: Location)
    requires Inv(s) && InGrid(s, l)
    requires s.cells[l].Walkable? && s.cells[l].rider.Some? && s.cells[l].rider.value.PersonObject?
    ensures ObjectsForType(s, PersonType).Ok?
    ensures exists o :: o in ObjectsForType(s, PersonType).value && !o.PersonObject?
  {
    assert l in Locs(s, PersonType);
    assert Stored(s.cells[l]) in ObjectsForType(s, PersonType).value;
  }

  /** The object of type `t` a listed cell holds: the walkable object for its
      own type, the rider or the solid occupant otherwise. */
  function ObjectOfType(c: Cell, t: SimObjectType): (o: SimObject)
    requires Holds(c, t)
    ensures c.Walkable? && c.rider.Some? && t != LightBarrierType ==> o == c.rider.value
  {
    match c
    case Solid(o) => o
    case Walkable(b, rider) => if t == LightBarrierType then b else rider.value
  }

  /** `getObjectsForType` as evidently intended: the objects of the asked
      type, riders included. */
  function ObjectsOfType(s: State, t: SimObjectType): (r: set<SimObject>)
    requires Inv(s)
    ensures forall o | o in r :: TypeOf(o) == t
    ensures forall l | l in Locs(s, t) :: ObjectOfType(s.cells[l], t) in r
  {
    set l | l in Locs(s, t) :: ObjectOfType(s.cells[l], t)
  }

  /** The intended listing of people holds people only, and it holds every
      person in the grid, riders included. */
  lemma ObjectsOfTypeArePeople(s: State, l: Location)
    requires Inv(s) && InGrid(s, l)
    requires Upper(s.cells[l]).Some? && Upper(s.cells[l]).value.PersonObject?
    ensures Upper(s.cells[l]).value in ObjectsOfType(s, PersonType)
    ensures forall o | o in ObjectsOfType(s, PersonType) :: o.PersonObject?
  {
    assert l in Locs(s, PersonType);
  }
}

=== FILE: step.dfy ===
/** One move of one person (`DefaultMovementStrategy.move`): the person's
    next cells are chosen; without any the person is postponed
    (`onCouldNotMovePerson`), otherwise one of them is taken
    (`onMovePerson`): a cached target hands the person to its consume
    strategy, any other cell is walked to, and the next move follows once
    the step is walked. */
module Stepping {
  import opened Wrappers
  import RealMath
  import opened Locations
  import opened ObjectTypes
  import opened SimObjects
  import opened Persons
  import opened States
  import opened Randomness
  import opened Potentials
  import opened Movement
  import Scheduling
  import opened Actions
  import opened Consuming

  /** Why a move throws: the person heads for a cell without a cached
      potential (the `null` matrix), a cached target cell holds no target
      (`orElseThrow` or the cast), the consume strategy throws, or the
      delay of a postponed move is negative (`Postponed`). `InstantWalk`
      stands for a recorded walk that would take no time at all: the code
      divides by zero there and records an infinite speed, which is not
      modelled. */
  datatype StepError = NoPotential | NotATarget | ConsumeFailed(cause: ReviveError) | Postponed | InstantWalk

  /** What a move leaves: the state, the scheduler, the generator, the
      person (unless a target removed them), and whether a light barrier
      counted a step onto it. */
  datatype Stepped = Stepped(state: State, scheduler: Scheduling.Scheduler<Handler>, rng: Random,
                             person: Option<Person>, triggered: bool)

  /** `onCouldNotMovePerson`: one more blocked attempt in a row is counted
      on the person where they stand, and their next move by `mover`'s
      strategy is postponed. */
  function Blocked(s: State, sched: Scheduling.Scheduler<Handler>, g: Random, p: Person, mover: Location)
    : (r: Result<Stepped, StepError>)
    requires WellFormed(s) && Scheduling.Inv(sched) && StandsAt(s, p) && 0.0 < p.speed
    ensures r.Err? <==> r == Err(Postponed)
    ensures r.Err? <==> RetryDelay(sched, NextDouble(g).0, 1.0 / p.speed) < 0.0
    ensures r.Ok? ==>
      && r.value.person == Some(CouldNotMove(p))
      && r.value.state.index == s.index && r.value.rng == NextDouble(g).1 && !r.value.triggered
      && r.value.state.cells == s.cells[p.location := Installed(Vacated(s.cells[p.location]), PersonObject(CouldNotMove(p)))]
      && Scheduling.Inv(r.value.scheduler)
      && Scheduling.Handlers(r.value.scheduler.queue) == Scheduling.Handlers(sched.queue) + multiset{MoveOf(p.id, mover)}
    ensures r.Ok? && Inv(s) ==> Inv(r.value.state)
  {
    var s1 := ReplacePerson(s, p.location, CouldNotMove(p));
    match Postpone(sched, g, p, mover)
    case Err(_) => Err(Postponed)
    case Ok((sc, g1)) => Ok(Stepped(s1, sc, g1, Some(CouldNotMove(p)), false))
  }

  /** The state part of a walk of `onMovePerson` to a cell that is not a
      cached target: the person is moved when the cell can be occupied (and
      stays otherwise) and the walk is recorded as ending at `next`. */
  function Stride(s: State, p: Person, to: Location, next: real, d: real): (r: (State, Person, bool))
    requires WellFormed(s) && StandsAt(s, p) && InGrid(s, to) && p.location != to
    requires next != p.lastMoveTimestamp
    ensures r.1.location == (if CanBeOccupied(s, to) then to else p.location)
    ensures r.1 == AddMovementRecord(p.(location := r.1.location), next, d)
    ensures r.2 == (CanBeOccupied(s, to) && s.cells[to].Walkable?)
    ensures WellFormed(r.0) && StandsAt(r.0, r.1)
    ensures CanBeOccupied(s, to) ==>
      && r.0.cells == s.cells[p.location := Vacated(s.cells[p.location])][to := Installed(s.cells[to], PersonObject(r.1))]
      && Locs(r.0, PersonType) == Locs(s, PersonType) - {p.location} + {to}
      && forall t :: t != PersonType ==> Locs(r.0, t) == Locs(s, t)
    ensures !CanBeOccupied(s, to) ==>
      r.0.index == s.index && r.0.cells == s.cells[p.location := Installed(Vacated(s.cells[p.location]), PersonObject(r.1))]
    ensures Inv(s) ==> Inv(r.0) && forall t :: ObjectTypeCount(r.0, t) == ObjectTypeCount(s, t)
  {
    if CanBeOccupied(s, to) then
      var (s1, triggered) := Relocate(s, p, to, p.target);
      var q := AddMovementRecord(p.(location := to), next, d);
      assert Installed(Vacated(s1.cells[to]), PersonObject(q)) == Installed(s.cells[to], PersonObject(q));
      (ReplacePerson(s1, to, q), q, triggered)
    else
      var q := AddMovementRecord(p, next, d);
      (ReplacePerson(s, p.location, q), q, false)
  }

  /** The walk of `onMovePerson` to a cell that is not a cached target: the
      step is walked (see `Stride`) as ending `distance / speed` from now,
      and the next move by `mover`'s strategy is scheduled for then. */
  function Walk(m: RealMath.Oracle, s: State, sched: Scheduling.Scheduler<Handler>, g: Random, p: Person,
                to: Location, mover: Location): (r: Result<Stepped, StepError>)
    requires RealMath.Valid(m) && WellFormed(s) && Scheduling.Inv(sched) && StandsAt(s, p) && 0.0 < p.speed
    requires InGrid(s, to) && Chebyshev(p.location, to) == 1
    ensures var next := sched.now + WalkTime(m, p, to);
      && (r.Err? <==> next == p.lastMoveTimestamp)
      && (r.Err? ==> r == Err(InstantWalk))
      && (r.Ok? ==>
            && var stride := Stride(s, p, to, next, Distance(m, p.location, to));
            && r.value.state == stride.0 && r.value.person == Some(stride.1) && r.value.triggered == stride.2
            && r.value.rng == g
            && Scheduling.Inv(r.value.scheduler)
            && Scheduling.Handlers(r.value.scheduler.queue) == Scheduling.Handlers(sched.queue) + multiset{MoveOf(p.id, mover)})
  {
    var delta := WalkTime(m, p, to);
    var next := sched.now + delta;
    if next == p.lastMoveTimestamp then Err(InstantWalk)
    else
      var sc := Scheduling.ScheduleIn(sched, MoveOf(p.id, mover), delta).value;
      var (s', q, triggered) := Stride(s, p, to, next, Distance(m, p.location, to));
      Ok(Stepped(s', sc, g, Some(q), triggered))
  }

  /** A person whose last walk ended now walks the next step at exactly
      their nominal speed: that is the speed the record adds, and the walk
      ends one step's time from now. */
  lemma WalkRecordsNominalSpeed(m: RealMath.Oracle, s: State, sched: Scheduling.Scheduler<Handler>, g: Random, p: Person,
                                to: Location, mover: Location)
    requires RealMath.Valid(m) && WellFormed(s) && Scheduling.Inv(sched) && StandsAt(s, p) && 0.0 < p.speed
    requires InGrid(s, to) && Chebyshev(p.location, to) == 1
    requires p.lastMoveTimestamp == sched.now
    ensures Walk(m, s, sched, g, p, to, mover).Ok?
    ensures var q := Walk(m, s, sched, g, p, to, mover).value.person.value;
      && q.speedHistory == p.speedHistory + [p.speed]
      && q.lastMoveTimestamp == sched.now + WalkTime(m, p, to)
  {
    var t := WalkTime(m, p, to);
    var d := Distance(m, p.location, to);
    var stride := Stride(s, p, to, sched.now + t, d);
    RecordAtNominalSpeed(p.(location := stride.1.location), t, d);
    assert Walk(m, s, sched, g, p, to, mover).value.person == Some(stride.1);
  }

  /** A walk recorded as taking `t` to cover what the nominal speed covers
      in `t` is recorded at the nominal speed. */
  lemma RecordAtNominalSpeed(p: Person, t: real, d: real)
    requires 0.0 < t && 0.0 < p.speed && t * p.speed == d
    ensures AddMovementRecord(p, p.lastMoveTimestamp + t, d).speedHistory == p.speedHistory + [p.speed]
  {
    var q := AddMovementRecord(p, p.lastMoveTimestamp + t, d);
    var x := q.speedHistory[|p.speedHistory|];
    assert x * t == t * p.speed;
    assert q.speedHistory == p.speedHistory + [x];
  }

  /** How long a step to a neighbouring cell takes: `1 / speed * distance`,
      which is positive. */
  function WalkTime(m: RealMath.Oracle, p: Person, to: Location): (t: real)
    requires RealMath.Valid(m) && 0.0 < p.speed && Chebyshev(p.location, to) == 1
    ensures 0.0 < t
    ensures t * p.speed == Distance(m, p.location, to)
  {
    var d := Distance(m, p.location, to);
    NeighbourDistance(m, p.location, to);
    1.0 / p.speed * d
  }

  /** `move(person, state, scheduler)` of the move strategy configured at
      `mover`. `cache` is the strategy's potential per target,
      `cachedTargets` the targets it found at `init`, and `sources` and
      `targets` what the revive strategies found at theirs. */
  function Step(m: RealMath.Oracle, s: State, sched: Scheduling.Scheduler<Handler>, g: Random, p: Person, mover: Location,
                strategy: MoveStrategy, cache: map<Location, Field>, cachedTargets: set<Location>,
                sources: seq<Location>, targets: seq<Location>): (r: Result<Stepped, StepError>)
    requires RealMath.Valid(m) && WellFormed(s) && Scheduling.Inv(sched) && StandsAt(s, p) && 0.0 < p.speed
    requires forall t | t in cache :: Covers(cache[t], s.rows, s.columns)
    ensures p.target !in cache ==> r == Err(NoPotential)
    ensures p.target in cache ==>
      var (ks, g1) := ChooseNextLocations(m, s, p, cache[p.target], strategy, g);
      && (ks == [] ==> r == Blocked(s, sched, g1, p, mover))
      && (ks != [] ==> r == Commit(m, s, sched, g1, CouldMove(p), ks, mover, cachedTargets, sources, targets))
  {
    if p.target !in cache then Err(NoPotential)
    else
      var (ks, g1) := ChooseNextLocations(m, s, p, cache[p.target], strategy, g);
      if ks == [] then Blocked(s, sched, g1, p, mover)
      else Commit(m, s, sched, g1, CouldMove(p), ks, mover, cachedTargets, sources, targets)
  }

  /** `onMovePerson` with the run of blocked attempts already reset: the
      only chosen cell, or a random one of several; a cached target hands
      the person to the target's consume strategy, any other cell is
      walked to. */
  function Commit(m: RealMath.Oracle, s: State, sched: Scheduling.Scheduler<Handler>, g: Random, p: Person,
                  ks: seq<Location>, mover: Location, cachedTargets: set<Location>,
                  sources: seq<Location>, targets: seq<Location>): (r: Result<Stepped, StepError>)
    requires RealMath.Valid(m) && WellFormed(s) && Scheduling.Inv(sched) && 0.0 < p.speed
    requires InGrid(s, p.location) && Mover(s.cells[p.location]).Some? && Mover(s.cells[p.location]).value.PersonObject?
    requires ks != [] && forall k | k in ks :: InGrid(s, k) && Chebyshev(p.location, k) == 1
    ensures var (i, g1) := Choice(ks, g);
      var to := ks[i];
      var s1 := ReplacePerson(s, p.location, p);
      && (to in cachedTargets && !(CellOccupant(s, to).Some? && CellOccupant(s, to).value.Target?) ==> r == Err(NotATarget))
      && (to in cachedTargets && CellOccupant(s, to).Some? && CellOccupant(s, to).value.Target? ==>
            r == Consume(m, s1, sched, g1, p, CellOccupant(s, to).value.targetConfig.consumeStrategy, sources, targets))
      && (to !in cachedTargets ==> r == Walk(m, s1, sched, g1, p, to, mover))
    ensures r.Ok? && Inv(s) ==> Inv(r.value.state)
    ensures r.Ok? && Inv(s) ==>
      ObjectTypeCount(r.value.state, PersonType) == ObjectTypeCount(s, PersonType) - (if r.value.person.None? then 1 else 0)
    ensures r.Ok? && r.value.person.None? ==> r.value.scheduler == sched
    ensures r.Ok? && r.value.person.Some? ==>
      && r.value.person.value.id == p.id && r.value.person.value.couldNotMoveCounter == p.couldNotMoveCounter
      && AddsOneMove(sched.queue, r.value.scheduler.queue, p.id)
  {
    var (i, g1) := Choice(ks, g);
    var to := ks[i];
    var s1 := ReplacePerson(s, p.location, p);
    assert Inv(s) ==> Inv(s1) && forall t :: ObjectTypeCount(s1, t) == ObjectTypeCount(s, t);
    if to in cachedTargets then
      match CellOccupant(s, to)
      case Some(Target(_, config)) => Consume(m, s1, sched, g1, p, config.consumeStrategy, sources, targets)
      case _ => Err(NotATarget)
    else
      Walk(m, s1, sched, g1, p, to, mover)
  }

  /** The index of the chosen cell: the first of a single choice without a
      draw, otherwise a draw among all of them. */
  function Choice(ks: seq<Location>, g: Random): (r: (int, Random))
    requires ks != []
    ensures 0 <= r.0 < |ks|
    ensures |ks| == 1 ==> r == (0, g)
    ensures |ks| > 1 ==> r.1 == Stream(g.at, g.pos + 1)
  {
    if |ks| == 1 then (0, g) else NextInt(g, |ks|).value
  }

  /** The target's consume strategy takes the person over. */
  function Consume(m: RealMath.Oracle, s: State, sched: Scheduling.Scheduler<Handler>, g: Random, p: Person,
                   strategy: ConsumeStrategy, sources: seq<Location>, targets: seq<Location>): (r: Result<Stepped, StepError>)
    requires RealMath.Valid(m) && WellFormed(s) && Scheduling.Inv(sched) && StandsAt(s, p) && 0.0 < p.speed
    ensures r.Err? <==> ReachedTarget(strategy, m, s, sched, g, p, sources, targets).Err?
    ensures r.Ok? ==> var c := ReachedTarget(strategy, m, s, sched, g, p, sources, targets).value;
      r.value == Stepped(c.state, c.scheduler, c.rng, c.person, c.triggered)
    ensures r.Ok? && Inv(s) ==> Inv(r.value.state)
    ensures r.Ok? && Inv(s) ==>
      ObjectTypeCount(r.value.state, PersonType) == ObjectTypeCount(s, PersonType) - (if r.value.person.None? then 1 else 0)
    ensures r.Ok? && r.value.person.None? ==> r.value.scheduler == sched
    ensures r.Ok? && r.value.person.Some? ==>
      && r.value.person.value.id == p.id && r.value.person.value.couldNotMoveCounter == p.couldNotMoveCounter
      && AddsOneMove(sched.queue, r.value.scheduler.queue, p.id)
  {
    match ReachedTarget(strategy, m, s, sched, g, p, sources, targets)
    case Err(e) => Err(ConsumeFailed(e))
    case Ok(c) => Ok(Stepped(c.state, c.scheduler, c.rng, c.person, c.triggered))
  }

  /** A move accounts for the person: it keeps the invariant; a person
      taken over by a target that removes them leaves the count of people
      one lower and nothing scheduled for them, and a person who remains
      keeps their id, keeps the count, and has exactly one move more
      pending. Their run of blocked attempts grows by one exactly when no
      cell was chosen, and is over otherwise. */
  lemma StepAccountsForPerson(m: RealMath.Oracle, s: State, sched: Scheduling.Scheduler<Handler>, g: Random, p: Person,
                              mover: Location, strategy: MoveStrategy, cache: map<Location, Field>,
                              cachedTargets: set<Location>, sources: seq<Location>, targets: seq<Location>)
    requires RealMath.Valid(m) && Inv(s) && Scheduling.Inv(sched) && StandsAt(s, p) && 0.0 < p.speed
    requires forall t | t in cache :: Covers(cache[t], s.rows, s.columns)
    requires Step(m, s, sched, g, p, mover, strategy, cache, cachedTargets, sources, targets).Ok?
    ensures p.target in cache
    ensures var r := Step(m, s, sched, g, p, mover, strategy, cache, cachedTargets, sources, targets).value;
      && Inv(r.state)
      && ObjectTypeCount(r.state, PersonType) == ObjectTypeCount(s, PersonType) - (if r.person.None? then 1 else 0)
      && (r.person.None? ==> r.scheduler == sched)
      && (r.person.Some? ==> r.person.value.id == p.id && AddsOneMove(sched.queue, r.scheduler.queue, p.id))
      && var ks := ChooseNextLocations(m, s, p, cache[p.target], strategy, g).0;
      && (ks == [] ==> r.person == Some(CouldNotMove(p)))
      && (ks != [] && r.person.Some? ==> r.person.value.couldNotMoveCounter == 0)
  {
    var (ks, g1) := ChooseNextLocations(m, s, p, cache[p.target], strategy, g);
    if ks == [] {
      var r := Blocked(s, sched, g1, p, mover).value;
      assert Scheduling.Handlers(r.scheduler.queue) == Scheduling.Handlers(sched.queue) + multiset{MoveOf(p.id, mover)};
    }
  }
}

=== FILE: wrappers.dfy ===
/** Failure-compatible wrappers used by every module of the simulation model:
    `Option` stands in for Java's `null` / `Optional`, and `Result` for a value
    or the exception an operation throws instead. */
module Wrappers {

  /** A possibly absent value (a nullable reference or an `Optional`). */
  datatype Option<+T> = None | Some(value: T) {

    predicate IsFailure() {
      None?
    }

    function PropagateFailure<U>(): Option<U>
      requires None?
    {
      None
    }

    function Extract(): T
      requires Some?
    {
      value
    }

    /** `Optional.orElse`. */
    function GetOr(default: T): (r: T)
      ensures Some? ==> r == value
      ensures None? ==> r == default
    {
      match this
      case Some(v) => v
      case None => default
    }
  }

  /** Either the value an operation returns or the exception it throws. */
  datatype Result<+T, +E> = Ok(value: T) | Err(error: E) {

    predicate IsFailure() {
      Err?
    }

    function PropagateFailure<U>(): Result<U, E>
      requires Err?
    {
      Err(error)
    }

    function Extract(): T
      requires Ok?
    {
      value
    }
  }
}
